=== FILE: README.md ===
# block-distractions, modelled in Dafny

block-distractions keeps distracting web sites blocked through the hosts file
of a laptop and, optionally, a remote dnsmasq server. It unlocks them for a
while when the user proves the day's work through their Obsidian daily note
(checked boxes, frontmatter fields, headings with content, word counts of
linked files), and it allows a few emergency unlocks a day, each behind a
longer wait. A daemon re-checks the rules every few minutes and can unlock
automatically after a configured time of day. A small web server takes unlock
requests from a phone, and the laptop polls it over ssh.

This project models the decision logic of that system as pure functions over
immutable data, and proves what each operation promises:

- `DailyState`: the daily unlock record (`State`, lib/state.py). It covers the
  wholesale reset on a new day, the lazily computed blocked flag, timed and
  extended unlocks, the emergency counter with its geometric wait,
  force-blocking, remaining-time formatting and the status.
- `Unlock`: the unlock manager (lib/unlock.py). It covers the condition cache,
  ANY/ALL aggregation with fail-safe errors, proof-of-work and emergency
  unlocks, force-blocking and reconciliation of the hosts file and the remote.
- `Daemon`: the auto-unlock decision and one tick of the daemon (lib/daemon.py).
- Condition plumbing:
  - `Registry`: the type registry (lib/conditions/registry.py).
  - `ConditionContext`: dotted secret lookup (lib/conditions/context.py).
  - `Checkers`: the built-in condition classes (lib/conditions/obsidian.py).
- Daily-note predicates and word counting:
  - `Notes`: checked checkboxes.
  - `Headings`: headings with content and section extraction.
  - `Markdown`: wiki-links and frontmatter.
  - `NoteParser`: frontmatter fields, the regex error path and the dispatch of
    `check_condition` (lib/obsidian.py).
  - `WordCount`: the word counter (lib/wordcount.py).
- Hosts and remote DNS:
  - `Hosts`: the block-section editor of the hosts file.
  - `RemoteSync`: the dnsmasq blocklist and its upload (lib/hosts.py).
- `Retry`: the retry loop for transient ssh failures. It is shared by the
  remote state store, the remote DNS sync and the phone poller.
- `Config`: deep merge, dotted get/set and the blocklist edits
  (lib/config.py).
- The phone request queue:
  - `PhoneRequests`: bearer-token admission, one pending request per kind, and
    completion with retention of the last ten completed requests
    (remote_api/server.py).
  - `Poll`: the laptop side (lib/poll.py).
- `Analyze`: the log analysis of tools/analyze_experiment.py.

Shared foundations: `Wrappers` (an option type), `Outcomes` (a Python call
either returns or raises, and a raise is `ValueError` or some other
exception), `Dict` (insertion-ordered association lists with Python `dict`
semantics), `JsonData` (the dynamically typed values read from YAML and JSON,
with Python truthiness and `.get`), `Text` (Python `str` operations) and
`Sorting` (`sorted(set(...))` on strings).

Several things are parameters rather than part of the model:

- The clock and the calendar are `now` (whole seconds), `today` (an ISO
  date), and `hour` and `minute`.
- The hosts file is its text, and every edit returns the text to write.
- A remote command is a sequence of attempt outcomes, each an exit with
  status, stdout and stderr, or a timeout.
- The vault is data: today's note, the files links resolve to, a YAML parser
  and a regex searcher.
- Plugin condition code is a pair of functions.

## Model

| member | source | states |
|---|---|---|
| DailyState.DayReset | lib/state.py:199-214 | a record from another day becomes exactly the fresh record (date today, no window, no emergencies, wait 0, blocked, no conditions flag); a record of today is returned unchanged |
| DailyState.DayResetIdempotent | lib/state.py:199-214 | resetting twice on the same day is the same as resetting once |
| DailyState.IsBlocked | lib/state.py:221-237 | not blocked exactly when a window is open (`0 < until` and `now < until`) or there is no window and the stored flag is false; an expired window is written back as `until = 0, blocked = true` and answers blocked; with no window the answer is the stored flag, true when absent |
| DailyState.IsBlockedExactlyInWindow | lib/state.py:221-237 | on a record that is not marked unblocked without a window, unblocked if and only if the clock is inside a positive unlock window |
| DailyState.IsBlockedStable | lib/state.py:221-237 | reading the blocked flag a second time at the same moment gives the same answer and writes nothing more |
| DailyState.BlockedStaysBlocked | lib/state.py:221-237 | once a read at `now` says blocked, a later read of the record it leaves still says blocked |
| DailyState.ConsistentPreserved | lib/state.py:199-319 | the fresh record, the day reset, a read, a timed unlock or extension with a positive end, an emergency record and a force-block all keep the record consistent: an unblocked flag comes with a positive window |
| DailyState.RemainingSeconds | lib/state.py:244-248 | the remaining seconds are never negative, zero exactly when the window has ended, and otherwise reach the window's end from `now` |
| DailyState.FormatRemainingRoundTrip | lib/state.py:250-261 | "0:00" for no time left; otherwise the text parses back to the same number of seconds, with three fields exactly when at least an hour is left, and the minute and second fields below 60 |
| DailyState.SetUnlocked | lib/state.py:274-279 | sets the window to `now + d` and the flag to unblocked, overwriting any active window and changing no other field |
| DailyState.SetUnlockedWindow | lib/state.py:274-279 | after `set_unlocked(d)` the sites are unblocked exactly at times before `now + d`; with `d <= 0` (and a positive end) they are blocked at once |
| DailyState.ExtendUnlock | lib/state.py:281-295 | an active window grows by exactly `d`; otherwise the window becomes `now + d`; the flag becomes unblocked; no other field changes |
| DailyState.ExtendAtLeastSet | lib/state.py:281-295 | extending never gives a shorter window than setting would |
| DailyState.EmergencyCount | lib/state.py:263-267 | the count is read after the day reset, so it is zero on a new day |
| DailyState.RecordEmergency | lib/state.py:297-302 | the count grows by exactly one, the wait is stored, and the window and flag are unchanged |
| DailyState.CanEmergency | lib/state.py:304-307 | another emergency unlock is allowed if and only if today's count is below the cap |
| DailyState.RecordAllCounts | lib/state.py:297-302 | recording `n` emergencies raises today's count by exactly `n` |
| DailyState.EmergencyCapReached | lib/state.py:304-307 | after `m` emergencies on a fresh day a cap of `m` refuses, and any larger cap still allows |
| DailyState.NextEmergencyWait | lib/state.py:309-312 | on a new day the next wait is the initial wait |
| DailyState.NextWaitGrows | lib/state.py:309-312 | each recorded emergency multiplies the next wait by the multiplier, giving `initial * multiplier^count` |
| DailyState.ForceBlock | lib/state.py:314-319 | clears the window and sets blocked, and leaves the date, the count, the last wait and the conditions flag unchanged |
| DailyState.ForceBlockBlocks | lib/state.py:314-319 | after force-blocking, the sites are blocked at every time that day and reading writes nothing more |
| DailyState.GetStatus | lib/state.py:321-331 | the status reports the machine's local date (which may differ from the remote date the day reset uses), the blocked answer, the window end after an expired window is closed (0 then), the remaining time formatted from that end, and the emergency count of the reset record (0 on a new day); used plus remaining emergencies is 3 while at most 3 are used, and none remain from 3 on |
| DailyState.StatusRemainingAgrees | lib/state.py:321-331 | a blocked status shows "0:00" remaining, and an unblocked one with a window shows a nonzero remaining time |
| DailyState.RemoteStoreSettingsOf | lib/state.py:25-36 | `enabled` defaults to false; host and user are the store's own when set and otherwise the fallback's; the state path has its default; with the empty fallback the program always passes, host and user are set only by the store's own section |
| DailyState.NotConfiguredWithout | lib/state.py:38-40 | the remote store counts as configured only when enabled and a host and a user are set, its own or the fallback's |
| Retry.RunWithRetry | lib/state.py:42-72 | between one and three runs with sleeps of 2 s then 4 s between them; success exactly when the last run exited 0, with its output; a timeout escapes exactly when the caller does not catch it; a failure reports the stripped stderr |
| Retry.TransientMeaning | lib/state.py:53-60 | an error is retried exactly when it contains one of the five transient ssh signatures |
| Retry.RetriesOnlyRetryable | lib/hosts.py:214-252 | every run before the last was a retryable failure, and a failure is reported only after three runs or at a non-retryable one |
| Retry.FirstSuccessStops | lib/hosts.py:223-230 | a first run that exits 0 is the only run, with no sleep |
| Retry.TransientFailuresExhaust | lib/hosts.py:232-250 | three transient failures report the third error after sleeping 2 s and 4 s |
| Retry.LoopEndsAtFirstEnd | lib/hosts.py:223-252 | the loop stops at the first run that succeeds, fails for good or times out, and reports that run |
| Config.DeepMergeReads | lib/config.py:94-100 | every override key ends up in the result; dictionary pairs merge recursively; any other override value replaces; base-only keys are kept |
| JsonData.LookupMeaning | lib/config.py:108-117 | the dotted walk returns the value reached, or the default on a missing segment or a non-dictionary on the way |
| Config.AccessorPaths | lib/config.py:108-117 | `get` of a one- or two-segment dotted key is the walk through those segments |
| Config.SetPathThenLookup | lib/config.py:119-127 | setting along a path succeeds exactly when no non-dictionary value blocks it, and then a lookup of the path gives the value while other top-level keys keep theirs |
| Config.SetThenGet | lib/config.py:119-127 | `set(k, v)` then `get(k)` returns `v` |
| Config.EmptyPathOpen | lib/config.py:119-127 | setting any path in an empty tree succeeds, so missing dictionaries are created on the way |
| Config.AddBlockedSite | lib/config.py:159-165 | the site is in the result, the old list is a prefix, and the length grows by at most one |
| Config.AddKeepsDistinct | lib/config.py:159-165 | adding keeps a duplicate-free list duplicate-free, and leaves the list as it is exactly when the site is already there |
| Config.RemoveOneOccurrence | lib/config.py:167-173 | an absent site changes nothing; for a present one the result is the list with its first occurrence cut out, the rest in order, so one occurrence fewer as a multiset, and the site is gone from a duplicate-free list |
| Config.Section | lib/config.py:140-142 | a dictionary-valued setting (`conditions`, and likewise `unlock` at lines 150-152 and `auto_unlock` at lines 155-157) is the configured value, or an empty dictionary when missing |
| Config.BlockedSites | lib/config.py:145-147 | the blocked sites default to an empty list |
| Config.DailyNotePattern | lib/config.py:135-137 | the daily-note pattern defaults to "Daily/{date}.md" |
| ConditionContext.Default | lib/conditions/context.py:18-26 | no vault, pattern "Daily/{date}.md", empty secrets and configuration |
| ConditionContext.SecretOneLevel | lib/conditions/context.py:28-49 | a one-segment secret is the top-level value or the default |
| ConditionContext.SecretTwoLevels | lib/conditions/context.py:42-49 | a two-segment secret walks into the nested dictionary, giving the default when a segment is missing or a value on the way is not a dictionary |
| ConditionContext.NoSecrets | lib/conditions/context.py:28-49 | with the default context every secret is None, the default default |
| Registry.Clear | lib/conditions/registry.py:107-112 | after clearing, no type is listed |
| Registry.RegisterThenGet | lib/conditions/registry.py:33-52 | after registering `t`, `get(t)` is the factory and `t` is registered; other names keep their factories; re-registering replaces |
| Registry.ReRegisterKeepsTypes | lib/conditions/registry.py:48-51 | re-registering a known name keeps the listed types and their order |
| Registry.RegisteredIffListed | lib/conditions/registry.py:86-104 | registered if and only if listed, if and only if `get` finds a factory |
| Registry.Create | lib/conditions/registry.py:67-83 | an unregistered type raises "Unknown condition type: t"; only a registered type is made, and a built-in one only with a vault path |
| Registry.BuiltinNeedsVault | lib/conditions/obsidian.py:17-29 | a built-in condition raises `ValueError` exactly when the context has no vault path, and is made otherwise |
| Registry.BuiltinsRegistered | lib/conditions/obsidian.py:140-153 | importing registers exactly checkbox, yaml, heading, regex and linked_wordcount, in that order |
| Checkers.CheckMeaning | lib/conditions/obsidian.py:47-120 | the four note-based kinds answer "Daily note not found" without a note and otherwise the parser's verdict for their type |
| Checkers.CheckWordcountMeaning | lib/conditions/obsidian.py:132-136 | linked_wordcount raises when the word counter raises and otherwise returns its `(met, description)` unchanged |
| Checkers.CheckWordcountNoNote | lib/conditions/obsidian.py:132-136 | linked_wordcount has no note check of its own: with no note and no configuration it reports no linked files under 'Writing' rather than "Daily note not found" |
| NoteParser.CheckboxVerdictMeaning | lib/conditions/obsidian.py:47-55 | a pattern that is not a string raises `AttributeError` for its missing `startswith`; otherwise met is the parser's checkbox answer, and the description ends " not checked" exactly when unmet |
| NoteParser.YamlVerdictMeaning | lib/conditions/obsidian.py:67-82 | for a field of any type, the check raises exactly when the parser's field check raises and otherwise reports its answer; with a minimum the description ends in it and says ">= m" exactly when met, without one it ends " not set" exactly when unmet |
| NoteParser.YamlDescriptionMeaning | lib/conditions/obsidian.py:78-82 | with a minimum the description ends in it and says ">= m" exactly when met; without one it ends " not set" exactly when unmet |
| NoteParser.YamlNonStringField | lib/conditions/obsidian.py:73-82 | a number, boolean or `None` field of a string-keyed dictionary frontmatter without a minimum is unmet and described as "YAML field '5' not set" |
| NoteParser.HeadingVerdictMeaning | lib/conditions/obsidian.py:93-102 | a section that is not a string raises: `TypeError` from the escape for any level, `AttributeError` otherwise; for a string, met is whether the heading exists with content, and the description ends " empty or missing" exactly when unmet |
| NoteParser.RegexVerdictMeaning | lib/conditions/obsidian.py:112-120 | a pattern that is not a string raises `TypeError`, which the parser does not catch; otherwise met is the search answer, and the description ends " not matched" exactly when unmet |
| NoteParser.ParseFrontmatter | lib/obsidian.py:30-42 | without a fence pair, or with YAML that fails to load or loads to a false value, the frontmatter is an empty dictionary; otherwise the loaded value |
| NoteParser.YamlFieldMeaning | lib/obsidian.py:67-89 | on a dictionary: a list or dictionary field raises as unhashable; any other field that is not a key, non-strings included, is false; a given minimum decides regardless of the expected value; then equality (Python's `==`: numbers by value, dictionaries regardless of key order), then truthiness |
| NoteParser.PyEqKeyOrder | lib/obsidian.py:86 | the equality used for an expected value ignores the order of a dictionary's keys |
| NoteParser.PyEqNested | lib/obsidian.py:86 | the equality compares numbers by value inside containers (`[1] == [True]`) and never equates a string with a number |
| NoteParser.MinimumMeaning | lib/obsidian.py:80-83 | with a minimum, met exactly when the value reads as a number at least the minimum |
| NoteParser.MinimumOfText | lib/obsidian.py:80-83 | a field holding the decimal text of `i` meets minimum `m` exactly when `i >= m` |
| NoteParser.CheckRegex | lib/obsidian.py:124-129 | a malformed pattern answers false instead of raising; otherwise the search's answer |
| NoteParser.CheckConditionMeaning | lib/obsidian.py:185-222 | no note gives "Daily note not found"; a missing type means checkbox; linked_wordcount is unmet and "handled separately"; any other unknown type is unmet with "Unknown condition type: t" |
| Notes.CheckCheckboxMeaning | lib/obsidian.py:44-65 | true exactly when the note has `-` or `*`, optional spaces, a checked box, optional spaces and the pattern's text (its six-character prefix removed), matched ignoring case |
| Notes.UncheckedNeverMatches | lib/obsidian.py:55-65 | a note with no checked box `[x]` or `[X]` (unchecked boxes allowed) never satisfies any checkbox pattern |
| Headings.LineLevelMeaning | lib/obsidian.py:104-112 | a line matches the heading expression exactly when a level is found, and the level is the one requested or, for any level, the longest run of `#` that matches |
| Headings.FirstHeadingMeaning | lib/obsidian.py:104-112 | the first matching line is found, or none when no line matches |
| Headings.HeadingExistsMeaning | lib/obsidian.py:91-122 | false when no heading matches; otherwise true exactly when the first non-blank line after the first match does not start with `#` |
| Headings.TakeSectionMeaning | lib/obsidian.py:148-155 | the section is the longest prefix of the following lines with no heading at the same or a higher level, and the line after it closes the section |
| Headings.SectionContentMeaning | lib/obsidian.py:131-157 | None exactly when no heading matches; otherwise the lines after the first match up to the closing heading, deeper subheadings kept |
| Markdown.RenderRoundTrip | lib/obsidian.py:159-164 | the targets of the links rendered into a text come back in order, aliases dropped, and unlinking leaves each alias in its place |
| Markdown.LinkAtRendered | lib/obsidian.py:159-164 | a rendered `[[target]]` or `[[target\|alias]]` is read back as that link |
| Markdown.FrontmatterSplitMeaning | lib/wordcount.py:22-25 | the text splits into frontmatter and body exactly when it is `---`, text without a fence, `---`, the body |
| WordCount.FrontmatterNotCounted | lib/wordcount.py:22-25 | a text with frontmatter counts only the words after the second fence |
| WordCount.LinksCountTheirAliases | lib/wordcount.py:32 | an unaliased link contributes no words and an aliased one the words of its alias |
| WordCount.PlainTextCount | lib/wordcount.py:16-55 | text without frontmatter and without `[` counts its whitespace-separated words, zero for the empty text |
| WordCount.TallyMeaning | lib/wordcount.py:82-96 | the total is the sum of the per-file counts |
| WordCount.FileCountsResolved | lib/wordcount.py:82-96 | each counted file is a link that resolves, an unreadable one counts 0 and a readable one its words, and links that do not resolve count nothing |
| WordCount.LinkedFilesWordcountMeaning | lib/wordcount.py:57-96 | the total is the sum of the counts; there are none when the note or the section is missing; otherwise the counts are those of the section's links |
| WordCount.WordcountSectionRaises | lib/wordcount.py:104-108 | with a note, a section that is not a string raises `TypeError` for any level and `AttributeError` otherwise |
| WordCount.WordcountNoNote | lib/wordcount.py:104-113 | without a note nothing is counted whatever the section, and the description says no linked files were found under it |
| WordCount.WordcountMeaning | lib/wordcount.py:98-118 | an answer needs a string section (or no note) and a numeric minimum; it reports the linked-file total, is met exactly when the total reaches the minimum, and says no linked files were found exactly when none were counted |
| WordCount.WordcountDefault | lib/wordcount.py:104-110 | with no configuration the "Writing" section is counted at any level and the condition is met from 500 words on |
| WordCount.WordcountDescriptionMeaning | lib/wordcount.py:112-116 | the description says no linked files were found exactly when no file was counted |
| Hosts.BlockEntriesShape | lib/hosts.py:90-102 | the block starts with the begin marker, ends with the end marker, and has two lines per site plus two www lines per site not already starting "www." |
| Hosts.RemoveKeepsOutside | lib/hosts.py:104-124 | removing the section keeps the lines before and after it in order and drops the markers and everything between |
| Hosts.RemoveBlockSectionMeaning | lib/hosts.py:104-124 | the result has no marker line and no trailing blank line, and every line of it was a line of the input or is empty |
| Hosts.BlockedSitesRoundTrip | lib/hosts.py:126-146 | reading the sites back from a rendered block gives the sites not starting "www.", in order |
| Hosts.BlockedIsActive | lib/hosts.py:148-151 | a blocked hosts file is reported as blocking |
| Hosts.OutsideOfBlocked | lib/hosts.py:153-167 | blocking keeps every line outside the block section |
| Hosts.BlockSitesIdempotent | lib/hosts.py:153-167 | blocking the same sites again produces equal stripped content, so nothing is written |
| Hosts.UnblockClears | lib/hosts.py:169-178 | after unblocking no marker is left and no site is read back |
| RemoteSync.SettingsOf | lib/hosts.py:207-212 | an empty configuration gives a disabled remote with the default blocklist path |
| RemoteSync.DnsContentMeaning | lib/hosts.py:271-276 | empty exactly for no sites; otherwise sorted, duplicate-free lines, exactly the sites' `address=/…/` lines, ending with a newline |
| RemoteSync.SyncMeaning | lib/hosts.py:254-316 | disabled succeeds with no command; a missing host or user fails with no command; otherwise the rendered list is uploaded and success is the copy succeeding and then the install succeeding |
| Unlock.GetConditionMeaning | lib/unlock.py:57-74 | the cache answers as the registry would, stays sound, and makes an instance only for a name it has none for |
| Unlock.GetConditionOnce | lib/unlock.py:69-74 | once a type's instance is cached, asking again makes nothing new |
| Unlock.GetCached | lib/unlock.py:69-74 | a name the cache holds is answered from the cache, which stays as it was, and the answer is what the registry makes for that name |
| Unlock.GetFresh | lib/unlock.py:69-74 | a name the cache lacks is made by the registry, and the instance is appended to the cache exactly when creating it did not raise |
| Unlock.ConditionVerdictMeaning | lib/unlock.py:110-125 | the cached verdict equals a fresh evaluation, and at most one instance is made, for a new type |
| Unlock.ReferenceFailSafe | lib/unlock.py:111-119 | an unregistered type gives `(false, "Unknown type: t")` and a missing type means checkbox |
| Unlock.ScanMeaning | lib/unlock.py:107-125 | one row per configured condition, in declared order, each the fresh verdict; the cache stays sound and each new type is made once |
| Unlock.ScanRaisesOnNonObject | lib/unlock.py:110-111 | a condition configuration that is not a dictionary makes the whole check raise at `.get` |
| Unlock.SatisfiedMeaning | lib/unlock.py:127-134 | mode "all" means nonempty and every row met; any other mode means some row met; no conditions is never satisfied |
| Unlock.CheckAllMeaning | lib/unlock.py:95-136 | the report lists every condition's fresh verdict in order and its verdict is the mode's aggregate |
| Unlock.ModeAttributeMissing | lib/unlock.py:128 | reading the mode as an attribute of the configuration raises `AttributeError`, while reading it from the configuration returns the report |
| Unlock.SyncRemoteMeaning | lib/unlock.py:76-93 | no remote or a disabled one succeeds and sends nothing; otherwise the full list is sent when blocked and the empty list when unlocked |
| Unlock.StatusLines | lib/unlock.py:153-156 | one header line and one PASS or FAIL line per condition |
| Unlock.ProofOfWorkWhenOpen | lib/unlock.py:144-147 | when not blocked the answer is "Already unlocked. …" and only the day reset touches the record |
| Unlock.ProofOfWorkUnlockMeaning | lib/unlock.py:138-174 | unmet conditions leave the record and hosts file as they were and answer false; met conditions open a window of the configured duration (default 7200), mark the record as unlocked through conditions, unblock the hosts file and answer true |
| Unlock.ProofOfWorkUnlockAsWrittenRaises | lib/unlock.py:158-165 | with the missing State method, a successful proof of work raises after saving the window but before the hosts file is unblocked |
| Unlock.DecideGranted | lib/unlock.py:158-171 | with the conditions met and the record marked as intended, the answer is true, the window is open for the configured duration when that is positive, the block section is gone from the hosts file and the condition cache is kept |
| Unlock.DurationTextShort | lib/unlock.py:166-168 | under an hour the duration text is minutes only |
| Unlock.IntSettingMeaning | lib/unlock.py:185-189 | an unlock setting is read with `.get` from the `unlock` section: a section that is not a dictionary raises `AttributeError`, a missing key gives the default, and a value that is not a number is reported as not a number |
| Unlock.EmergencySettingsRaise | lib/unlock.py:185-192 | an `unlock` section that is not a dictionary raises at the first `.get` before the day reset and changes nothing; a cap that is not a number raises the `'<' not supported` comparison error after the day reset |
| Unlock.EmergencyAtCap | lib/unlock.py:191-193 | at the daily cap the answer is false and nothing changes |
| Unlock.EmergencyCancelled | lib/unlock.py:214-222 | a wrong phrase, an interrupt or end of input answers false before any change |
| Unlock.EmergencyUnlockMeaning | lib/unlock.py:176-235 | below the cap, with confirmation or non-interactively, the wait `initial * multiplier^count` is recorded, the count grows by one, the window is the emergency duration (default 300) and the hosts file is unblocked |
| Unlock.EmergencyGrantMeaning | lib/unlock.py:224-235 | granting answers true, records one more emergency unlock with its wait, opens the window for the emergency duration when that is positive, removes the block section and leaves the cache alone |
| Unlock.ForceBlockMeaning | lib/unlock.py:237-242 | the record reads blocked with no window, the hosts file has the block section for the configured sites, and an enabled remote gets the full list |
| Unlock.SyncBlockingStateMeaning | lib/unlock.py:244-248 | the hosts sync gets exactly the blocked answer, and the remote gets the full list when blocked and the empty list when unlocked |
| Unlock.GetStatusMeaning | lib/unlock.py:250-266 | the status carries the local date, adds the condition rows, and used plus remaining emergencies is the configured cap |
| Daemon.TimeGateMeaning | lib/daemon.py:66-75 | "H:M" rejects exactly when `(hour, minute)` is lexicographically before `(H, M)` |
| Daemon.TimeGateDigits | lib/daemon.py:66-73 | any two digit runs joined by ':' gate as the numbers they denote, leading zeros included |
| Daemon.DefaultGate | lib/daemon.py:66-73 | with "17:00", 16:59 rejects and 17:00 passes |
| Daemon.TimeGateUnparsed | lib/daemon.py:67-75 | a time without ':' skips the gate instead of rejecting |
| Daemon.ShouldAutoUnlockMeaning | lib/daemon.py:58-83 | disabled (default enabled) or too early is false with nothing changed; past the gate or with an unparsable time, an unlocked record is false without evaluating conditions, and a blocked one gets the conditions' aggregate |
| Daemon.RunCheckReloadsFirst | lib/daemon.py:87-89 | the tick depends only on the reloaded record, not on the one held before |
| Daemon.RunCheckMeaning | lib/daemon.py:85-113 | after reloading and syncing: without auto-unlock, a blocked record with a hosts file that does not contain the begin marker gets the block section, an open record with one that does gets it removed, otherwise no change; with auto-unlock the window is the proof-of-work duration and the hosts file has no blocked site; no step raises out of the tick |
| Daemon.ShouldAutoUnlockAsWrittenRaises | lib/daemon.py:58-83 | as written, enabled, past the gate, blocked and with well-formed conditions, the decision raises the missing-`condition_mode` `AttributeError` |
| Daemon.RunCheckAsWrittenNeverUnlocks | lib/daemon.py:85-113 | as written, a tick never unlocks automatically, and a raising decision ends the tick with that exception logged and the world it left |
| PhoneRequests.AdmittedMeaning | remote_api/server.py:26-35 | an empty token admits every request; a token admits "Bearer token" and the bare token, and refuses a request without the header |
| PhoneRequests.RequestKindMeaning | remote_api/server.py:380-400 | a pending request of the kind is returned and the queue is unchanged; otherwise exactly one pending request of the kind is appended at the end |
| PhoneRequests.AtMostOnePending | remote_api/server.py:403-423 | a second request of a kind answers with the first one's id and adds nothing |
| PhoneRequests.CompleteMeaning | remote_api/server.py:426-453 | an unknown id is a 404; otherwise the first request with the id is completed and the queue retained, as the poller's script also does |
| PhoneRequests.RetainMeaning | remote_api/server.py:446-450 | every pending request is kept in order first, then at most ten completed ones; nothing else is kept |
| PhoneRequests.JustCompletedKept | remote_api/server.py:446-450 | the request just completed is kept exactly when fewer than ten completed requests follow it in the queue |
| Poll.SettingsOf | lib/poll.py:25-40 | an empty configuration gives a disabled poller with the default data directory |
| Poll.RunSshMeaning | lib/poll.py:42-95 | without host or user, "SSH not configured" and no run; otherwise up to three runs, success exactly when the last one exited 0, with its stripped output; three timeouts give "Command timed out" |
| Poll.PendingOfMeaning | lib/poll.py:113 | the kept entries are exactly the pending ones, in their order |
| Poll.CheckPendingMeaning | lib/poll.py:97-122 | disabled, failed or undecodable reads give no requests; a decoded list gives exactly its pending entries |
| Poll.UpdatesMeaning | lib/poll.py:124-201 | a disabled or unconfigured poller fails both updates; when the first run succeeds, publishing succeeds and marking succeeds exactly when the output is "ok"; marking never succeeds where publishing would fail |
| Analyze.DayOfMeaning | tools/analyze_experiment.py:66-68 | the day of a timestamp is its part before the first "T" |
| Analyze.GroupByDayMeaning | tools/analyze_experiment.py:62-70 | each day key appears once, exactly for the days some entry has, and holds exactly that day's entries in order |
| Analyze.OnDayMembers | tools/analyze_experiment.py:62-70 | an entry is in a day's group exactly when its day is that day |
| Analyze.AutoUnlockOfMeaning | tools/analyze_experiment.py:75-89 | an entry of the usual shape is detected exactly when it is a "daemon_check" whose `auto_unlock` has a true `any_conditions_met` and whose `state_after_sync` has an explicitly false `is_blocked`, and then records its ts, conditions, earliest fields and state |
| Analyze.AutoUnlocksMeaning | tools/analyze_experiment.py:73-89 | over entries of the usual shape, the detected auto-unlocks are exactly the auto-unlock entries, in log order, each with what it records |
| Analyze.AutoUnlocksRaise | tools/analyze_experiment.py:74-75 | an entry that is not a dictionary makes the scan raise, wherever it is |
| Analyze.RepeatedMeaning | tools/analyze_experiment.py:97-106 | a repeated-auto-unlock anomaly for a day exists exactly when that day has more than one, and its count is that number |
| Analyze.EarlyMeaning | tools/analyze_experiment.py:108-116 | an early-unlock anomaly is produced for exactly the unlocks whose `earliest_passed` is False, in order |
| Analyze.AnalyzeAutoUnlocksMeaning | tools/analyze_experiment.py:73-122 | the total is the number of auto-unlocks, each day's count is that day's number, and a day is flagged repeated exactly when it has more than one |
| Analyze.ObservationOfMeaning | tools/analyze_experiment.py:131-141 | an entry of the usual shape is observed exactly when its event is "daemon_check" or "daemon_check_complete"; its state is `state`, else `state_after_sync`, else empty; it is blocked unless that state has an explicitly false `is_blocked` |
| Analyze.ObservationsMeaning | tools/analyze_experiment.py:129-141 | over entries of the usual shape, the observations are exactly those of the daemon-check entries, in log order |
| Analyze.ObservationsRaise | tools/analyze_experiment.py:130-131 | an entry that is not a dictionary makes the scan raise, wherever it is |
| Analyze.ChangesMeaning | tools/analyze_experiment.py:143-158 | a change is recorded exactly at each flip between consecutive observations, expiries counted at flips to blocked and unlocks at flips to unblocked |
| Analyze.ChangesAlternate | tools/analyze_experiment.py:143-158 | expiries and unlocks alternate, and the first kind is set by the first observation |
| Analyze.AnalyzeUnlockExpiryMeaning | tools/analyze_experiment.py:125-164 | the totals are the per-kind counts and sum to the number of changes |
| Analyze.DailySummaryMeaning | tools/analyze_experiment.py:204-232 | the unlock count is the number of unlock times, the events count is the number of entries, and the unlock times are those of the unlock events among them |

## Left out

- Reading and writing files (the state file, the hosts file through `sudo cp`,
  requests.json, the log) and the DNS cache flush. Every edit returns the text
  or value to write, and writes are taken to succeed, as every caller ignores
  the result.
- The ssh, scp and flock command strings, temporary files and base64 or shell
  quoting. A remote command is its sequence of attempt outcomes, and the JSON
  decoding of the poller's output is a function parameter.
- The remote state store's `load_state` and `save_state`. A failed load is an
  empty dictionary, which the day reset then replaces.
- The real clock, the calendar and the remote `date +%F`, which become
  parameters: `today` is the date the day reset uses (the remote date when a
  remote store is configured) and `localToday` the machine's own date, which
  `get_status` reports. `unlocked_until` is a whole number of seconds, not a
  float.
- YAML parsing, and running an arbitrary user regular expression. Both come
  with the vault as data; only the rule that a malformed pattern answers false
  is modelled.
- Floating point: `float()` in the frontmatter minimum check reads integers
  only (numbers, booleans, decimal strings).
- The vault search in `resolve_link_path`. The files that links resolve to
  are given as data.
- Most rewriting steps of `count_words` (lib/wordcount.py:27-51): removal
  of fenced and inline code, markdown links `[text](url)` and images, heading
  markers, bold and italic markers, bullet and task markers, and HTML tags.
  Only frontmatter removal, wiki-link replacement and whitespace word counting
  are modelled, so "- item" counts two words here and one in Python.
- WordCount.PlainTextCount: agrees with Python only for text that also has
  none of `#`, `-`, `*`, `_`, `<`, `` ` `` and `!`, which the left-out steps
  rewrite.
- Headings.HeadingExistsMeaning: headings are matched line by line, while
  Python's `\s*` in the multiline pattern can also cross a newline.
- Headings.SectionContentMeaning: the same line-by-line matching; for
  "#\nWriting\n[[a]]" and section "Writing" Python finds a section and the
  model finds none.
- WordCount.LinkedFilesWordcountMeaning: inherits that gap, so such a note
  counts nothing in the model.
- Text.EqualIgnoringCase: case is folded for ASCII letters only, while
  `re.IGNORECASE` folds Unicode case, so "- [x] Méditation" meets the pattern
  "- [x] MÉDITATION" in Python but not in the model.
- Text.IsSpace: only the ASCII characters Python counts as whitespace; `\s`
  and `str.strip()` also accept Unicode spaces such as U+00A0 and U+2003.
- Text.ParseInt: only an optional sign and ASCII digits, with surrounding ASCII
  whitespace; `int()` also accepts underscores between digits ("1_7") and
  non-ASCII digits.
- The interactive countdown, the random shame prompt and `input()`. They
  become a `Confirmation` (a typed line, or an interrupt or end of input).
- Flask routing, the HTML/JS page and the `/status`, `/pending` and
  `/update-status` endpoints, which only read or write a file.
- The server's request ids and timestamps, which are parameters.
- PhoneRequests: queue entries are typed records, so the `KeyError` a
  malformed entry would raise in the server is not modelled.
- The daemon loop, signal handling, log rotation and logging.
- lib/experiment.py, which only writes log lines.
- In tools/analyze_experiment.py: `load_log_entries` (the file read and day
  cutoff), `analyze_daemon_health` (float averages), `print_report` and
  `main`.
- Config loading and saving, and the shallow copy of the default
  configuration.
- The full text of the `TypeError` that arithmetic on a non-numeric unlock
  setting raises: `Unlock.NotANumber` keeps only its start, "unsupported
  operand type(s)". A non-numeric `emergency_max_per_day` instead raises the
  comparison error `Unlock.Unorderable` in full. Other exception texts are those
  of CPython 3.11 and later.
- Unlock.EmergencyUnlock: a string or list `emergency_initial_wait` with a
  numeric multiplier is not an error in Python: `initial_wait * multiplier **
  count` repeats the sequence. Without the prompt Python then records the
  repeated value as the wait and unlocks; with the prompt, the countdown's
  `range` raises `TypeError`. The model keeps the wait an integer and raises
  `NotANumber` for any non-numeric wait.
- Containers in descriptions: `JsonData.Show` renders a list or dictionary as
  "[...]" or "{...}", where Python's f-strings print the full `repr` (a
  list-valued `earliest_time` in the analysis descriptions, say).
- Poll.SettingsOf, RemoteSync.SettingsOf and DailyState.RemoteStoreSettingsOf:
  a section that is present but not a dictionary reads as its defaults, where
  Python's `.get` on it raises `AttributeError` (lib/poll.py:36,
  lib/hosts.py:208, lib/state.py:27).
- NoteParser.YamlNonStringField: the model's dictionaries are keyed by strings,
  so YAML keys that load as numbers, booleans or `None` are not modelled. In
  Python, `{5: 800}` with field 5 is met; the model has no such dictionary, and
  there every non-string field is unset.
- NoteParser.YamlFieldMeaning: for the same reason, a non-string field is always
  absent in the model, whereas PyYAML may load a number, boolean or null key
  that such a field finds.
- Unlock: the blocked sites are taken as a list of strings, so a non-string
  entry in the configuration is not modelled.
- Unlock.EmergencyUnlockMeaning: the settings are required to be integers (or
  booleans). A string or list wait, which Python repeats, and a float setting,
  with which Python computes a float, are not covered.
- Behaviour the tests expect that lib/ does not implement (tests/test_daemon.py,
  tests/test_state.py):
  - `evaluate_auto_unlock`;
  - a flag recording an unlock through conditions;
  - a guard against saving after a failed remote load;
  - rejecting an unparsable `earliest_time`.

  The daemon can therefore auto-unlock again after a window expires, and no
  once-per-day property is stated.

## Findings

`Unlock.GetStatus`, `Daemon.ShouldAutoUnlock` and `Daemon.RunCheck` use the
corrected read of the aggregation mode from the second row below.

| source | as written | input that shows it | evidently intended | confidence | as-written member | corrected member |
|---|---|---|---|---|---|---|
| lib/unlock.py:162 | after a successful proof of work, `self.state.mark_unlocked_via_conditions()` is called, but `State` defines no such method | blocked record, one met condition: `set_unlocked` has already saved the window when `AttributeError` escapes, so the hosts file is never unblocked and nothing is synced | mark the record as unlocked through conditions (a key the day reset clears), unblock the hosts file and report success | high, not executed | Unlock.ProofOfWorkUnlockAsWrittenRaises | Unlock.ProofOfWorkUnlockMeaning |
| lib/unlock.py:128 | the mode is read as `self.config.condition_mode`, an attribute `Config` does not have | any configuration whose conditions are dictionaries: `check_all_conditions` raises `AttributeError` after evaluating them | read the key `condition_mode`, defaulting to "any" | high, not executed | Unlock.ModeAttributeMissing | Unlock.CheckAllMeaning |
| lib/daemon.py:82 | `should_auto_unlock` calls that `check_all_conditions`, so the `AttributeError` reaches `run_check`, whose handler logs it | blocked record after 17:00, auto-unlock enabled, one met condition: every tick logs the error and none unlocks | the daemon unlocks when the conditions are met | high, not executed | Daemon.RunCheckAsWrittenNeverUnlocks | Daemon.RunCheckMeaning |

=== FILE: analyze.dfy ===
/**
 * The log analysis of tools/analyze_experiment.py over the JSON records the
 * daemon logs: grouping by day, spotting repeated and early auto-unlocks,
 * tracing blocked/unlocked transitions, and the per-day summary. Reading the
 * log file and printing the report are not modelled; the entries are the
 * decoded lines, and a value used as a dictionary or string that is not one
 * raises as in Python.
 */
module Analyze {
  import opened Wrappers
  import opened Text
  import opened JsonData
  import opened Outcomes
  import Dict

  // ---------------------------------------------------------------------------
  // Grouping by day

  /** Days mapped to their items, in order of first appearance. */
  type Groups<T> = Dict.Entries<string, seq<T>>

  /** `by_day[d].append(x)` on a `defaultdict(list)`. */
  function AddTo<T>(groups: Groups<T>, d: string, x: T): Groups<T> {
    Dict.Put(groups, d, Dict.Get(groups, d).GetOr([]) + [x])
  }

  /** The loop filling a `defaultdict(list)`: `key` gives an item's day, `None` to
      skip it, or raises. */
  function GroupInto<T>(groups: Groups<T>, xs: seq<T>, key: T -> Outcome<Option<string>>)
    : (r: Outcome<Groups<T>>)
    ensures r.Return? <==> forall k | 0 <= k < |xs| :: key(xs[k]).Return?
    decreases |xs|
  {
    if |xs| == 0 then Return(groups)
    else
      match key(xs[0])
      case Raise(e) => Raise(e)
      case Return(None) => GroupInto(groups, xs[1..], key)
      case Return(Some(d)) => GroupInto(AddTo(groups, d, xs[0]), xs[1..], key)
  }

  /** The items whose day is `d`, in order: the reference the grouping is measured
      against. */
  function OnDay<T>(xs: seq<T>, key: T -> Outcome<Option<string>>, d: string): (r: seq<T>)
    ensures |r| <= |xs|
    decreases |xs|
  {
    if |xs| == 0 then []
    else (if key(xs[0]) == Return(Some(d)) then [xs[0]] else []) + OnDay(xs[1..], key, d)
  }

  /** Grouping appends to each day's list exactly the items of that day, in order. */
  lemma {:induction false} GroupIntoGet<T>(groups: Groups<T>, xs: seq<T>,
                                           key: T -> Outcome<Option<string>>, d: string)
    requires GroupInto(groups, xs, key).Return?
    ensures Dict.Get(GroupInto(groups, xs, key).value, d).GetOr([])
      == Dict.Get(groups, d).GetOr([]) + OnDay(xs, key, d)
    decreases |xs|
  {
    if |xs| > 0 {
      match key(xs[0])
      case Return(None) =>
        assert GroupInto(groups, xs, key) == GroupInto(groups, xs[1..], key);
        assert OnDay(xs, key, d) == OnDay(xs[1..], key, d);
        GroupIntoGet(groups, xs[1..], key, d);
      case Return(Some(k)) =>
        var added := AddTo(groups, k, xs[0]);
        var head := if k == d then [xs[0]] else [];
        assert GroupInto(groups, xs, key) == GroupInto(added, xs[1..], key);
        assert OnDay(xs, key, d) == head + OnDay(xs[1..], key, d);
        GroupIntoGet(added, xs[1..], key, d);
        GetAdded(groups, k, xs[0], d);
        ConcatAssoc(Dict.Get(groups, d).GetOr([]), head, OnDay(xs[1..], key, d));
    }
  }

  /** Appending to one day's list leaves every other day's list alone. */
  lemma GetAdded<T>(groups: Groups<T>, k: string, x: T, d: string)
    ensures Dict.Get(AddTo(groups, k, x), d).GetOr([])
      == Dict.Get(groups, d).GetOr([]) + (if k == d then [x] else [])
  {
    Dict.GetPut(groups, k, Dict.Get(groups, k).GetOr([]) + [x], d);
  }

  /** Grouping creates a key only for a day that has some item. */
  lemma {:induction false} GroupIntoHas<T>(groups: Groups<T>, xs: seq<T>,
                                           key: T -> Outcome<Option<string>>, d: string)
    requires GroupInto(groups, xs, key).Return?
    ensures Dict.Has(GroupInto(groups, xs, key).value, d) <==> Dict.Has(groups, d) || OnDay(xs, key, d) != []
    decreases |xs|
  {
    if |xs| > 0 {
      match key(xs[0])
      case Return(None) =>
        GroupIntoHas(groups, xs[1..], key, d);
      case Return(Some(k)) =>
        GroupIntoHas(AddTo(groups, k, xs[0]), xs[1..], key, d);
        Dict.GetPut(groups, k, Dict.Get(groups, k).GetOr([]) + [xs[0]], d);
    }
  }

  /** Grouping keeps the keys distinct. */
  lemma {:induction false} GroupIntoUnique<T>(groups: Groups<T>, xs: seq<T>, key: T -> Outcome<Option<string>>)
    requires GroupInto(groups, xs, key).Return? && Dict.UniqueKeys(groups)
    ensures Dict.UniqueKeys(GroupInto(groups, xs, key).value)
    decreases |xs|
  {
    if |xs| > 0 {
      match key(xs[0])
      case Return(None) =>
        GroupIntoUnique(groups, xs[1..], key);
      case Return(Some(k)) =>
        Dict.PutUnique(groups, k, Dict.Get(groups, k).GetOr([]) + [xs[0]]);
        GroupIntoUnique(AddTo(groups, k, xs[0]), xs[1..], key);
    }
  }

  /** `ts.split("T")[0]`: the date part of an ISO timestamp. */
  function DayOf(ts: string): (d: string)
    ensures 'T' !in d
  {
    Split(ts, 'T')[0]
  }

  /** The date part of `date + "T" + time` is `date`, and a text without "T" is its
      own date part. */
  lemma DayOfMeaning(date: string, time: string)
    requires 'T' !in date && 'T' !in time
    ensures DayOf(date + "T" + time) == date
    ensures DayOf(date) == date
  {
    SplitTwoPieces(date, time, 'T');
    SplitNoSeparator(date, 'T');
  }

  /** The day `group_by_day` files an entry under: none when its "ts" is missing or
      empty; a "ts" that is not a string has no `split`. */
  function EntryDay(e: Json): Outcome<Option<string>> {
    if !e.JObj? then Raise(NoAttribute(e, "get"))
    else
      var ts := FieldOr(e, "ts", JStr(""));
      if !Truthy(ts) then Return(None)
      else if ts.JStr? then Return(Some(DayOf(ts.s)))
      else Raise(NoAttribute(ts, "split"))
  }

  /** `group_by_day`. */
  function GroupByDay(entries: seq<Json>): Outcome<Groups<Json>> {
    GroupInto([], entries, EntryDay)
  }

  /** Each entry with a non-empty "ts" lands in exactly the group of its date, in
      log order, and an entry without one in no group. */
  lemma GroupByDayMeaning(entries: seq<Json>, d: string)
    requires GroupByDay(entries).Return?
    ensures var groups := GroupByDay(entries).value;
      && Dict.UniqueKeys(groups)
      && (Dict.Has(groups, d) <==> OnDay(entries, EntryDay, d) != [])
      && Dict.Get(groups, d).GetOr([]) == OnDay(entries, EntryDay, d)
  {
    GroupIntoGet([], entries, EntryDay, d);
    GroupIntoHas([], entries, EntryDay, d);
    GroupIntoUnique([], entries, EntryDay);
  }

  /** An item is on day `d` exactly when its day is `d`; so no item is on two days,
      and an item without a day is on none. */
  lemma {:induction false} OnDayMembers<T>(xs: seq<T>, key: T -> Outcome<Option<string>>, d: string)
    ensures forall x :: x in OnDay(xs, key, d) <==> x in xs && key(x) == Return(Some(d))
    decreases |xs|
  {
    if |xs| > 0 {
      OnDayMembers(xs[1..], key, d);
      assert forall x | x in xs[1..] :: x in xs;
      assert forall x | x in xs :: x == xs[0] || x in xs[1..];
    }
  }

  // ---------------------------------------------------------------------------
  // analyze_auto_unlocks

  /** An auto-unlock the log shows: the record appended to `auto_unlocks`. */
  datatype AutoUnlock = AutoUnlock(ts: Json, conditions: Json, earliestTime: Json, earliestPassed: Json, state: Json)

  /** A "daemon_check" entry whose conditions were met and after which the hosts were
      unblocked (a missing "is_blocked" reads as blocked). */
  function AutoUnlockOf(e: Json): Outcome<Option<AutoUnlock>> {
    if !e.JObj? then Raise(NoAttribute(e, "get"))
    else if FieldOr(e, "event", JNull) != JStr("daemon_check") then Return(None)
    else
      var auto := FieldOr(e, "auto_unlock", EmptyObject);
      if !auto.JObj? then Raise(NoAttribute(auto, "get"))
      else if !Truthy(FieldOr(auto, "any_conditions_met", JNull)) then Return(None)
      else
        var after := FieldOr(e, "state_after_sync", EmptyObject);
        if !after.JObj? then Raise(NoAttribute(after, "get"))
        else if Truthy(FieldOr(after, "is_blocked", JBool(true))) then Return(None)
        else
          Return(Some(AutoUnlock(
            FieldOr(e, "ts", JNull),
            FieldOr(auto, "conditions", JList([])),
            FieldOr(auto, "earliest_time", JNull),
            FieldOr(auto, "earliest_passed", JNull),
            after)))
  }

  /** The first loop of `analyze_auto_unlocks`. */
  function AutoUnlocks(entries: seq<Json>): (r: Outcome<seq<AutoUnlock>>)
    ensures r.Return? ==> |r.value| <= |entries|
    decreases |entries|
  {
    if |entries| == 0 then Return([])
    else
      match AutoUnlockOf(entries[0])
      case Raise(e) => Raise(e)
      case Return(found) =>
        match AutoUnlocks(entries[1..])
        case Raise(e) => Raise(e)
        case Return(rest) => Return((if found.Some? then [found.value] else []) + rest)
  }

  /** `f` of each item of `xs` that satisfies `p`, in order: the reference the
      scans of the log are measured against. */
  function Select<T, U>(xs: seq<T>, p: T -> bool, f: T -> U): seq<U>
    decreases |xs|
  {
    if |xs| == 0 then [] else (if p(xs[0]) then [f(xs[0])] else []) + Select(xs[1..], p, f)
  }

  /** A value is selected exactly when it is `f` of a selected item. */
  lemma {:induction false} SelectMembers<T, U>(xs: seq<T>, p: T -> bool, f: T -> U, u: U)
    ensures u in Select(xs, p, f) <==> exists k | 0 <= k < |xs| :: p(xs[k]) && u == f(xs[k])
    decreases |xs|
  {
    if |xs| > 0 {
      SelectMembers(xs[1..], p, f, u);
      if exists k | 0 <= k < |xs| :: p(xs[k]) && u == f(xs[k]) {
        var k :| 0 <= k < |xs| && p(xs[k]) && u == f(xs[k]);
        if k > 0 {
          assert xs[1..][k - 1] == xs[k];
        }
      }
      if u in Select(xs[1..], p, f) {
        var k :| 0 <= k < |xs| - 1 && p(xs[1..][k]) && u == f(xs[1..][k]);
        assert xs[k + 1] == xs[1..][k];
      }
    }
  }

  /** A present flag with a false value. */
  predicate FalseFlag(v: Json, key: string) {
    Field(v, key).Some? && !Truthy(Field(v, key).value)
  }

  /** A present flag with a true value. */
  predicate TrueFlag(v: Json, key: string) {
    Field(v, key).Some? && Truthy(Field(v, key).value)
  }

  /** A log entry records an auto-unlock: it is a "daemon_check" whose
      "auto_unlock" says the conditions were met and whose "state_after_sync" says,
      explicitly, that the hosts are not blocked. */
  predicate IsAutoUnlockEntry(e: Json) {
    && Field(e, "event") == Some(JStr("daemon_check"))
    && Field(e, "auto_unlock").Some? && TrueFlag(Field(e, "auto_unlock").value, "any_conditions_met")
    && Field(e, "state_after_sync").Some? && FalseFlag(Field(e, "state_after_sync").value, "is_blocked")
  }

  /** What is recorded for an auto-unlock entry: its time, the conditions and the
      earliest-time fields of "auto_unlock", and the state after the sync. */
  function Recorded(e: Json): AutoUnlock {
    var auto := Field(e, "auto_unlock").GetOr(EmptyObject);
    AutoUnlock(Field(e, "ts").GetOr(JNull), Field(auto, "conditions").GetOr(JList([])),
               Field(auto, "earliest_time").GetOr(JNull), Field(auto, "earliest_passed").GetOr(JNull),
               Field(e, "state_after_sync").GetOr(EmptyObject))
  }

  /** A log entry of the usual shape: a dictionary whose "auto_unlock", "state" and
      "state_after_sync", when present, are dictionaries. */
  predicate LogShaped(e: Json) {
    && e.JObj?
    && (Field(e, "auto_unlock").Some? ==> Field(e, "auto_unlock").value.JObj?)
    && (Field(e, "state").Some? ==> Field(e, "state").value.JObj?)
    && (Field(e, "state_after_sync").Some? ==> Field(e, "state_after_sync").value.JObj?)
  }

  /** One entry of the usual shape is detected exactly when it is an auto-unlock
      entry, and then with what it records. */
  lemma AutoUnlockOfMeaning(e: Json)
    requires LogShaped(e)
    ensures AutoUnlockOf(e) == Return(if IsAutoUnlockEntry(e) then Some(Recorded(e)) else None)
  {
  }

  /** Over entries of the usual shape, the detected auto-unlocks are exactly the
      auto-unlock entries, in log order, each with what it records. */
  lemma {:induction false} AutoUnlocksMeaning(entries: seq<Json>)
    requires forall k | 0 <= k < |entries| :: LogShaped(entries[k])
    ensures AutoUnlocks(entries) == Return(Select(entries, IsAutoUnlockEntry, Recorded))
    decreases |entries|
  {
    if |entries| > 0 {
      AutoUnlockOfMeaning(entries[0]);
      AutoUnlocksMeaning(entries[1..]);
    }
  }

  /** An entry that is not a dictionary makes the scan raise, wherever it is. */
  lemma {:induction false} AutoUnlocksRaise(entries: seq<Json>, k: nat)
    requires k < |entries| && !entries[k].JObj?
    ensures AutoUnlocks(entries).Raise?
    decreases k
  {
    if k == 0 {
      assert AutoUnlockOf(entries[0]).Raise?;
    } else {
      AutoUnlocksRaise(entries[1..], k - 1);
      assert entries[1..][k - 1] == entries[k];
    }
  }

  /** The day an auto-unlock is counted under; a "ts" that is not a string has no
      `split`. */
  function UnlockDay(u: AutoUnlock): Outcome<Option<string>> {
    if u.ts.JStr? then Return(Some(DayOf(u.ts.s))) else Raise(NoAttribute(u.ts, "split"))
  }

  /** The anomalies reported. */
  datatype Anomaly =
    | RepeatedAutoUnlock(day: string, count: nat, times: seq<Json>)
    | EarlyUnlock(ts: Json, earliestTime: Json)
  {
    function Description(): string {
      match this
      case RepeatedAutoUnlock(day, count, _) =>
        "Auto-unlock triggered " + NatToString(count) + " times on " + day
      case EarlyUnlock(ts, earliest) =>
        "Unlock at " + Show(ts) + " before earliest_time " + Show(earliest)
    }
  }

  /** One repeated-unlock anomaly per day holding more than one unlock. */
  function Repeated(byDay: Groups<AutoUnlock>): seq<Anomaly>
    decreases |byDay|
  {
    if |byDay| == 0 then []
    else
      var (day, unlocks) := byDay[0];
      (if |unlocks| > 1 then [RepeatedAutoUnlock(day, |unlocks|, TimesOf(unlocks))] else [])
      + Repeated(byDay[1..])
  }

  /** `[u["ts"] for u in unlocks]`. */
  function TimesOf(unlocks: seq<AutoUnlock>): (r: seq<Json>)
    ensures |r| == |unlocks| && forall k | 0 <= k < |r| :: r[k] == unlocks[k].ts
  {
    seq(|unlocks|, k requires 0 <= k < |unlocks| => unlocks[k].ts)
  }

  /** One early-unlock anomaly per unlock whose "earliest_passed" is exactly `False`. */
  function Early(unlocks: seq<AutoUnlock>): seq<Anomaly>
    decreases |unlocks|
  {
    if |unlocks| == 0 then []
    else
      (if unlocks[0].earliestPassed == JBool(false)
       then [EarlyUnlock(unlocks[0].ts, unlocks[0].earliestTime)] else [])
      + Early(unlocks[1..])
  }

  /** `{k: len(v) for k, v in by_day.items()}`. */
  function Counts(byDay: Groups<AutoUnlock>): (r: Dict.Entries<string, nat>)
    ensures |r| == |byDay| && forall k | 0 <= k < |r| :: r[k] == (byDay[k].0, |byDay[k].1|)
  {
    seq(|byDay|, k requires 0 <= k < |byDay| => (byDay[k].0, |byDay[k].1|))
  }

  datatype AutoReport = AutoReport(total: nat, byDay: Dict.Entries<string, nat>, anomalies: seq<Anomaly>)

  /** `analyze_auto_unlocks`. */
  function AnalyzeAutoUnlocks(entries: seq<Json>): Outcome<AutoReport> {
    match AutoUnlocks(entries)
    case Raise(e) => Raise(e)
    case Return(unlocks) =>
      match GroupInto([], unlocks, UnlockDay)
      case Raise(e) => Raise(e)
      case Return(byDay) =>
        Return(AutoReport(|unlocks|, Counts(byDay), Repeated(byDay) + Early(unlocks)))
  }

  /** A repeated-unlock anomaly is reported for a day exactly when that day has
      more than one unlock, with that number; the days are distinct, so there is
      at most one such anomaly per day. */
  lemma {:induction false} RepeatedMeaning(byDay: Groups<AutoUnlock>, day: string, count: nat)
    requires Dict.UniqueKeys(byDay)
    ensures (exists times :: RepeatedAutoUnlock(day, count, times) in Repeated(byDay)) <==>
      Dict.Get(byDay, day).Some? && count == |Dict.Get(byDay, day).value| > 1
    decreases |byDay|
  {
    if |byDay| > 0 {
      var (d, unlocks) := byDay[0];
      assert Dict.UniqueKeys(byDay[1..]);
      RepeatedMeaning(byDay[1..], day, count);
      var head := if |unlocks| > 1 then [RepeatedAutoUnlock(d, |unlocks|, TimesOf(unlocks))] else [];
      assert Repeated(byDay) == head + Repeated(byDay[1..]);
      if d == day {
        assert !Dict.Has(byDay[1..], day);
        RepeatedAbsent(byDay[1..], day);
        if |unlocks| > 1 && count == |unlocks| {
          assert RepeatedAutoUnlock(day, count, TimesOf(unlocks)) in Repeated(byDay);
        }
      } else if exists times :: RepeatedAutoUnlock(day, count, times) in Repeated(byDay) {
        var times :| RepeatedAutoUnlock(day, count, times) in Repeated(byDay);
        assert RepeatedAutoUnlock(day, count, times) in Repeated(byDay[1..]);
      }
    }
  }

  /** A day that is not a key has no repeated-unlock anomaly. */
  lemma {:induction false} RepeatedAbsent(byDay: Groups<AutoUnlock>, day: string)
    requires !Dict.Has(byDay, day)
    ensures forall a | a in Repeated(byDay) :: a.RepeatedAutoUnlock? && a.day != day
    decreases |byDay|
  {
    if |byDay| > 0 {
      assert byDay[0].0 != day;
      assert !Dict.Has(byDay[1..], day);
      RepeatedAbsent(byDay[1..], day);
    }
  }

  /** Early-unlock anomalies are exactly the unlocks whose "earliest_passed" is the
      value `False` (not merely falsy), in order. */
  lemma EarlyMeaning(unlocks: seq<AutoUnlock>, more: seq<AutoUnlock>)
    ensures forall u | u in unlocks ::
      (EarlyUnlock(u.ts, u.earliestTime) in Early(unlocks) <== u.earliestPassed == JBool(false))
    ensures forall a | a in Early(unlocks) ::
      exists u | u in unlocks :: u.earliestPassed == JBool(false) && a == EarlyUnlock(u.ts, u.earliestTime)
    ensures Early(unlocks + more) == Early(unlocks) + Early(more)
  {
    EarlyMembers(unlocks);
    EarlyAppend(unlocks, more);
  }

  lemma {:induction false} EarlyMembers(unlocks: seq<AutoUnlock>)
    ensures forall u | u in unlocks ::
      (EarlyUnlock(u.ts, u.earliestTime) in Early(unlocks) <== u.earliestPassed == JBool(false))
    ensures forall a | a in Early(unlocks) ::
      exists u | u in unlocks :: u.earliestPassed == JBool(false) && a == EarlyUnlock(u.ts, u.earliestTime)
    decreases |unlocks|
  {
    if |unlocks| > 0 {
      EarlyMembers(unlocks[1..]);
      assert forall u | u in unlocks[1..] :: u in unlocks;
      assert forall u | u in unlocks :: u == unlocks[0] || u in unlocks[1..];
    }
  }

  lemma {:induction false} EarlyAppend(unlocks: seq<AutoUnlock>, more: seq<AutoUnlock>)
    ensures Early(unlocks + more) == Early(unlocks) + Early(more)
    decreases |unlocks|
  {
    if |unlocks| == 0 {
      assert unlocks + more == more;
    } else {
      var h := if unlocks[0].earliestPassed == JBool(false)
        then [EarlyUnlock(unlocks[0].ts, unlocks[0].earliestTime)] else [];
      EarlyAppend(unlocks[1..], more);
      assert (unlocks + more)[1..] == unlocks[1..] + more;
      assert Early(unlocks + more) == h + Early(unlocks[1..] + more);
      ConcatAssoc(h, Early(unlocks[1..]), Early(more));
    }
  }

  /** The report counts every auto-unlock and gives each day its number; a
      repeated-unlock anomaly with a given count is reported for a day exactly when
      the day has more than one unlock, that many. */
  lemma AnalyzeAutoUnlocksMeaning(entries: seq<Json>, day: string, count: nat)
    requires AnalyzeAutoUnlocks(entries).Return?
    ensures var unlocks := AutoUnlocks(entries).value;
      var r := AnalyzeAutoUnlocks(entries).value;
      var onDay := OnDay(unlocks, UnlockDay, day);
      && r.total == |unlocks|
      && Dict.Get(r.byDay, day) == (if onDay == [] then None else Some(|onDay|))
      && ((exists times :: RepeatedAutoUnlock(day, count, times) in r.anomalies) <==> count == |onDay| > 1)
  {
    var unlocks := AutoUnlocks(entries).value;
    var byDay := GroupInto([], unlocks, UnlockDay).value;
    var r := AnalyzeAutoUnlocks(entries).value;
    GroupIntoGet([], unlocks, UnlockDay, day);
    GroupIntoHas([], unlocks, UnlockDay, day);
    GroupIntoUnique([], unlocks, UnlockDay);
    CountsGet(byDay, day);
    RepeatedMeaning(byDay, day, count);
    EarlyOnlyEarly(unlocks);
    if exists times :: RepeatedAutoUnlock(day, count, times) in r.anomalies {
      var times :| RepeatedAutoUnlock(day, count, times) in r.anomalies;
      assert RepeatedAutoUnlock(day, count, times) in Repeated(byDay);
    }
  }

  /** Counting keeps the keys: a day's count is the length of its list. */
  lemma {:induction false} CountsGet(byDay: Groups<AutoUnlock>, day: string)
    ensures Dict.Get(Counts(byDay), day) ==
      (if Dict.Get(byDay, day).Some? then Some(|Dict.Get(byDay, day).value|) else None)
    decreases |byDay|
  {
    if |byDay| > 0 {
      CountsGet(byDay[1..], day);
      assert Counts(byDay)[1..] == Counts(byDay[1..]);
    }
  }

  /** `Early` only makes early-unlock anomalies. */
  lemma {:induction false} EarlyOnlyEarly(unlocks: seq<AutoUnlock>)
    ensures forall a | a in Early(unlocks) :: a.EarlyUnlock?
    decreases |unlocks|
  {
    if |unlocks| > 0 {
      EarlyOnlyEarly(unlocks[1..]);
    }
  }

  // ---------------------------------------------------------------------------
  // analyze_unlock_expiry

  /** What a "daemon_check" or "daemon_check_complete" entry says about the state:
      its time, whether the hosts were blocked (a missing flag reads as blocked),
      its "unlocked_until" and the state itself. */
  datatype Observation = Observation(ts: Json, blocked: bool, unlockedUntil: Json, state: Json)

  /** The state an entry records: its "state", else its "state_after_sync", else
      empty. Entries of other events say nothing. */
  function ObservationOf(e: Json): Outcome<Option<Observation>> {
    if !e.JObj? then Raise(NoAttribute(e, "get"))
    else
      var event := FieldOr(e, "event", JNull);
      if event != JStr("daemon_check") && event != JStr("daemon_check_complete") then Return(None)
      else
        var state := FieldOr(e, "state", FieldOr(e, "state_after_sync", EmptyObject));
        if !state.JObj? then Raise(NoAttribute(state, "get"))
        else
          Return(Some(Observation(
            FieldOr(e, "ts", JNull),
            Truthy(FieldOr(state, "is_blocked", JBool(true))),
            FieldOr(state, "unlocked_until", JInt(0)),
            state)))
  }

  function Observations(entries: seq<Json>): (r: Outcome<seq<Observation>>)
    ensures r.Return? ==> |r.value| <= |entries|
    decreases |entries|
  {
    if |entries| == 0 then Return([])
    else
      match ObservationOf(entries[0])
      case Raise(e) => Raise(e)
      case Return(found) =>
        match Observations(entries[1..])
        case Raise(e) => Raise(e)
        case Return(rest) => Return((if found.Some? then [found.value] else []) + rest)
  }

  /** A log entry the expiry analysis observes: a "daemon_check" or a
      "daemon_check_complete". */
  predicate IsObservedEntry(e: Json) {
    Field(e, "event") == Some(JStr("daemon_check")) || Field(e, "event") == Some(JStr("daemon_check_complete"))
  }

  /** The state an entry records: "state" when present, else "state_after_sync" when
      present, else empty. */
  function RecordedState(e: Json): Json {
    if Field(e, "state").Some? then Field(e, "state").value
    else Field(e, "state_after_sync").GetOr(EmptyObject)
  }

  /** What an observed entry says: blocked unless its state says, explicitly, that
      it is not. */
  function Observed(e: Json): Observation {
    var state := RecordedState(e);
    Observation(Field(e, "ts").GetOr(JNull), !FalseFlag(state, "is_blocked"),
                Field(state, "unlocked_until").GetOr(JInt(0)), state)
  }

  /** One entry of the usual shape is observed exactly when it is a daemon-check
      event, and then with what it records. */
  lemma ObservationOfMeaning(e: Json)
    requires LogShaped(e)
    ensures ObservationOf(e) == Return(if IsObservedEntry(e) then Some(Observed(e)) else None)
  {
  }

  /** Over entries of the usual shape, the observations are exactly the daemon-check
      events, in log order: "state" takes precedence over "state_after_sync", and a
      missing "is_blocked" reads as blocked. */
  lemma {:induction false} ObservationsMeaning(entries: seq<Json>)
    requires forall k | 0 <= k < |entries| :: LogShaped(entries[k])
    ensures Observations(entries) == Return(Select(entries, IsObservedEntry, Observed))
    decreases |entries|
  {
    if |entries| > 0 {
      ObservationOfMeaning(entries[0]);
      ObservationsMeaning(entries[1..]);
    }
  }

  /** An entry that is not a dictionary makes the scan raise, wherever it is. */
  lemma {:induction false} ObservationsRaise(entries: seq<Json>, k: nat)
    requires k < |entries| && !entries[k].JObj?
    ensures Observations(entries).Raise?
    decreases k
  {
    if k == 0 {
      assert ObservationOf(entries[0]).Raise?;
    } else {
      ObservationsRaise(entries[1..], k - 1);
      assert entries[1..][k - 1] == entries[k];
    }
  }

  /** A recorded change between two consecutive observations. */
  datatype Change =
    | Expiry(ts: Json, prevUnlockedUntil: Json)
    | Unlocked(ts: Json, unlockedUntil: Json)
  {
    function Description(): string {
      match this
      case Expiry(_, _) => "Unlock expired, now blocked"
      case Unlocked(_, _) => "Transitioned from blocked to unlocked"
    }
  }

  /** The change between observation `prev` and the next one `cur`, if the blocked
      flag differs. */
  function ChangeBetween(prev: Observation, cur: Observation): Option<Change> {
    if !prev.blocked && cur.blocked then Some(Expiry(cur.ts, FieldOr(prev.state, "unlocked_until", JNull)))
    else if prev.blocked && !cur.blocked then Some(Unlocked(cur.ts, cur.unlockedUntil))
    else None
  }

  /** The changes along consecutive observations, in order. */
  function Changes(obs: seq<Observation>): seq<Change>
    decreases |obs|
  {
    if |obs| < 2 then []
    else (match ChangeBetween(obs[0], obs[1]) case Some(c) => [c] case None => []) + Changes(obs[1..])
  }

  /** The number of changes of type expiry (`want`) or unlock (`!want`). */
  function CountKind(changes: seq<Change>, want: bool): nat
    decreases |changes|
  {
    if |changes| == 0 then 0
    else (if changes[0].Expiry? == want then 1 else 0) + CountKind(changes[1..], want)
  }

  datatype ExpiryReport = ExpiryReport(changes: seq<Change>, totalExpiries: nat, totalUnlocks: nat)

  /** `analyze_unlock_expiry`. */
  function AnalyzeUnlockExpiry(entries: seq<Json>): Outcome<ExpiryReport> {
    match Observations(entries)
    case Raise(e) => Raise(e)
    case Return(obs) =>
      var changes := Changes(obs);
      Return(ExpiryReport(changes, CountKind(changes, true), CountKind(changes, false)))
  }

  /** The number of consecutive pairs of observations that go from the opposite
      flag to blocked (`into`) or to unblocked (`!into`). */
  function FlipsTo(obs: seq<Observation>, into: bool): nat
    decreases |obs|
  {
    if |obs| < 2 then 0
    else (if obs[0].blocked != into && obs[1].blocked == into then 1 else 0) + FlipsTo(obs[1..], into)
  }

  /** A change is recorded exactly where consecutive observations differ on being
      blocked: the expiries are the flips into blocked, the unlocks the flips out of
      it, and the two totals add up to the number of changes. */
  lemma {:induction false} ChangesMeaning(obs: seq<Observation>)
    ensures CountKind(Changes(obs), true) == FlipsTo(obs, true)
    ensures CountKind(Changes(obs), false) == FlipsTo(obs, false)
    ensures |Changes(obs)| == FlipsTo(obs, true) + FlipsTo(obs, false)
    decreases |obs|
  {
    if |obs| >= 2 {
      ChangesMeaning(obs[1..]);
      var head := match ChangeBetween(obs[0], obs[1]) case Some(c) => [c] case None => [];
      CountKindAppend(head, Changes(obs[1..]));
      CountKindTotal(Changes(obs));
    } else {
      CountKindTotal(Changes(obs));
    }
  }

  /** The first change leaves the first observation's flag, and consecutive changes
      alternate between expiry and unlock. */
  lemma {:induction false} ChangesAlternate(obs: seq<Observation>)
    ensures |Changes(obs)| > 0 ==> (Changes(obs)[0].Expiry? <==> !obs[0].blocked)
    ensures forall k | 0 <= k < |Changes(obs)| - 1 :: Changes(obs)[k].Expiry? != Changes(obs)[k + 1].Expiry?
    decreases |obs|
  {
    if |obs| >= 2 {
      ChangesAlternate(obs[1..]);
      var rest := Changes(obs[1..]);
      if ChangeBetween(obs[0], obs[1]).Some? {
        var c := ChangeBetween(obs[0], obs[1]).value;
        assert Changes(obs) == [c] + rest;
        if |rest| > 0 {
          assert rest[0].Expiry? == !obs[1].blocked;
        }
      } else {
        assert Changes(obs) == rest;
      }
    }
  }

  lemma {:induction false} CountKindAppend(a: seq<Change>, b: seq<Change>)
    ensures CountKind(a + b, true) == CountKind(a, true) + CountKind(b, true)
    ensures CountKind(a + b, false) == CountKind(a, false) + CountKind(b, false)
    decreases |a|
  {
    if |a| == 0 {
      assert a + b == b;
    } else {
      CountKindAppend(a[1..], b);
      assert (a + b)[1..] == a[1..] + b;
    }
  }

  /** Every change is one of the two kinds. */
  lemma {:induction false} CountKindTotal(a: seq<Change>)
    ensures CountKind(a, true) + CountKind(a, false) == |a|
    decreases |a|
  {
    if |a| > 0 {
      CountKindTotal(a[1..]);
    }
  }

  /** The reported totals are the expiries and the unlocks among the recorded
      changes, which are the flips into and out of blocked along the observed
      entries. */
  lemma AnalyzeUnlockExpiryMeaning(entries: seq<Json>)
    requires AnalyzeUnlockExpiry(entries).Return?
    ensures var obs := Observations(entries).value;
      var r := AnalyzeUnlockExpiry(entries).value;
      && r.totalExpiries == FlipsTo(obs, true)
      && r.totalUnlocks == FlipsTo(obs, false)
      && r.totalExpiries + r.totalUnlocks == |r.changes|
  {
    ChangesMeaning(Observations(entries).value);
  }

  // ---------------------------------------------------------------------------
  // generate_daily_summary

  datatype Summary = Summary(
    day: string,
    eventsCount: nat,
    conditionsMetTimes: seq<Json>,
    unlockTimes: seq<Json>,
    reblockTimes: seq<Json>,
    unlockCount: nat)

  /** What one entry adds to the summary: to the conditions-met, unlock and reblock
      times. */
  function SummaryOf(e: Json): Outcome<(seq<Json>, seq<Json>, seq<Json>)> {
    if !e.JObj? then Raise(NoAttribute(e, "get"))
    else
      var auto := FieldOr(e, "auto_unlock", EmptyObject);
      if !auto.JObj? then Raise(NoAttribute(auto, "get"))
      else
        var ts := FieldOr(e, "ts", JNull);
        var met := if Truthy(FieldOr(auto, "any_conditions_met", JNull)) then [ts] else [];
        if FieldOr(e, "event", JNull) != JStr("daemon_check_complete") then Return((met, [], []))
        else
          var action := FieldOr(e, "action", JStr(""));
          if action == JStr("auto_unlock") then Return((met, [ts], []))
          else if action == JStr("reblock_hosts") then Return((met, [], [ts]))
          else Return((met, [], []))
  }

  /** The loop of `generate_daily_summary`. */
  function SummaryTimes(entries: seq<Json>): Outcome<(seq<Json>, seq<Json>, seq<Json>)>
    decreases |entries|
  {
    if |entries| == 0 then Return(([], [], []))
    else
      match SummaryOf(entries[0])
      case Raise(e) => Raise(e)
      case Return((m, u, b)) =>
        match SummaryTimes(entries[1..])
        case Raise(e) => Raise(e)
        case Return((ms, us, bs)) => Return((m + ms, u + us, b + bs))
  }

  /** `generate_daily_summary(day, entries)`. */
  function GenerateDailySummary(day: string, entries: seq<Json>): Outcome<Summary> {
    match SummaryTimes(entries)
    case Raise(e) => Raise(e)
    case Return((met, unlocks, blocks)) =>
      Return(Summary(day, |entries|, met, unlocks, blocks, |unlocks|))
  }

  /** An entry is a completed check that auto-unlocked. */
  predicate IsAutoUnlockAction(e: Json) {
    FieldOr(e, "event", JNull) == JStr("daemon_check_complete")
    && FieldOr(e, "action", JStr("")) == JStr("auto_unlock")
  }

  /** The times of the entries that auto-unlocked, in order. */
  function UnlockTimes(entries: seq<Json>): seq<Json>
    decreases |entries|
  {
    if |entries| == 0 then []
    else (if IsAutoUnlockAction(entries[0]) then [FieldOr(entries[0], "ts", JNull)] else []) + UnlockTimes(entries[1..])
  }

  /** The summary counts every entry, its unlock count is the number of unlock times,
      those times are exactly those of the completed checks that auto-unlocked, and
      no entry is both an unlock and a reblock. */
  lemma {:induction false} DailySummaryMeaning(day: string, entries: seq<Json>)
    requires GenerateDailySummary(day, entries).Return?
    ensures var s := GenerateDailySummary(day, entries).value;
      && s.day == day && s.eventsCount == |entries|
      && s.unlockCount == |s.unlockTimes|
      && s.unlockTimes == UnlockTimes(entries)
      && |s.unlockTimes| + |s.reblockTimes| <= |entries|
      && |s.conditionsMetTimes| <= |entries|
    decreases |entries|
  {
    if |entries| > 0 {
      DailySummaryMeaning(day, entries[1..]);
    }
  }
}

=== FILE: checkers.dfy ===
/**
 * The condition classes of lib/conditions/obsidian.py: each built-in kind reads
 * today's note through the parser and answers `(met, description)`; the word
 * count kind hands over to `WordCounter`. A plugin condition's `check` is code
 * the model cannot see, so it is supplied by the caller.
 */
module Checkers {
  import opened Wrappers
  import opened JsonData
  import opened Outcomes
  import Registry
  import NoteParser
  import WordCount

  /** The `type` each built-in kind is registered under. */
  function KindName(kind: Registry.Kind): string {
    match kind
    case Checkbox => "checkbox"
    case Yaml => "yaml"
    case Heading => "heading"
    case Regex => "regex"
    case LinkedWordcount => "linked_wordcount"
  }

  /** `check(config)` of the built-in condition class of `kind`. */
  function Check(kind: Registry.Kind, vault: NoteParser.Vault, config: Json): Outcome<NoteParser.Verdict> {
    if kind == Registry.LinkedWordcount then
      match WordCount.CheckWordcountCondition(vault, config)
      case Raise(e) => Raise(e)
      case Return((met, description, _)) => Return((met, description))
    else
      match vault.note
      case None => Return((false, NoteParser.NoteNotFound))
      case Some(content) =>
        (match kind
         case Checkbox => NoteParser.CheckboxVerdict(content, config)
         case Yaml => NoteParser.YamlVerdict(vault, content, config)
         case Heading => NoteParser.HeadingVerdict(content, config)
         case Regex => NoteParser.RegexVerdict(vault, content, config)
         case LinkedWordcount => Return((false, NoteParser.NoteNotFound)))
  }

  /** `condition.check(config)` for any created condition: a plugin's answer comes
      from `plugin`. */
  function Evaluate(cond: Registry.Condition, vault: NoteParser.Vault,
                    plugin: (nat, Json) -> Outcome<NoteParser.Verdict>, config: Json): Outcome<NoteParser.Verdict> {
    match cond
    case ObsidianCondition(kind) => Check(kind, vault, config)
    case PluginCondition(id) => plugin(id, config)
  }

  /** A built-in note class answers as `ObsidianParser.check_condition` does for a
      config whose `type` names it. Without a daily note it is unmet with "Daily
      note not found". */
  lemma CheckMeaning(kind: Registry.Kind, vault: NoteParser.Vault, config: Json)
    requires kind != Registry.LinkedWordcount
    ensures vault.note.None? ==> Check(kind, vault, config) == Return((false, NoteParser.NoteNotFound))
    ensures FieldOr(config, "type", JStr("checkbox")) == JStr(KindName(kind)) ==>
      Check(kind, vault, config) == NoteParser.CheckCondition(vault, config)
  {
    if FieldOr(config, "type", JStr("checkbox")) == JStr(KindName(kind)) {
      match kind {
        case Checkbox =>
        case Yaml => assert JStr("yaml") != JStr("checkbox");
        case Heading => assert JStr("heading") != JStr("checkbox") && JStr("heading") != JStr("yaml");
        case Regex =>
          assert JStr("regex") != JStr("checkbox") && JStr("regex") != JStr("yaml") && JStr("regex") != JStr("heading");
      }
    }
  }

  /** The word count class returns the word counter's `(met, description)` as it is,
      raising when it raises. */
  lemma CheckWordcountMeaning(vault: NoteParser.Vault, config: Json)
    ensures var w := WordCount.CheckWordcountCondition(vault, config);
      && (Check(Registry.LinkedWordcount, vault, config).Raise? <==> w.Raise?)
      && (w.Return? ==> Check(Registry.LinkedWordcount, vault, config) == Return((w.value.0, w.value.1)))
  {
  }

  /** The word count class has no daily-note branch of its own: without a note and
      with no configuration it reports that no linked file was found. */
  lemma CheckWordcountNoNote(vault: NoteParser.Vault)
    requires vault.note.None?
    ensures Check(Registry.LinkedWordcount, vault, EmptyObject)
      == Return((false, "No linked files found under 'Writing' section"))
  {
    assert FieldOr(EmptyObject, "section", JStr("Writing")) == JStr("Writing");
    assert FieldOr(EmptyObject, "minimum", JInt(500)) == JInt(500);
    WordCount.WordcountNoNote(vault, EmptyObject);
    assert "No linked files found under '" + Show(JStr("Writing")) + "' section"
      == "No linked files found under 'Writing' section";
  }
}

=== FILE: config.dfy ===
/**
 * The configuration tree (`Config` in lib/config.py): a dictionary loaded from
 * YAML and merged over the defaults, read and written by dot-separated key
 * paths. Loading and saving the file are left to the caller; the tree is a
 * `Json` dictionary.
 */
module Config {
  import opened Wrappers
  import opened Text
  import opened JsonData
  import Dict

  type Fields = Dict.Entries<string, Json>

  /** `_deep_merge(base, override)` for the dictionary `ov`, over its entries from
      index `i` on: each entry is merged into the result in order. */
  function MergeFrom(base: Fields, ov: Json, i: nat): Fields
    requires ov.JObj? && i <= |ov.fields|
    decreases ov, 1, |ov.fields| - i
  {
    if i == |ov.fields| then base
    else
      var k := ov.fields[i].0;
      var v := ov.fields[i].1;
      assert ov.fields[i] in ov.fields;
      MergeFrom(Dict.Put(base, k, MergeValue(Dict.Get(base, k), v)), ov, i + 1)
  }

  /** The value an override entry leaves under its key: two dictionaries are merged
      recursively, anything else replaces what was there. */
  function MergeValue(prior: Option<Json>, v: Json): Json
    decreases v, 2
  {
    if prior.Some? && prior.value.JObj? && v.JObj? then JObj(MergeFrom(prior.value.fields, v, 0)) else v
  }

  /** `_deep_merge(base, override)`. */
  function DeepMerge(base: Fields, override: Json): Fields
    requires override.JObj?
  {
    MergeFrom(base, override, 0)
  }

  /** Merging the entries from `i` on: a key among them reads as its merged value,
      any other key reads as in `base`. */
  lemma {:induction false} MergeFromReads(base: Fields, ov: Json, i: nat, k: string)
    requires ov.JObj? && i <= |ov.fields| && Dict.UniqueKeys(ov.fields)
    ensures Dict.Get(MergeFrom(base, ov, i), k) ==
      if Dict.Has(ov.fields[i..], k) then Some(MergeValue(Dict.Get(base, k), Dict.Get(ov.fields[i..], k).value))
      else Dict.Get(base, k)
    decreases |ov.fields| - i
  {
    if i < |ov.fields| {
      var k0 := ov.fields[i].0;
      var v0 := ov.fields[i].1;
      var next := Dict.Put(base, k0, MergeValue(Dict.Get(base, k0), v0));
      var tail := ov.fields[i + 1..];
      assert MergeFrom(base, ov, i) == MergeFrom(next, ov, i + 1);
      MergeFromReads(next, ov, i + 1, k);
      Dict.GetPut(base, k0, MergeValue(Dict.Get(base, k0), v0), k);
      var rest := ov.fields[i..];
      assert rest[0] == (k0, v0) && rest[1..] == tail;
      Dict.GetFirst(rest, k);
      if k == k0 {
        Dict.UniqueAfter(ov.fields, i);
        assert !Dict.Has(tail, k) && Dict.Has(rest, k) && Dict.Get(rest, k) == Some(v0);
        assert Dict.Get(MergeFrom(base, ov, i), k) == Dict.Get(next, k);
      } else {
        assert Dict.Get(next, k) == Dict.Get(base, k);
        assert Dict.Has(rest, k) == Dict.Has(tail, k) && Dict.Get(rest, k) == Dict.Get(tail, k);
      }
    } else {
      assert ov.fields[i..] == [];
    }
  }

  /** `_deep_merge`: every key of the override ends up in the result; where both sides
      hold a dictionary the two are merged recursively, otherwise the override's value
      replaces the base's; keys only the base has keep their values. */
  lemma DeepMergeReads(base: Fields, override: Json, k: string)
    requires override.JObj? && Dict.UniqueKeys(override.fields)
    ensures var r := DeepMerge(base, override);
      match Dict.Get(override.fields, k)
      case None => Dict.Get(r, k) == Dict.Get(base, k)
      case Some(v) =>
        Dict.Get(r, k) == Some(
          if Dict.Get(base, k).Some? && Dict.Get(base, k).value.JObj? && v.JObj?
          then JObj(DeepMerge(Dict.Get(base, k).value.fields, v))
          else v)
  {
    MergeFromReads(base, override, 0, k);
    assert override.fields[0..] == override.fields;
  }

  /** `get(key, default)`: walk the dot-separated key path. */
  function Get(config: Json, key: string, default: Json): Json {
    Lookup(config, Split(key, '.'), default)
  }

  /** `set(key, value)` along the key path `keys`: a missing intermediate dictionary is
      created; an intermediate (or final container) that exists but is not a dictionary
      makes Python raise `TypeError` (`None`), before anything has been written. */
  function SetPath(tree: Json, keys: seq<string>, value: Json): Option<Json>
    requires |keys| >= 1
    decreases |keys|
  {
    if !tree.JObj? then None
    else if |keys| == 1 then Some(JObj(Dict.Put(tree.fields, keys[0], value)))
    else
      var child := Dict.Get(tree.fields, keys[0]).GetOr(EmptyObject);
      match SetPath(child, keys[1..], value)
      case None => None
      case Some(c) => Some(JObj(Dict.Put(tree.fields, keys[0], c)))
  }

  /** `set(key, value)`. */
  function Set(config: Json, key: string, value: Json): Option<Json> {
    SetPath(config, Split(key, '.'), value)
  }

  /** Every value already on the path is a dictionary (missing ones are fine: they are
      created). */
  predicate PathOpen(tree: Json, keys: seq<string>)
    requires |keys| >= 1
    decreases |keys|
  {
    tree.JObj? &&
    (|keys| == 1 ||
     match Dict.Get(tree.fields, keys[0])
     case None => true
     case Some(c) => PathOpen(c, keys[1..]))
  }

  /** Setting succeeds exactly when the path is open; afterwards the path reads back
      the value set, and the other top-level keys are untouched. */
  lemma {:induction false} SetPathThenLookup(tree: Json, keys: seq<string>, value: Json, default: Json)
    requires |keys| >= 1
    ensures SetPath(tree, keys, value).Some? <==> PathOpen(tree, keys)
    ensures SetPath(tree, keys, value).Some? ==> Lookup(SetPath(tree, keys, value).value, keys, default) == value
    ensures forall k | k != keys[0] && SetPath(tree, keys, value).Some? ::
      Field(SetPath(tree, keys, value).value, k) == Field(tree, k)
    decreases |keys|
  {
    if tree.JObj? {
      if |keys| == 1 {
        Dict.GetPut(tree.fields, keys[0], value, keys[0]);
        forall k | k != keys[0] ensures Field(SetPath(tree, keys, value).value, k) == Field(tree, k) {
          Dict.GetPut(tree.fields, keys[0], value, k);
        }
      } else {
        var child := Dict.Get(tree.fields, keys[0]).GetOr(EmptyObject);
        SetPathThenLookup(child, keys[1..], value, default);
        if Dict.Get(tree.fields, keys[0]).None? {
          assert PathOpen(child, keys[1..]) by { EmptyPathOpen(keys[1..]); }
        }
        var r := SetPath(child, keys[1..], value);
        if r.Some? {
          Dict.GetPut(tree.fields, keys[0], r.value, keys[0]);
          forall k | k != keys[0] ensures Field(SetPath(tree, keys, value).value, k) == Field(tree, k) {
            Dict.GetPut(tree.fields, keys[0], r.value, k);
          }
        }
      }
    }
  }

  /** A freshly created dictionary opens every path. */
  lemma {:induction false} EmptyPathOpen(keys: seq<string>)
    requires |keys| >= 1
    ensures PathOpen(EmptyObject, keys)
  {
  }

  /** `set(k, v)` followed by `get(k)` gives `v` back, and creates missing levels. */
  lemma SetThenGet(config: Json, key: string, value: Json, default: Json)
    requires config.JObj?
    ensures PathOpen(config, Split(key, '.')) ==>
      Set(config, key, value).Some? && Get(Set(config, key, value).value, key, default) == value
  {
    SetPathThenLookup(config, Split(key, '.'), value, default);
  }

  /** `add_blocked_site`: append the site only when no equal entry is present. */
  function AddBlockedSite(sites: seq<Json>, site: string): (r: seq<Json>)
    ensures JStr(site) in r && |sites| <= |r| <= |sites| + 1
    ensures r[..|sites|] == sites
  {
    if JStr(site) in sites then sites else sites + [JStr(site)]
  }

  /** No two entries of the list are equal. */
  predicate NoDuplicates(sites: seq<Json>) {
    forall i, j | 0 <= i < j < |sites| :: sites[i] != sites[j]
  }

  /** Adding never introduces a duplicate, and adding a present site changes nothing. */
  lemma AddKeepsDistinct(sites: seq<Json>, site: string)
    ensures NoDuplicates(sites) ==> NoDuplicates(AddBlockedSite(sites, site))
    ensures JStr(site) in sites <==> AddBlockedSite(sites, site) == sites
  {
  }

  /** Index of the first entry equal to `x`. */
  function IndexOf(sites: seq<Json>, x: Json): (i: nat)
    requires x in sites
    ensures i < |sites| && sites[i] == x && x !in sites[..i]
  {
    if sites[0] == x then 0
    else
      var i := IndexOf(sites[1..], x);
      assert sites[..i + 1] == [sites[0]] + sites[1..][..i];
      i + 1
  }

  /** `remove_blocked_site`: `list.remove` drops the first equal entry; an absent
      site changes nothing. */
  function RemoveBlockedSite(sites: seq<Json>, site: string): (r: seq<Json>)
  {
    if JStr(site) in sites then
      var i := IndexOf(sites, JStr(site));
      sites[..i] + sites[i + 1..]
    else sites
  }

  /** Removing a present site takes out exactly one occurrence (the first) and keeps
      the order of the rest; removing an absent site is the identity. */
  lemma RemoveOneOccurrence(sites: seq<Json>, site: string)
    ensures JStr(site) !in sites ==> RemoveBlockedSite(sites, site) == sites
    ensures JStr(site) in sites ==>
      |RemoveBlockedSite(sites, site)| == |sites| - 1
      && multiset(RemoveBlockedSite(sites, site)) == multiset(sites) - multiset{JStr(site)}
    ensures JStr(site) in sites ==>
      exists i | 0 <= i < |sites| ::
        && sites[i] == JStr(site) && JStr(site) !in sites[..i]
        && RemoveBlockedSite(sites, site) == sites[..i] + sites[i + 1..]
    ensures NoDuplicates(sites) ==> JStr(site) !in RemoveBlockedSite(sites, site)
  {
    if JStr(site) in sites {
      var i := IndexOf(sites, JStr(site));
      assert sites == sites[..i] + [sites[i]] + sites[i + 1..];
      if NoDuplicates(sites) {
        var r := RemoveBlockedSite(sites, site);
        forall j | 0 <= j < |r| ensures r[j] != JStr(site) {
          if j < i { assert r[j] == sites[j]; } else { assert r[j] == sites[j + 1]; }
        }
      }
    }
  }

  /** The daily-note pattern every component falls back to. */
  const DefaultDailyNotePattern: string := "Daily/{date}.md"

  /** A dictionary-valued top-level setting: its value, or `{}` when missing. */
  function Section(config: Json, key: string): (r: Json)
    ensures Field(config, key).None? ==> r == EmptyObject
    ensures Field(config, key).Some? ==> r == Field(config, key).value
  {
    LookupOneKey(config, key, EmptyObject);
    Lookup(config, [key], EmptyObject)
  }

  /** A one-key path reads the entry, or the default when it is missing. */
  lemma LookupOneKey(value: Json, key: string, default: Json)
    ensures Field(value, key).None? ==> Lookup(value, [key], default) == default
    ensures Field(value, key).Some? ==> Lookup(value, [key], default) == Field(value, key).value
  {
    assert [key][0] == key && [key][1..] == [];
    if Field(value, key).Some? {
      assert Lookup(Field(value, key).value, [], default) == Field(value, key).value;
    }
  }

  /** The `conditions` accessor. */
  function Conditions(config: Json): Json {
    Section(config, "conditions")
  }

  /** The `blocked_sites` accessor: `[]` when missing. */
  function BlockedSites(config: Json): (r: Json)
    ensures Field(config, "blocked_sites").None? ==> r == JList([])
    ensures Field(config, "blocked_sites").Some? ==> r == Field(config, "blocked_sites").value
  {
    Lookup(config, ["blocked_sites"], JList([]))
  }

  /** The `daily_note_pattern` accessor: "Daily/{date}.md" when missing. */
  function DailyNotePattern(config: Json): (r: Json)
    ensures Field(config, "obsidian").None? ==> r == JStr(DefaultDailyNotePattern)
    ensures Field(config, "obsidian").Some? ==>
      r == FieldOr(Field(config, "obsidian").value, "daily_note_pattern", JStr(DefaultDailyNotePattern))
  {
    Lookup(config, ["obsidian", "daily_note_pattern"], JStr(DefaultDailyNotePattern))
  }

  /** The `unlock_settings` accessor. */
  function UnlockSettings(config: Json): Json {
    Section(config, "unlock")
  }

  /** The `auto_unlock_settings` accessor. */
  function AutoUnlockSettings(config: Json): Json {
    Section(config, "auto_unlock")
  }

  /** The accessors walk their key as a path: a key without a dot is a one-step path
      and a key with one dot a two-step path. */
  lemma AccessorPaths(config: Json, a: string, b: string, default: Json)
    requires '.' !in a && '.' !in b
    ensures Get(config, a, default) == Lookup(config, [a], default)
    ensures Get(config, a + "." + b, default) == Lookup(config, [a, b], default)
  {
    SplitNoSeparator(a, '.');
    SplitTwoPieces(a, b, '.');
  }
}

=== FILE: context.dfy ===
/**
 * The context handed to condition factories (`ConditionContext` in
 * lib/conditions/context.py): the vault location, the daily-note pattern, the
 * secrets tree and the whole configuration.
 */
module ConditionContext {
  import opened Wrappers
  import opened Text
  import opened JsonData

  datatype Context = Context(
    vaultPath: Option<string>,
    dailyNotePattern: string,
    secrets: Json,
    fullConfig: Json)

  /** `ConditionContext()` with every field at its default. */
  function Default(): (c: Context)
    ensures c.vaultPath == None && c.dailyNotePattern == "Daily/{date}.md"
    ensures c.secrets == EmptyObject && c.fullConfig == EmptyObject
  {
    Context(None, "Daily/{date}.md", EmptyObject, EmptyObject)
  }

  /** `get_secret(path, default)`: walk the dot-separated path through the secrets. */
  function GetSecret(ctx: Context, path: string, default: Json): Json {
    Lookup(ctx.secrets, Split(path, '.'), default)
  }

  /** `get_secret(path)`: the default `default` is `None`. */
  function Secret(ctx: Context, path: string): Json {
    GetSecret(ctx, path, JNull)
  }

  /** A one-segment path reads the top-level secret, or the default when it is absent
      or the secrets are not a dictionary. */
  lemma SecretOneLevel(ctx: Context, a: string, default: Json)
    requires '.' !in a
    ensures GetSecret(ctx, a, default) == FieldOr(ctx.secrets, a, default)
  {
    SplitNoSeparator(a, '.');
    assert [a][1..] == [];
    match Field(ctx.secrets, a)
    case None =>
    case Some(v) => assert Lookup(v, [], default) == v;
  }

  /** A two-segment path reads inside the nested dictionary; a missing first segment,
      a first value that is not a dictionary or a missing second segment give the
      default. */
  lemma SecretTwoLevels(ctx: Context, a: string, b: string, default: Json)
    requires '.' !in a && '.' !in b
    ensures GetSecret(ctx, a + "." + b, default) ==
      match Field(ctx.secrets, a)
      case None => default
      case Some(inner) => FieldOr(inner, b, default)
  {
    SplitTwoPieces(a, b, '.');
    assert [a, b][1..] == [b] && [b][1..] == [];
    match Field(ctx.secrets, a)
    case None =>
    case Some(inner) =>
      assert GetSecret(ctx, a + "." + b, default) == Lookup(inner, [b], default);
      match Field(inner, b)
      case None =>
      case Some(v) => assert Lookup(v, [], default) == v;
  }

  /** With empty secrets every lookup gives the default, `None` unless another is
      passed. */
  lemma NoSecrets(path: string)
    ensures Secret(Default(), path) == JNull
  {
    LookupMeaning(EmptyObject, Split(path, '.'), JNull);
  }
}

=== FILE: daemon.dfy ===
/**
 * One tick of `BlockDaemon` (lib/daemon.py): reload the record, reconcile the
 * hosts file, decide whether to unlock automatically, and otherwise make sure
 * the hosts file agrees with the record. The daemon builds its unlock manager
 * without a remote-sync manager. The wall clock is given as `now` with its
 * `hour` and `minute`.
 */
module Daemon {
  import opened Wrappers
  import opened Text
  import opened JsonData
  import opened Outcomes
  import Config
  import DailyState
  import Hosts
  import Unlock

  /** How the earliest-time gate ended: it let the check go on, it rejected the
      hour, or the setting did not parse (only a warning, and the check goes on). */
  datatype Gate = Passed | TooEarly | Unparsed

  /** The gate of `should_auto_unlock` on `earliest_time`: a value that is not text
      has no `split` and raises; text must be two `:`-separated integers, and the
      current `(hour, minute)` must not be below them. */
  function TimeGate(earliest: Json, hour: int, minute: int): Outcome<Gate> {
    if !earliest.JStr? then Raise(NoAttribute(earliest, "split"))
    else
      var parts := Split(earliest.s, ':');
      if |parts| != 2 || ParseInt(parts[0]).None? || ParseInt(parts[1]).None? then Return(Unparsed)
      else
        var h := ParseInt(parts[0]).value;
        var m := ParseInt(parts[1]).value;
        if hour < h || (hour == h && minute < m) then Return(TooEarly) else Return(Passed)
  }

  /** `int(s)` on a run of decimal digits is the number they denote. */
  lemma ParseDigits(s: string)
    requires |s| > 0 && AllDigits(s)
    ensures ParseInt(s) == Some(DigitsValue(s))
  {
    assert IsDigit(s[0]) && IsDigit(s[|s| - 1]);
    StripTrimmed(s);
  }

  lemma NoColonInNumber(s: string)
    requires AllDigits(s)
    ensures ':' !in s
  {
    forall i | 0 <= i < |s| ensures s[i] != ':' {
      assert IsDigit(s[i]);
    }
  }

  /** On `H:M` written with decimal digits the gate rejects exactly when
      `(hour, minute)` comes before `(H, M)` in lexicographic order. */
  lemma TimeGateDigits(a: string, b: string, hour: int, minute: int)
    requires |a| > 0 && AllDigits(a) && |b| > 0 && AllDigits(b)
    ensures var h := DigitsValue(a);
      var m := DigitsValue(b);
      TimeGate(JStr(a + ":" + b), hour, minute)
        == Return(if hour < h || (hour == h && minute < m) then TooEarly else Passed)
  {
    NoColonInNumber(a);
    NoColonInNumber(b);
    assert Join([a, b], ':') == a + ":" + b by {
      assert Join([a, b][1..], ':') == b;
    }
    SplitJoin([a, b], ':');
    ParseDigits(a);
    ParseDigits(b);
  }

  /** The gate on any `str(h) + ":" + str(m)`. */
  lemma TimeGateMeaning(h: nat, m: nat, hour: int, minute: int)
    ensures TimeGate(JStr(NatToString(h) + ":" + NatToString(m)), hour, minute)
         == Return(if hour < h || (hour == h && minute < m) then TooEarly else Passed)
  {
    NatToStringValue(h);
    NatToStringValue(m);
    TimeGateDigits(NatToString(h), NatToString(m), hour, minute);
  }

  /** With the default "17:00", 16:59 is too early and 17:00 passes. */
  lemma DefaultGate()
    ensures TimeGate(JStr("17:00"), 16, 59) == Return(TooEarly)
    ensures TimeGate(JStr("17:00"), 17, 0) == Return(Passed)
  {
    assert DigitsValue("17") == 17 by {
      assert "17"[..1] == "1";
      assert "1"[..0] == [];
    }
    assert DigitsValue("00") == 0 by {
      assert "00"[..1] == "0";
      assert "0"[..0] == [];
    }
    assert "17" + ":" + "00" == "17:00";
    TimeGateDigits("17", "00", 16, 59);
    TimeGateDigits("17", "00", 17, 0);
  }

  /** A setting that is not two `:`-separated fields only skips the gate. */
  lemma TimeGateUnparsed(s: string, hour: int, minute: int)
    requires ':' !in s
    ensures TimeGate(JStr(s), hour, minute) == Return(Unparsed)
  {
    SplitNoSeparator(s, ':');
  }

  /** `should_auto_unlock`: enabled (by default), past the earliest time (or with an
      unparsable one), still blocked, and the conditions satisfied. Reading the
      blocked state may close an expired window; checking the conditions fills the
      condition cache. */
  function ShouldAutoUnlock(env: Unlock.Env, w: Unlock.World, today: string, now: int, hour: int, minute: int)
    : Unlock.Done<bool>
  {
    ShouldAutoUnlockGiven(env, w, today, now, hour, minute, Unlock.CheckAllConditions(env, w.cache))
  }

  /** `should_auto_unlock` as written: the conditions are checked by the
      `check_all_conditions` that reads the missing `condition_mode` attribute. */
  function ShouldAutoUnlockAsWritten(env: Unlock.Env, w: Unlock.World, today: string, now: int, hour: int, minute: int)
    : Unlock.Done<bool>
  {
    ShouldAutoUnlockGiven(env, w, today, now, hour, minute, Unlock.CheckAllConditionsAsWritten(env, w.cache, None))
  }

  /** `should_auto_unlock` given what checking the conditions on the cache held
      gives; that outcome is used only once the record reads as blocked. */
  function ShouldAutoUnlockGiven(env: Unlock.Env, w: Unlock.World, today: string, now: int, hour: int, minute: int,
                                 checked: Unlock.Checked)
    : Unlock.Done<bool>
  {
    var auto := Config.AutoUnlockSettings(env.config);
    if !auto.JObj? then Unlock.Done(Raise(NoAttribute(auto, "get")), w, None)
    else if !Truthy(FieldOr(auto, "enabled", JBool(true))) then Unlock.Done(Return(false), w, None)
    else
      match TimeGate(FieldOr(auto, "earliest_time", JStr("17:00")), hour, minute)
      case Raise(e) => Unlock.Done(Raise(e), w, None)
      case Return(TooEarly) => Unlock.Done(Return(false), w, None)
      case Return(_) =>
        var b := DailyState.IsBlocked(w.record, today, now);
        if !b.value then Unlock.Done(Return(false), w.(record := b.record), None)
        else
          var c := checked;
          var w1 := w.(record := b.record, cache := c.cache);
          match c.out
          case Raise(e) => Unlock.Done(Raise(e), w1, None)
          case Return((satisfied, _)) => Unlock.Done(Return(satisfied), w1, None)
  }

  /** Disabled or too early: false with nothing read. Otherwise (the gate passed or
      did not parse): already unlocked gives false without checking any condition,
      and while blocked the answer is the aggregate of the conditions. */
  lemma ShouldAutoUnlockMeaning(env: Unlock.Env, w: Unlock.World, today: string, now: int, hour: int, minute: int)
    requires Config.AutoUnlockSettings(env.config).JObj?
    ensures var auto := Config.AutoUnlockSettings(env.config);
      !Truthy(FieldOr(auto, "enabled", JBool(true))) ==>
        ShouldAutoUnlock(env, w, today, now, hour, minute) == Unlock.Done(Return(false), w, None)
    ensures var auto := Config.AutoUnlockSettings(env.config);
      Truthy(FieldOr(auto, "enabled", JBool(true)))
      && TimeGate(FieldOr(auto, "earliest_time", JStr("17:00")), hour, minute) == Return(TooEarly) ==>
        ShouldAutoUnlock(env, w, today, now, hour, minute) == Unlock.Done(Return(false), w, None)
    ensures var auto := Config.AutoUnlockSettings(env.config);
      var gate := TimeGate(FieldOr(auto, "earliest_time", JStr("17:00")), hour, minute);
      var b := DailyState.IsBlocked(w.record, today, now);
      var c := Unlock.CheckAllConditions(env, w.cache);
      var r := ShouldAutoUnlock(env, w, today, now, hour, minute);
      Truthy(FieldOr(auto, "enabled", JBool(true))) && (gate == Return(Passed) || gate == Return(Unparsed)) ==>
        && r.world.record == b.record
        && (!b.value ==> r.out == Return(false) && r.world.cache == w.cache)
        && (b.value && c.out.Return? ==> r.out == Return(c.out.value.0) && r.world.cache == c.cache)
  {
    ShouldGivenMeaning(env, w, today, now, hour, minute, Unlock.CheckAllConditions(env, w.cache));
  }

  /** `ShouldAutoUnlockMeaning` for any outcome of checking the conditions. */
  lemma ShouldGivenMeaning(env: Unlock.Env, w: Unlock.World, today: string, now: int, hour: int, minute: int,
                           checked: Unlock.Checked)
    requires Config.AutoUnlockSettings(env.config).JObj?
    ensures var auto := Config.AutoUnlockSettings(env.config);
      !Truthy(FieldOr(auto, "enabled", JBool(true))) ==>
        ShouldAutoUnlockGiven(env, w, today, now, hour, minute, checked) == Unlock.Done(Return(false), w, None)
    ensures var auto := Config.AutoUnlockSettings(env.config);
      Truthy(FieldOr(auto, "enabled", JBool(true)))
      && TimeGate(FieldOr(auto, "earliest_time", JStr("17:00")), hour, minute) == Return(TooEarly) ==>
        ShouldAutoUnlockGiven(env, w, today, now, hour, minute, checked) == Unlock.Done(Return(false), w, None)
    ensures var auto := Config.AutoUnlockSettings(env.config);
      var gate := TimeGate(FieldOr(auto, "earliest_time", JStr("17:00")), hour, minute);
      var b := DailyState.IsBlocked(w.record, today, now);
      var c := checked;
      var r := ShouldAutoUnlockGiven(env, w, today, now, hour, minute, checked);
      Truthy(FieldOr(auto, "enabled", JBool(true))) && (gate == Return(Passed) || gate == Return(Unparsed)) ==>
        && r.world.record == b.record
        && (!b.value ==> r.out == Return(false) && r.world.cache == w.cache)
        && (b.value && c.out.Return? ==> r.out == Return(c.out.value.0) && r.world.cache == c.cache)
  {
  }

  /** How a tick ended: the world afterwards, the exception it logged (if any), and
      whether it unlocked automatically. */
  datatype Tick = Tick(world: Unlock.World, logged: Option<Exception>, autoUnlocked: bool)

  /** `run_check`: the record is first replaced by the one read back (`loaded`) and
      reset for the day; then the hosts file is synced; then either the automatic
      unlock or the hosts reconciliation. An exception ends the tick and is logged,
      never raised, with the effects so far kept. */
  function RunCheck(env: Unlock.Env, loaded: DailyState.DayRecord, w: Unlock.World,
                    today: string, now: int, hour: int, minute: int): Tick
  {
    RunFrom(env, w.(record := DailyState.DayReset(loaded, today)), today, now, hour, minute)
  }

  /** The tick once the record has been reloaded into `w0`. */
  function RunFrom(env: Unlock.Env, w0: Unlock.World, today: string, now: int, hour: int, minute: int): Tick {
    var own := env.(remote := None);
    var w1 := Unlock.SyncBlockingState(own, w0, today, now).world;
    RunAfter(env, ShouldAutoUnlock(own, w1, today, now, hour, minute), today, now)
  }

  /** The rest of the tick once `should_auto_unlock` has answered (or raised). */
  function RunAfter(env: Unlock.Env, should: Unlock.Done<bool>, today: string, now: int): Tick {
    var w2 := should.world;
    match should.out
    case Raise(e) => Tick(w2, Some(e), false)
    case Return(true) =>
      (match Unlock.IntSetting(env.config, "proof_of_work_duration", 7200)
       case Raise(e) => Tick(w2, Some(e), false)
       case Return(d) =>
         var unlocked := DailyState.SetUnlocked(w2.record, today, now, d);
         var hosts := Hosts.Apply(w2.hostsFile, Hosts.UnblockSites(w2.hostsFile));
         Tick(Unlock.World(unlocked, w2.cache, hosts), None, true))
    case Return(false) =>
      var b := DailyState.IsBlocked(w2.record, today, now);
      var active := Hosts.IsBlockingActive(w2.hostsFile);
      var hosts :=
        if b.value && !active then Hosts.Apply(w2.hostsFile, Hosts.BlockSites(w2.hostsFile, env.sites))
        else if !b.value && active then Hosts.Apply(w2.hostsFile, Hosts.UnblockSites(w2.hostsFile))
        else w2.hostsFile;
      Tick(Unlock.World(b.record, w2.cache, hosts), None, false)
  }

  /** The tick starts from the record read back: whatever record the daemon held
      before makes no difference. */
  lemma RunCheckReloadsFirst(env: Unlock.Env, loaded: DailyState.DayRecord, w: Unlock.World,
                             other: DailyState.DayRecord, today: string, now: int, hour: int, minute: int)
    ensures RunCheck(env, loaded, w, today, now, hour, minute)
         == RunCheck(env, loaded, w.(record := other), today, now, hour, minute)
  {
    var w0 := w.(record := DailyState.DayReset(loaded, today));
    assert w.(record := other).(record := DailyState.DayReset(loaded, today)) == w0;
    assert RunCheck(env, loaded, w, today, now, hour, minute) == RunFrom(env, w0, today, now, hour, minute);
  }

  /** When no automatic unlock fires, the hosts file is reconciled with the record:
      the block section is written when the record reads as blocked and the file
      does not look blocked, removed when the record is open and the file looks
      blocked, and the file is left alone otherwise. "Looks blocked" is the
      substring test for the begin marker. When the unlock fires, the window is
      `[now, now + d)` for the configured duration and the hosts file lists no
      blocked site. */
  lemma RunCheckMeaning(env: Unlock.Env, loaded: DailyState.DayRecord, w: Unlock.World,
                        today: string, now: int, hour: int, minute: int)
    ensures var own := env.(remote := None);
      var w1 := Unlock.SyncBlockingState(own, w.(record := DailyState.DayReset(loaded, today)), today, now).world;
      var should := ShouldAutoUnlock(own, w1, today, now, hour, minute);
      var t := RunCheck(env, loaded, w, today, now, hour, minute);
      should.out == Return(false) ==>
        var b := DailyState.IsBlocked(should.world.record, today, now);
        var h := should.world.hostsFile;
        && t.logged == None && !t.autoUnlocked
        && (b.value && !Hosts.IsBlockingActive(h) ==> t.world.hostsFile == Hosts.Apply(h, Hosts.BlockSites(h, env.sites)))
        && (!b.value && Hosts.IsBlockingActive(h) ==> t.world.hostsFile == Hosts.Apply(h, Hosts.UnblockSites(h)))
        && (b.value == Hosts.IsBlockingActive(h) ==> t.world.hostsFile == h)
    ensures var own := env.(remote := None);
      var w1 := Unlock.SyncBlockingState(own, w.(record := DailyState.DayReset(loaded, today)), today, now).world;
      var should := ShouldAutoUnlock(own, w1, today, now, hour, minute);
      var t := RunCheck(env, loaded, w, today, now, hour, minute);
      should.out == Return(true) && Unlock.IntSetting(env.config, "proof_of_work_duration", 7200).Return? ==>
        var d := Unlock.IntSetting(env.config, "proof_of_work_duration", 7200).value;
        && t.autoUnlocked && t.logged == None
        && DailyState.UntilOf(t.world.record) == now + d && t.world.record.blocked == Some(false)
        && Hosts.GetBlockedSites(t.world.hostsFile) == []
    ensures var t := RunCheck(env, loaded, w, today, now, hour, minute);
      t.autoUnlocked ==> t.logged == None
  {
    var own := env.(remote := None);
    var w1 := Unlock.SyncBlockingState(own, w.(record := DailyState.DayReset(loaded, today)), today, now).world;
    var should := ShouldAutoUnlock(own, w1, today, now, hour, minute);
    assert RunCheck(env, loaded, w, today, now, hour, minute) == RunAfter(env, should, today, now);
    RunAfterMeaning(env, should, today, now);
  }

  /** `RunCheckMeaning` for any answer of `should_auto_unlock`. */
  lemma RunAfterMeaning(env: Unlock.Env, should: Unlock.Done<bool>, today: string, now: int)
    ensures var t := RunAfter(env, should, today, now);
      should.out == Return(false) ==>
        var b := DailyState.IsBlocked(should.world.record, today, now);
        var h := should.world.hostsFile;
        && t.logged == None && !t.autoUnlocked
        && (b.value && !Hosts.IsBlockingActive(h) ==> t.world.hostsFile == Hosts.Apply(h, Hosts.BlockSites(h, env.sites)))
        && (!b.value && Hosts.IsBlockingActive(h) ==> t.world.hostsFile == Hosts.Apply(h, Hosts.UnblockSites(h)))
        && (b.value == Hosts.IsBlockingActive(h) ==> t.world.hostsFile == h)
    ensures var t := RunAfter(env, should, today, now);
      should.out == Return(true) && Unlock.IntSetting(env.config, "proof_of_work_duration", 7200).Return? ==>
        var d := Unlock.IntSetting(env.config, "proof_of_work_duration", 7200).value;
        && t.autoUnlocked && t.logged == None
        && DailyState.UntilOf(t.world.record) == now + d && t.world.record.blocked == Some(false)
        && Hosts.GetBlockedSites(t.world.hostsFile) == []
    ensures var t := RunAfter(env, should, today, now);
      t.autoUnlocked ==> t.logged == None
  {
    Hosts.UnblockClears(should.world.hostsFile);
  }

  /** `run_check` as written: `should_auto_unlock` goes through the
      `check_all_conditions` that reads the missing `condition_mode` attribute. */
  function RunCheckAsWritten(env: Unlock.Env, loaded: DailyState.DayRecord, w: Unlock.World,
                             today: string, now: int, hour: int, minute: int): Tick
  {
    var own := env.(remote := None);
    var w0 := w.(record := DailyState.DayReset(loaded, today));
    var w1 := Unlock.SyncBlockingState(own, w0, today, now).world;
    RunAfter(env, ShouldAutoUnlockAsWritten(own, w1, today, now, hour, minute), today, now)
  }

  /** As written, `should_auto_unlock` raises `AttributeError` whenever it gets as
      far as the conditions: enabled, past the earliest time (or with an unparsable
      one), blocked, and with well-formed conditions. */
  lemma ShouldAutoUnlockAsWrittenRaises(env: Unlock.Env, w: Unlock.World, today: string, now: int,
                                        hour: int, minute: int)
    requires Unlock.CacheSound(env, w.cache)
    requires Config.Conditions(env.config).JObj? && Unlock.AllObjects(Config.Conditions(env.config).fields)
    requires var auto := Config.AutoUnlockSettings(env.config);
      auto.JObj? && Truthy(FieldOr(auto, "enabled", JBool(true)))
    requires var gate := TimeGate(FieldOr(Config.AutoUnlockSettings(env.config), "earliest_time", JStr("17:00")), hour, minute);
      gate == Return(Passed) || gate == Return(Unparsed)
    requires DailyState.IsBlocked(w.record, today, now).value
    ensures ShouldAutoUnlockAsWritten(env, w, today, now, hour, minute).out == Raise(Unlock.ModeMissing)
  {
    Unlock.ModeAttributeMissing(env, w.cache);
  }

  /** As written, a tick never unlocks automatically, and a tick that reaches the
      conditions logs the `AttributeError` instead of reconciling the hosts file. */
  lemma RunCheckAsWrittenNeverUnlocks(env: Unlock.Env, loaded: DailyState.DayRecord, w: Unlock.World,
                                      today: string, now: int, hour: int, minute: int)
    ensures !RunCheckAsWritten(env, loaded, w, today, now, hour, minute).autoUnlocked
    ensures var own := env.(remote := None);
      var w1 := Unlock.SyncBlockingState(own, w.(record := DailyState.DayReset(loaded, today)), today, now).world;
      var should := ShouldAutoUnlockAsWritten(own, w1, today, now, hour, minute);
      var t := RunCheckAsWritten(env, loaded, w, today, now, hour, minute);
      should.out.Raise? ==> t.logged == Some(should.out.error) && t.world == should.world
  {
    var own := env.(remote := None);
    var w1 := Unlock.SyncBlockingState(own, w.(record := DailyState.DayReset(loaded, today)), today, now).world;
    var should := ShouldAutoUnlockAsWritten(own, w1, today, now, hour, minute);
    AsWrittenNeverTrue(own, w1, today, now, hour, minute);
    assert RunCheckAsWritten(env, loaded, w, today, now, hour, minute) == RunAfter(env, should, today, now);
    RunAfterRaised(env, should, today, now);
  }

  /** As written, `should_auto_unlock` never answers true: the conditions' report
      always ends in the missing attribute. */
  lemma AsWrittenNeverTrue(env: Unlock.Env, w: Unlock.World, today: string, now: int, hour: int, minute: int)
    ensures ShouldAutoUnlockAsWritten(env, w, today, now, hour, minute).out != Return(true)
  {
    assert Unlock.CheckAllConditionsAsWritten(env, w.cache, None).out.Raise?;
  }

  /** Only a true answer unlocks, and an exception ends the tick with the world it
      left, logged. */
  lemma RunAfterRaised(env: Unlock.Env, should: Unlock.Done<bool>, today: string, now: int)
    ensures RunAfter(env, should, today, now).autoUnlocked ==> should.out == Return(true)
    ensures should.out.Raise? ==>
      RunAfter(env, should, today, now) == Tick(should.world, Some(should.out.error), false)
  {
  }
}

=== FILE: daily_state.dfy ===
/**
 * The daily unlock record (`State` in lib/state.py). The record is a small
 * dictionary persisted between runs; every accessor first resets it wholesale
 * when its date is not today, and the blocked flag is computed lazily from the
 * unlock window. The clock (`now`, whole seconds) and the calendar (`today`,
 * an ISO date) are parameters; persisting the record is left to the caller.
 */
module DailyState {
  import opened Wrappers
  import opened Text
  import opened JsonData

  /** The stored dictionary. Every key may be missing from a record read back from
      disk; `viaConditions` is the key only the corrected conditions-unlock path
      writes (see `Unlock.ProofOfWorkUnlock`). */
  datatype DayRecord = DayRecord(
    date: Option<string>,
    unlockedUntil: Option<int>,
    emergencyCount: Option<nat>,
    lastEmergencyWait: Option<int>,
    blocked: Option<bool>,
    viaConditions: Option<bool>)

  /** A read that may also rewrite the record: the value and the record afterwards. */
  datatype Step<T> = Step(value: T, record: DayRecord)

  /** The record written at the start of a day. */
  function Fresh(today: string): DayRecord {
    DayRecord(Some(today), Some(0), Some(0), Some(0), Some(true), None)
  }

  /** `self._state.get("unlocked_until", 0)`. */
  function UntilOf(st: DayRecord): int {
    st.unlockedUntil.GetOr(0)
  }

  /** `self._state.get("emergency_count", 0)`. */
  function CountOf(st: DayRecord): nat {
    st.emergencyCount.GetOr(0)
  }

  /** `_check_day_reset`: a record of another day (or of no day) is replaced by a fresh
      one; a record of today is kept as it is. */
  function DayReset(st: DayRecord, today: string): (r: DayRecord)
    ensures r.date == Some(today)
    ensures st.date == Some(today) ==> r == st
    ensures st.date != Some(today) ==>
      UntilOf(r) == 0 && CountOf(r) == 0 && r.lastEmergencyWait == Some(0)
      && r.blocked == Some(true) && r.viaConditions == None
  {
    if st.date != Some(today) then Fresh(today) else st
  }

  /** Resetting twice on the same day is resetting once. */
  lemma DayResetIdempotent(st: DayRecord, today: string)
    ensures DayReset(DayReset(st, today), today) == DayReset(st, today)
  {
  }

  /** `is_blocked`: inside an unlock window the sites are open; the first read after
      the window has passed closes it and writes the blocked state back; with no
      window the stored flag decides, and a missing flag means blocked. */
  function IsBlocked(st: DayRecord, today: string, now: int): (r: Step<bool>)
    ensures var s := DayReset(st, today);
      !r.value <==> (0 < UntilOf(s) && now < UntilOf(s)) || (UntilOf(s) <= 0 && s.blocked == Some(false))
    ensures var s := DayReset(st, today);
      UntilOf(s) <= 0 ==> r.value == s.blocked.GetOr(true) && r.record == s
    ensures var s := DayReset(st, today);
      0 < UntilOf(s) && now < UntilOf(s) ==> r.record == s
    ensures var s := DayReset(st, today);
      0 < UntilOf(s) <= now ==> r.record == s.(unlockedUntil := Some(0), blocked := Some(true))
  {
    var s := DayReset(st, today);
    var until := UntilOf(s);
    if until > 0 then
      if now < until then Step(false, s)
      else Step(true, s.(unlockedUntil := Some(0), blocked := Some(true)))
    else Step(s.blocked.GetOr(true), s)
  }

  /** A second read at the same moment answers the same and writes nothing more. */
  lemma IsBlockedStable(st: DayRecord, today: string, now: int)
    ensures var r := IsBlocked(st, today, now);
      IsBlocked(r.record, today, now) == r
  {
  }

  /** Once the sites read as blocked they stay blocked as time goes on, until some
      operation opens them again. */
  lemma BlockedStaysBlocked(st: DayRecord, today: string, now: int, later: int)
    requires IsBlocked(st, today, now).value && now <= later
    ensures IsBlocked(IsBlocked(st, today, now).record, today, later).value
  {
  }

  /** The records the operations write never hold an open flag without a window
      end past the epoch. */
  predicate Consistent(st: DayRecord) {
    st.blocked == Some(false) ==> UntilOf(st) > 0
  }

  /** On a consistent record the sites are open exactly inside the unlock window. */
  lemma IsBlockedExactlyInWindow(st: DayRecord, today: string, now: int)
    requires Consistent(st)
    ensures var s := DayReset(st, today);
      !IsBlocked(st, today, now).value <==> 0 < UntilOf(s) && now < UntilOf(s)
  {
  }

  /** Every writing operation keeps the record consistent, provided the window it
      opens ends after the epoch. */
  lemma ConsistentPreserved(st: DayRecord, today: string, now: int, duration: int, wait: int)
    requires Consistent(st)
    ensures Consistent(Fresh(today)) && Consistent(DayReset(st, today))
    ensures Consistent(IsBlocked(st, today, now).record)
    ensures now + duration > 0 ==> Consistent(SetUnlocked(st, today, now, duration))
    ensures now + duration > 0 ==> Consistent(ExtendUnlock(st, today, now, duration))
    ensures Consistent(RecordEmergency(st, today, wait))
    ensures Consistent(ForceBlock(st, today))
  {
  }

  /** `unlock_remaining_seconds`: the whole seconds left in the window, never negative.
      (This property reads the record without a day reset.) */
  function RemainingSeconds(st: DayRecord, now: int): (n: nat)
    ensures n == 0 <==> UntilOf(st) <= now
    ensures n > 0 ==> now + n == UntilOf(st)
  {
    if UntilOf(st) - now > 0 then UntilOf(st) - now else 0
  }

  /** `unlock_remaining_formatted` on a number of seconds: "0:00" when nothing is left,
      "H:MM:SS" from one hour on, "M:SS" below. */
  function FormatRemaining(seconds: int): string {
    if seconds <= 0 then "0:00"
    else
      var hours := seconds / 3600;
      var minutes := (seconds % 3600) / 60;
      var secs := seconds % 60;
      if hours > 0 then NatToString(hours) + ":" + Pad2(minutes) + ":" + Pad2(secs)
      else NatToString(minutes) + ":" + Pad2(secs)
  }

  /** Reads a clock text "M:SS" or "H:MM:SS" back into seconds. */
  function ParseClock(text: string): Option<nat> {
    var parts := Split(text, ':');
    if |parts| == 2 && |parts[0]| > 0 && AllDigits(parts[0]) && |parts[1]| == 2 && AllDigits(parts[1]) then
      Some(DigitsValue(parts[0]) * 60 + DigitsValue(parts[1]))
    else if |parts| == 3 && |parts[0]| > 0 && AllDigits(parts[0])
      && |parts[1]| == 2 && AllDigits(parts[1]) && |parts[2]| == 2 && AllDigits(parts[2]) then
      Some(DigitsValue(parts[0]) * 3600 + DigitsValue(parts[1]) * 60 + DigitsValue(parts[2]))
    else None
  }

  /** The formatted remaining time denotes exactly the seconds left, with three fields
      from one hour on and two below, and minute and second fields below 60 as
      `02d` writes them; nothing left is "0:00". */
  lemma {:induction false} FormatRemainingRoundTrip(seconds: int)
    ensures seconds <= 0 ==> FormatRemaining(seconds) == "0:00"
    ensures seconds > 0 ==> ParseClock(FormatRemaining(seconds)) == Some(seconds)
    ensures seconds > 0 ==> (|Split(FormatRemaining(seconds), ':')| == 3 <==> seconds >= 3600)
    ensures seconds > 0 ==>
      var parts := Split(FormatRemaining(seconds), ':');
      && 2 <= |parts| <= 3
      && DigitsValue(parts[|parts| - 1]) < 60
      && (|parts| == 3 ==> DigitsValue(parts[1]) < 60)
  {
    if seconds > 0 {
      var hours := seconds / 3600;
      var minutes := (seconds % 3600) / 60;
      var secs := seconds % 60;
      ClockArithmetic(seconds);
      Pad2Value(minutes);
      Pad2Value(secs);
      if hours > 0 {
        NatToStringValue(hours);
        ParseThreeFields(NatToString(hours), Pad2(minutes), Pad2(secs));
      } else {
        NatToStringValue(minutes);
        ParseTwoFields(NatToString(minutes), Pad2(secs));
      }
    }
  }

  lemma ClockArithmetic(seconds: int)
    requires seconds > 0
    ensures (seconds % 3600) / 60 < 60 && seconds % 60 < 60
    ensures (seconds / 3600) * 3600 + ((seconds % 3600) / 60) * 60 + seconds % 60 == seconds
    ensures seconds / 3600 > 0 <==> seconds >= 3600
  {
    var r := seconds % 3600;
    assert (r / 60) * 60 + r % 60 == r;
    assert r % 60 == seconds % 60;
  }

  lemma ParseThreeFields(a: string, b: string, c: string)
    requires |a| > 0 && AllDigits(a) && |b| == 2 && AllDigits(b) && |c| == 2 && AllDigits(c)
    ensures Split(a + ":" + b + ":" + c, ':') == [a, b, c]
    ensures ParseClock(a + ":" + b + ":" + c) == Some(DigitsValue(a) * 3600 + DigitsValue(b) * 60 + DigitsValue(c))
  {
    NoColonInDigits(a);
    NoColonInDigits(b);
    NoColonInDigits(c);
    SplitThreeFields(a, b, c);
  }

  /** Three colon-free fields joined by colons split back into themselves. */
  lemma SplitThreeFields(a: string, b: string, c: string)
    requires ':' !in a && ':' !in b && ':' !in c
    ensures Split(a + ":" + b + ":" + c, ':') == [a, b, c]
  {
    var parts := [a, b, c];
    assert Join(parts[2..], ':') == c;
    assert Join(parts[1..], ':') == b + ":" + c;
    ConcatAssoc(a + ":", b + ":", c);
    assert Join(parts, ':') == a + ":" + b + ":" + c;
    SplitJoin(parts, ':');
  }

  lemma ParseTwoFields(a: string, b: string)
    requires |a| > 0 && AllDigits(a) && |b| == 2 && AllDigits(b)
    ensures Split(a + ":" + b, ':') == [a, b]
    ensures ParseClock(a + ":" + b) == Some(DigitsValue(a) * 60 + DigitsValue(b))
  {
    var parts := [a, b];
    NoColonInDigits(a);
    NoColonInDigits(b);
    assert Join(parts, ':') == a + ":" + b by {
      assert Join(parts[1..], ':') == b;
    }
    SplitJoin(parts, ':');
  }

  lemma NoColonInDigits(s: string)
    requires AllDigits(s)
    ensures ':' !in s
  {
    forall i | 0 <= i < |s|
      ensures s[i] != ':'
    {
      assert IsDigit(s[i]);
    }
  }

  /** `set_unlocked(d)`: the window becomes exactly `[now, now + d)`, replacing any
      window that was open, and the blocked flag is cleared; nothing else changes. */
  function SetUnlocked(st: DayRecord, today: string, now: int, duration: int): (r: DayRecord)
    ensures UntilOf(r) == now + duration && r.blocked == Some(false)
    ensures var s := DayReset(st, today);
      r.date == s.date && r.emergencyCount == s.emergencyCount
      && r.lastEmergencyWait == s.lastEmergencyWait && r.viaConditions == s.viaConditions
  {
    DayReset(st, today).(unlockedUntil := Some(now + duration), blocked := Some(false))
  }

  /** After `set_unlocked(d)` the sites stay open exactly while the clock is before
      `now + d`; with `d <= 0` they read as blocked at once (for a clock past the
      epoch, so that the window end is positive). */
  lemma SetUnlockedWindow(st: DayRecord, today: string, now: int, duration: int, t: int)
    ensures 0 < now + duration ==>
      (!IsBlocked(SetUnlocked(st, today, now, duration), today, t).value <==> t < now + duration)
    ensures 0 < now + duration <= now ==> IsBlocked(SetUnlocked(st, today, now, duration), today, now).value
  {
  }

  /** `extend_unlock(d)`: an open window (one that ends after `now`) grows by exactly
      `d`; otherwise a new window `[now, now + d)` starts. Either way the blocked flag
      is cleared and nothing else changes. */
  function ExtendUnlock(st: DayRecord, today: string, now: int, duration: int): (r: DayRecord)
    ensures var s := DayReset(st, today);
      UntilOf(r) == (if UntilOf(s) > now then UntilOf(s) else now) + duration
    ensures r.blocked == Some(false)
    ensures var s := DayReset(st, today);
      r.date == s.date && r.emergencyCount == s.emergencyCount
      && r.lastEmergencyWait == s.lastEmergencyWait && r.viaConditions == s.viaConditions
  {
    var s := DayReset(st, today);
    var current := UntilOf(s);
    if current > now then s.(unlockedUntil := Some(current + duration), blocked := Some(false))
    else s.(unlockedUntil := Some(now + duration), blocked := Some(false))
  }

  /** Extending never ends the window earlier than setting it would. */
  lemma ExtendAtLeastSet(st: DayRecord, today: string, now: int, duration: int)
    ensures UntilOf(ExtendUnlock(st, today, now, duration)) >= UntilOf(SetUnlocked(st, today, now, duration))
  {
  }

  /** The `emergency_count` property: the count of today's emergency unlocks. */
  function EmergencyCount(st: DayRecord, today: string): (r: Step<nat>)
    ensures r.record == DayReset(st, today)
    ensures st.date != Some(today) ==> r.value == 0
  {
    var s := DayReset(st, today);
    Step(CountOf(s), s)
  }

  /** `record_emergency_unlock(w)`: the count grows by exactly one and the wait is
      remembered; nothing else changes. */
  function RecordEmergency(st: DayRecord, today: string, wait: int): (r: DayRecord)
    ensures CountOf(r) == CountOf(DayReset(st, today)) + 1
    ensures r.lastEmergencyWait == Some(wait)
    ensures var s := DayReset(st, today);
      r.date == s.date && r.unlockedUntil == s.unlockedUntil
      && r.blocked == s.blocked && r.viaConditions == s.viaConditions
  {
    var s := EmergencyCount(st, today);
    s.record.(emergencyCount := Some(s.value + 1), lastEmergencyWait := Some(wait))
  }

  /** `can_emergency_unlock(m)`: today's count is below the daily cap. */
  function CanEmergency(st: DayRecord, today: string, maxPerDay: int): (r: Step<bool>)
    ensures r.value <==> CountOf(DayReset(st, today)) < maxPerDay
    ensures r.record == DayReset(st, today)
  {
    var s := EmergencyCount(st, today);
    Step(s.value < maxPerDay, s.record)
  }

  /** Recording one emergency unlock per wait in `waits`, in order. */
  function RecordAll(st: DayRecord, today: string, waits: seq<int>): (r: DayRecord)
    ensures r.date == Some(today)
    decreases |waits|
  {
    if |waits| == 0 then DayReset(st, today)
    else RecordAll(RecordEmergency(st, today, waits[0]), today, waits[1..])
  }

  /** Starting a day and recording `n` emergency unlocks leaves the count at `n`. */
  lemma {:induction false} RecordAllCounts(st: DayRecord, today: string, waits: seq<int>)
    ensures CountOf(RecordAll(st, today, waits)) == CountOf(DayReset(st, today)) + |waits|
    decreases |waits|
  {
    if |waits| > 0 {
      RecordAllCounts(RecordEmergency(st, today, waits[0]), today, waits[1..]);
    }
  }

  /** After `m` emergency unlocks on a new day the daily cap `m` is reached. */
  lemma EmergencyCapReached(st: DayRecord, today: string, waits: seq<int>)
    requires st.date != Some(today)
    ensures !CanEmergency(RecordAll(st, today, waits), today, |waits|).value
    ensures forall m | m > |waits| :: CanEmergency(RecordAll(st, today, waits), today, m).value
  {
    RecordAllCounts(st, today, waits);
  }

  /** `b ** e` for a natural exponent. */
  function Pow(b: int, e: nat): int
    decreases e
  {
    if e == 0 then 1 else b * Pow(b, e - 1)
  }

  /** `get_next_emergency_wait(i, k)`: `i * k ** count`. */
  function NextEmergencyWait(st: DayRecord, today: string, initial: int, multiplier: int): (r: Step<int>)
    ensures r.record == DayReset(st, today)
    ensures st.date != Some(today) ==> r.value == initial
  {
    var s := EmergencyCount(st, today);
    Step(initial * Pow(multiplier, s.value), s.record)
  }

  /** Each recorded emergency unlock multiplies the next wait by the multiplier:
      30, 60, 120, ... for an initial wait of 30 and a multiplier of 2. */
  lemma NextWaitGrows(st: DayRecord, today: string, wait: int, initial: int, multiplier: int)
    ensures NextEmergencyWait(RecordEmergency(st, today, wait), today, initial, multiplier).value
         == NextEmergencyWait(st, today, initial, multiplier).value * multiplier
  {
    var n := CountOf(DayReset(st, today));
    assert Pow(multiplier, n + 1) == multiplier * Pow(multiplier, n);
    assert initial * (multiplier * Pow(multiplier, n)) == initial * Pow(multiplier, n) * multiplier;
  }

  /** `force_block`: the window is closed and the flag set; nothing else changes. */
  function ForceBlock(st: DayRecord, today: string): (r: DayRecord)
    ensures UntilOf(r) == 0 && r.blocked == Some(true)
    ensures var s := DayReset(st, today);
      r.date == s.date && r.emergencyCount == s.emergencyCount
      && r.lastEmergencyWait == s.lastEmergencyWait && r.viaConditions == s.viaConditions
  {
    DayReset(st, today).(unlockedUntil := Some(0), blocked := Some(true))
  }

  /** After a force-block the sites read as blocked at any time of the same day. */
  lemma ForceBlockBlocks(st: DayRecord, today: string, t: int)
    ensures IsBlocked(ForceBlock(st, today), today, t) == Step(true, ForceBlock(st, today))
  {
  }

  /** The summary `get_status` returns. */
  datatype Status = Status(
    date: string,
    blocked: bool,
    unlockedUntil: int,
    unlockRemaining: string,
    emergencyCount: nat,
    emergencyRemaining: nat)

  /** `get_status`: the fields are read in order, so the blocked read (which may close
      an expired window) comes before the window end and the remaining time. The
      remaining emergency count is computed against a fixed cap of 3. The day reset
      uses `today`, which is the remote store's date when one is configured, while
      the reported date is always the machine's own date `localToday`. */
  function GetStatus(st: DayRecord, today: string, localToday: string, now: int): (r: Step<Status>)
    ensures r.value.date == localToday
    ensures r.record == IsBlocked(st, today, now).record
    ensures r.value.blocked == IsBlocked(st, today, now).value
    ensures r.value.unlockedUntil == UntilOf(IsBlocked(st, today, now).record)
    ensures 0 < UntilOf(DayReset(st, today)) <= now ==> r.value.unlockedUntil == 0
    ensures r.value.unlockRemaining == FormatRemaining(RemainingSeconds(IsBlocked(st, today, now).record, now))
    ensures r.value.emergencyCount == CountOf(DayReset(st, today))
    ensures st.date != Some(today) ==> r.value.emergencyCount == 0
    ensures r.value.emergencyCount + r.value.emergencyRemaining >= 3
    ensures r.value.emergencyCount <= 3 ==> r.value.emergencyCount + r.value.emergencyRemaining == 3
    ensures r.value.emergencyCount >= 3 ==> r.value.emergencyRemaining == 0
  {
    var s := DayReset(st, today);
    var b := IsBlocked(s, today, now);
    var until := UntilOf(b.record);
    var count := EmergencyCount(b.record, today);
    Step(Status(localToday, b.value, until, FormatRemaining(RemainingSeconds(b.record, now)),
                count.value, if 3 - count.value > 0 then 3 - count.value else 0),
         count.record)
  }

  /** A blocked status never shows time left, and an open window always does. */
  lemma StatusRemainingAgrees(st: DayRecord, today: string, localToday: string, now: int)
    requires now >= 0
    ensures var r := GetStatus(st, today, localToday, now);
      r.value.blocked ==> r.value.unlockRemaining == "0:00"
    ensures var r := GetStatus(st, today, localToday, now);
      !r.value.blocked && r.value.unlockedUntil > 0 ==> r.value.unlockRemaining != "0:00"
  {
    var r := GetStatus(st, today, localToday, now);
    var b := IsBlocked(st, today, now);
    var n := RemainingSeconds(b.record, now);
    FormatRemainingRoundTrip(n);
    if !r.value.blocked && r.value.unlockedUntil > 0 {
      ZeroClockParse();
    }
  }

  /** `"0:00"` reads as zero seconds. */
  lemma ZeroClockParse()
    ensures ParseClock("0:00") == Some(0)
  {
    ZeroClockSplit();
    assert DigitsValue("0") == 0 by { assert "0"[..0] == []; }
    assert DigitsValue("00") == 0 by { assert "00"[..1] == "0"; assert "0"[..0] == []; }
  }

  lemma ZeroClockSplit()
    ensures Split("0:00", ':') == ["0", "00"]
  {
    assert Split("", ':') == [""];
    assert Split("0", ':') == ["0"] by { assert "0"[1..] == ""; assert ['0'] + "" == "0"; }
    assert Split("00", ':') == ["00"] by { assert "00"[1..] == "0"; assert ['0'] + "0" == "00"; }
    assert Split(":00", ':') == ["", "00"] by { assert ":00"[1..] == "00"; }
    assert "0:00"[1..] == ":00";
    assert ['0'] + "" == "0";
  }

  /** The settings of `RemoteStateStore`, as read from its configuration section and
      the remote-sync section it falls back on for host and user. */
  datatype RemoteStoreSettings = RemoteStoreSettings(enabled: Json, host: Json, user: Json, statePath: Json)

  /** `RemoteStateStore.__init__`: `enabled` defaults to false; `host`/`user` come from
      the section when truthy and from the fallback otherwise; `state_path` has its
      default. As the program is written the fallback is always empty: `get_state`
      passes a `remote_sync_settings` attribute that `Config` does not define
      (lib/state.py:342), so `getattr` gives `{}`. */
  function RemoteStoreSettingsOf(config: Json, fallback: Json): (r: RemoteStoreSettings)
    ensures Field(config, "enabled").None? ==> r.enabled == JBool(false)
    ensures Field(config, "enabled").Some? ==> r.enabled == Field(config, "enabled").value
    ensures Truthy(FieldOr(config, "host", JNull)) ==> r.host == FieldOr(config, "host", JNull)
    ensures !Truthy(FieldOr(config, "host", JNull)) ==> r.host == FieldOr(fallback, "host", JStr(""))
    ensures Truthy(FieldOr(config, "user", JNull)) ==> r.user == FieldOr(config, "user", JNull)
    ensures !Truthy(FieldOr(config, "user", JNull)) ==> r.user == FieldOr(fallback, "user", JStr(""))
    ensures Field(config, "state_path").None? ==> r.statePath == JStr(DefaultRemoteStatePath)
    ensures Field(config, "state_path").Some? ==> r.statePath == Field(config, "state_path").value
    ensures fallback == EmptyObject ==>
      (Truthy(r.host) <==> Truthy(FieldOr(config, "host", JNull))) && (Truthy(r.user) <==> Truthy(FieldOr(config, "user", JNull)))
  {
    var host := FieldOr(config, "host", JNull);
    var user := FieldOr(config, "user", JNull);
    RemoteStoreSettings(
      FieldOr(config, "enabled", JBool(false)),
      if Truthy(host) then host else FieldOr(fallback, "host", JStr("")),
      if Truthy(user) then user else FieldOr(fallback, "user", JStr("")),
      FieldOr(config, "state_path", JStr(DefaultRemoteStatePath)))
  }

  const DefaultRemoteStatePath: string := "/etc/block_distractions/state.json"

  /** `is_configured`: enabled, with a host, a user and a state path. */
  predicate IsConfigured(rs: RemoteStoreSettings) {
    Truthy(rs.enabled) && Truthy(rs.host) && Truthy(rs.user) && Truthy(rs.statePath)
  }

  /** Remote state is used only when enabled and reachable: a section that is not
      enabled, or has no host or user in either place, is not configured. */
  lemma NotConfiguredWithout(config: Json, fallback: Json)
    ensures var rs := RemoteStoreSettingsOf(config, fallback);
      IsConfigured(rs) ==> Truthy(FieldOr(config, "enabled", JBool(false)))
    ensures var rs := RemoteStoreSettingsOf(config, fallback);
      IsConfigured(rs) ==> Truthy(FieldOr(config, "host", JNull)) || Truthy(FieldOr(fallback, "host", JStr("")))
    ensures var rs := RemoteStoreSettingsOf(config, fallback);
      IsConfigured(rs) ==> Truthy(FieldOr(config, "user", JNull)) || Truthy(FieldOr(fallback, "user", JStr("")))
  {
  }
}

=== FILE: dict.dfy ===
/**
 * Insertion-ordered dictionaries, the way Python's `dict` behaves: an
 * association list in which the first entry for a key is the one that counts,
 * assignment to a present key replaces its value in place, and assignment to a
 * new key appends it at the end.
 */
module Dict {
  import opened Wrappers

  type Entries<K, V> = seq<(K, V)>

  /** Every key appears once; the invariant Python dictionaries keep. */
  predicate UniqueKeys<K(==), V>(d: Entries<K, V>) {
    forall i, j | 0 <= i < j < |d| :: d[i].0 != d[j].0
  }

  /** The keys in insertion order (`list(d.keys())`). */
  function Keys<K, V>(d: Entries<K, V>): (ks: seq<K>)
    ensures |ks| == |d| && forall i | 0 <= i < |d| :: ks[i] == d[i].0
  {
    if |d| == 0 then [] else [d[0].0] + Keys(d[1..])
  }

  /** `k in d`. */
  predicate Has<K(==), V>(d: Entries<K, V>, k: K) {
    k in Keys(d)
  }

  /** `d.get(k)`: the value of the first entry with key `k`. */
  function Get<K(==), V>(d: Entries<K, V>, k: K): (r: Option<V>)
    ensures r.None? <==> !Has(d, k)
    ensures r.Some? ==> (k, r.value) in d
  {
    if |d| == 0 then None
    else if d[0].0 == k then Some(d[0].1)
    else
      assert Keys(d) == [d[0].0] + Keys(d[1..]);
      Get(d[1..], k)
  }

  /** `d[k] = v`: replace the value of the first entry for `k`, or append `(k, v)`. */
  function Put<K(==), V>(d: Entries<K, V>, k: K, v: V): (r: Entries<K, V>)
    ensures Keys(r) == if Has(d, k) then Keys(d) else Keys(d) + [k]
    ensures !Has(d, k) ==> r == d + [(k, v)]
  {
    if |d| == 0 then [(k, v)]
    else if d[0].0 == k then
      assert Keys([(k, v)] + d[1..]) == [k] + Keys(d[1..]);
      [(k, v)] + d[1..]
    else
      var rest := Put(d[1..], k, v);
      assert Keys(d) == [d[0].0] + Keys(d[1..]);
      assert Keys([d[0]] + rest) == [d[0].0] + Keys(rest);
      [d[0]] + rest
  }

  /** Reading a nonempty dictionary looks at its first entry, then at the rest. */
  lemma GetFirst<K, V>(d: Entries<K, V>, k: K)
    requires |d| > 0
    ensures Get(d, k) == if d[0].0 == k then Some(d[0].1) else Get(d[1..], k)
    ensures Has(d, k) <==> d[0].0 == k || Has(d[1..], k)
  {
    assert Keys(d) == [d[0].0] + Keys(d[1..]);
  }

  /** With unique keys, an entry's key does not occur after it. */
  lemma UniqueAfter<K, V>(d: Entries<K, V>, i: nat)
    requires UniqueKeys(d) && i < |d|
    ensures !Has(d[i + 1..], d[i].0)
  {
    var tail := d[i + 1..];
    forall j | 0 <= j < |tail| ensures Keys(tail)[j] != d[i].0 {
      assert Keys(tail)[j] == tail[j].0 == d[i + 1 + j].0;
    }
  }

  /** With unique keys every entry is what its key reads. */
  lemma {:induction false} GetUnique<K, V>(d: Entries<K, V>, i: nat)
    requires UniqueKeys(d) && i < |d|
    ensures Get(d, d[i].0) == Some(d[i].1)
    decreases i
  {
    if i > 0 {
      assert d[0].0 != d[i].0;
      assert d[1..][i - 1] == d[i];
      GetUnique(d[1..], i - 1);
    }
  }

  /** After `d[k] = v`, reading `k` gives `v` and every other key reads as before. */
  lemma {:induction false} GetPut<K, V>(d: Entries<K, V>, k: K, v: V, k': K)
    ensures Get(Put(d, k, v), k') == if k' == k then Some(v) else Get(d, k')
    decreases |d|
  {
    if |d| > 0 && d[0].0 != k {
      GetPut(d[1..], k, v, k');
      assert Put(d, k, v)[1..] == Put(d[1..], k, v);
    }
  }

  /** Assignment keeps keys unique. */
  lemma PutUnique<K, V>(d: Entries<K, V>, k: K, v: V)
    requires UniqueKeys(d)
    ensures UniqueKeys(Put(d, k, v))
  {
    var r := Put(d, k, v);
    forall i, j | 0 <= i < j < |r| ensures r[i].0 != r[j].0 {
      assert Keys(r)[i] == r[i].0 && Keys(r)[j] == r[j].0;
      if j < |d| {
        assert Keys(d)[i] == d[i].0 && Keys(d)[j] == d[j].0;
      } else {
        assert Keys(d)[i] == d[i].0;
      }
    }
  }
}

=== FILE: headings.dfy ===
/**
 * Heading lookup in a daily note (lib/obsidian.py): `check_heading_exists` and
 * `get_section_content`. The heading expressions `^#+\s*<text>\s*$` and
 * `^#{n}\s*<text>\s*$` are matched line by line, the text compared ignoring case.
 */
module Headings {
  import opened Wrappers
  import opened Text

  // ---------------------------------------------------------------------------
  // Hash marks.

  predicate AllHashes(s: string) {
    forall i | 0 <= i < |s| :: s[i] == '#'
  }

  /** Number of `#` characters that start `s`. */
  function LeadingHashes(s: string): (n: nat)
    ensures n <= |s| && AllHashes(s[..n])
    ensures n == |s| || s[n] != '#'
    decreases |s|
  {
    if |s| > 0 && s[0] == '#' then
      var n := LeadingHashes(s[1..]);
      assert s[..n + 1] == [s[0]] + s[1..][..n];
      n + 1
    else 0
  }

  /** Every run of hash marks that starts `s` is at most the leading run. */
  lemma HashRun(s: string, a: nat)
    requires a <= |s|
    ensures AllHashes(s[..a]) <==> a <= LeadingHashes(s)
  {
    var n := LeadingHashes(s);
    if a <= n {
      forall i | 0 <= i < a ensures s[..a][i] == '#' {
        assert s[..n][i] == s[i];
      }
    } else {
      assert s[..a][n] == s[n] && s[n] != '#';
    }
  }

  /** `str.count(c)`. */
  function CountChar(s: string, c: char): nat
    decreases |s|
  {
    if |s| == 0 then 0 else (if s[0] == c then 1 else 0) + CountChar(s[1..], c)
  }

  /** `str.lstrip("#")`. */
  function LStripHashes(s: string): string {
    s[LeadingHashes(s)..]
  }

  // ---------------------------------------------------------------------------
  // One heading line.

  /** `\s*<text>\s*$` against the whole of `s`, relative to `s`: whitespace up to
      `k`, the text at `k`, whitespace after it. */
  ghost predicate SpacesExactlyMatch(s: string, text: string, k: nat) {
    k + |text| <= |s| && AllSpace(s[..k]) && EqualIgnoringCase(s[k..k + |text|], text)
    && AllSpace(s[k + |text|..])
  }

  /** Executable form of `\s*<text>\s*$` over all of `s`. */
  function SpacesThenExactly(s: string, text: string): bool
    decreases |s|
  {
    (StartsWithIgnoringCase(s, text) && AllSpace(s[|text|..]))
    || (|s| > 0 && IsSpace(s[0]) && SpacesThenExactly(s[1..], text))
  }

  lemma {:induction false} SpacesThenExactlyWitness(s: string, text: string) returns (k: nat)
    requires SpacesThenExactly(s, text)
    ensures SpacesExactlyMatch(s, text, k)
    decreases |s|
  {
    if StartsWithIgnoringCase(s, text) && AllSpace(s[|text|..]) {
      assert s[0..0 + |text|] == s[..|text|];
      k := 0;
    } else {
      var k' := SpacesThenExactlyWitness(s[1..], text);
      assert s[..k' + 1] == [s[0]] + s[1..][..k'];
      assert s[k' + 1..k' + 1 + |text|] == s[1..][k'..k' + |text|];
      assert s[k' + 1 + |text|..] == s[1..][k' + |text|..];
      k := k' + 1;
    }
  }

  lemma {:induction false} SpacesThenExactlyComplete(s: string, text: string, k: nat)
    requires SpacesExactlyMatch(s, text, k)
    ensures SpacesThenExactly(s, text)
    decreases k
  {
    if k == 0 {
      assert s[..|text|] == s[0..0 + |text|];
    } else {
      assert IsSpace(s[..k][0]);
      assert s[1..][..k - 1] == s[1..k];
      assert s[1..][k - 1..k - 1 + |text|] == s[k..k + |text|];
      assert s[1..][k - 1 + |text|..] == s[k + |text|..];
      SpacesThenExactlyComplete(s[1..], text, k - 1);
    }
  }

  /** `SpacesThenExactly` decides `SpacesExactlyMatch`. */
  lemma SpacesThenExactlyMeaning(s: string, text: string)
    ensures SpacesThenExactly(s, text) <==> exists k: nat :: SpacesExactlyMatch(s, text, k)
  {
    if SpacesThenExactly(s, text) {
      var k := SpacesThenExactlyWitness(s, text);
    }
    if exists k: nat :: SpacesExactlyMatch(s, text, k) {
      var k: nat :| SpacesExactlyMatch(s, text, k);
      SpacesThenExactlyComplete(s, text, k);
    }
  }

  /** The line is `a` hash marks, then whitespace, the text, whitespace. */
  ghost predicate HeadingAt(line: string, a: nat, text: string) {
    a <= |line| && AllHashes(line[..a]) && exists k: nat :: SpacesExactlyMatch(line[a..], text, k)
  }

  /** `any_level` allows one or more hash marks; otherwise the count is fixed. */
  datatype LevelRule = AnyLevel | ExactLevel(n: nat)

  /** The line is a heading with this text under the rule. */
  ghost predicate LineMatches(line: string, text: string, rule: LevelRule) {
    match rule
    case AnyLevel => exists a: nat :: 1 <= a && HeadingAt(line, a, text)
    case ExactLevel(n) => HeadingAt(line, n, text)
  }

  /** The level the first `(#+)` group takes when the heading expression matches
      `line`: the greedy run is tried from its longest down to one hash. */
  function GreedyLevel(line: string, text: string, a: nat): Option<nat>
    requires a <= |line|
  {
    if a == 0 then None
    else if SpacesThenExactly(line[a..], text) then Some(a)
    else GreedyLevel(line, text, a - 1)
  }

  /** The level the heading expression gives `line` under the rule, if it matches. */
  function LineLevel(line: string, text: string, rule: LevelRule): Option<nat> {
    match rule
    case AnyLevel => GreedyLevel(line, text, LeadingHashes(line))
    case ExactLevel(n) =>
      if n <= LeadingHashes(line) && SpacesThenExactly(line[n..], text) then Some(n) else None
  }

  lemma {:induction false} GreedyLevelMeaning(line: string, text: string, a: nat)
    requires a <= LeadingHashes(line)
    ensures GreedyLevel(line, text, a).Some? ==>
      var b := GreedyLevel(line, text, a).value;
      1 <= b <= a && HeadingAt(line, b, text)
    ensures forall b: nat | 1 <= b <= a && HeadingAt(line, b, text) ::
      GreedyLevel(line, text, a).Some? && b <= GreedyLevel(line, text, a).value
  {
    if a > 0 {
      HashRun(line, a);
      SpacesThenExactlyMeaning(line[a..], text);
      GreedyLevelMeaning(line, text, a - 1);
    }
  }

  /** `LineLevel` finds a level exactly when the line matches; under `AnyLevel` it
      is the largest matching level, under `ExactLevel(n)` it is `n`. */
  lemma LineLevelMeaning(line: string, text: string, rule: LevelRule)
    ensures LineLevel(line, text, rule).Some? <==> LineMatches(line, text, rule)
    ensures LineLevel(line, text, rule).Some? ==>
      var a := LineLevel(line, text, rule).value;
      HeadingAt(line, a, text)
      && (rule.ExactLevel? ==> a == rule.n)
      && (rule.AnyLevel? ==> 1 <= a && forall b: nat | a < b :: !HeadingAt(line, b, text))
  {
    var n := LeadingHashes(line);
    match rule {
      case AnyLevel =>
        GreedyLevelMeaning(line, text, n);
        forall b: nat | 1 <= b && HeadingAt(line, b, text) ensures b <= n {
          HashRun(line, b);
        }
      case ExactLevel(m) =>
        if m <= |line| {
          HashRun(line, m);
          SpacesThenExactlyMeaning(line[m..], text);
        }
    }
  }

  // ---------------------------------------------------------------------------
  // Searching the lines of a note.

  /** `re.search` with `re.MULTILINE`: the first line at or after `i` that matches,
      with the level its hash group takes. */
  function FirstHeading(lines: seq<string>, text: string, rule: LevelRule, i: nat): (r: Option<(nat, nat)>)
    requires i <= |lines|
    ensures r.Some? ==> i <= r.value.0 < |lines| && LineLevel(lines[r.value.0], text, rule) == Some(r.value.1)
    ensures forall h | i <= h < |lines| && (r.None? || h < r.value.0) :: LineLevel(lines[h], text, rule).None?
    decreases |lines| - i
  {
    if i == |lines| then None
    else match LineLevel(lines[i], text, rule)
      case Some(a) => Some((i, a))
      case None => FirstHeading(lines, text, rule, i + 1)
  }

  /** The first line at or after `i` that is not all whitespace. */
  function FirstNonBlank(lines: seq<string>, i: nat): (r: Option<nat>)
    requires i <= |lines|
    ensures r.Some? ==> i <= r.value < |lines| && !AllSpace(lines[r.value])
    ensures forall m | i <= m < |lines| && (r.None? || m < r.value) :: AllSpace(lines[m])
    decreases |lines| - i
  {
    if i == |lines| then None
    else if !AllSpace(lines[i]) then Some(i)
    else FirstNonBlank(lines, i + 1)
  }

  /** The text after the end of the heading match, as lines. The trailing `\s*` of
      the expression runs over the blank lines that follow and gives back the line
      break before the first line with content, so that break opens an empty line. */
  function LinesAfter(lines: seq<string>, h: nat): (after: seq<string>)
    requires h < |lines|
    ensures |after| >= 1 && after[0] == ""
  {
    match FirstNonBlank(lines, h + 1)
    case None => [""]
    case Some(m) => [""] + lines[m..]
  }

  // ---------------------------------------------------------------------------
  // check_heading_exists

  /** The expression text and level rule `check_heading_exists` builds. */
  function HeadingQuery(heading: string, anyLevel: bool): (string, LevelRule) {
    if anyLevel then (heading, AnyLevel)
    else (Strip(LStripHashes(heading)), ExactLevel(CountChar(heading, '#')))
  }

  /** The lines from `lines` that match the heading (first one) and what follows. */
  ghost predicate IsFirstMatch(lines: seq<string>, text: string, rule: LevelRule, h: nat) {
    h < |lines| && LineMatches(lines[h], text, rule)
    && forall g | 0 <= g < h :: !LineMatches(lines[g], text, rule)
  }

  /** No line of the note matches the heading. */
  ghost predicate NoMatch(lines: seq<string>, text: string, rule: LevelRule) {
    forall h | 0 <= h < |lines| :: !LineMatches(lines[h], text, rule)
  }

  /** The first line with content after line `h` does not start with `#`. */
  ghost predicate ContentFollows(lines: seq<string>, h: nat) {
    exists m | h < m < |lines| ::
      !AllSpace(lines[m]) && (forall q | h < q < m :: AllSpace(lines[q]))
      && !StartsWith(Strip(lines[m]), "#")
  }

  /** The search over the lines of the note. */
  function HasContentUnder(lines: seq<string>, text: string, rule: LevelRule): bool {
    match FirstHeading(lines, text, rule, 0)
    case None => false
    case Some((h, _)) =>
      var after := LinesAfter(lines, h);
      match FirstNonBlank(after, 0)
      case None => false
      case Some(m) => !StartsWith(Strip(after[m]), "#")
  }

  /** `check_heading_exists(content, heading, any_level)`. */
  function HeadingExists(content: string, heading: string, anyLevel: bool): bool {
    var q := HeadingQuery(heading, anyLevel);
    HasContentUnder(Split(content, '\n'), q.0, q.1)
  }

  /** The line matches exactly when its level is found. */
  lemma LinesLevelMeaning(lines: seq<string>, text: string, rule: LevelRule)
    ensures forall h | 0 <= h < |lines| ::
      LineLevel(lines[h], text, rule).Some? <==> LineMatches(lines[h], text, rule)
  {
    forall h | 0 <= h < |lines|
      ensures LineLevel(lines[h], text, rule).Some? <==> LineMatches(lines[h], text, rule)
    {
      LineLevelMeaning(lines[h], text, rule);
    }
  }

  /** The first match of the search is the first matching line. */
  lemma FirstHeadingMeaning(lines: seq<string>, text: string, rule: LevelRule)
    ensures FirstHeading(lines, text, rule, 0).None? <==> NoMatch(lines, text, rule)
    ensures FirstHeading(lines, text, rule, 0).Some? ==>
      IsFirstMatch(lines, text, rule, FirstHeading(lines, text, rule, 0).value.0)
  {
    LinesLevelMeaning(lines, text, rule);
    var r := FirstHeading(lines, text, rule, 0);
    if r.Some? {
      assert LineMatches(lines[r.value.0], text, rule);
    }
  }

  /** The heading has content: no matching line makes it false; otherwise, taking the
      first matching line, it is true exactly when the first later line with content
      does not start with `#`. */
  lemma HasContentUnderMeaning(lines: seq<string>, text: string, rule: LevelRule)
    ensures NoMatch(lines, text, rule) ==>
      !HasContentUnder(lines, text, rule)
    ensures forall h | IsFirstMatch(lines, text, rule, h) ::
      HasContentUnder(lines, text, rule) <==> ContentFollows(lines, h)
  {
    FirstHeadingMeaning(lines, text, rule);
    var r := FirstHeading(lines, text, rule, 0);
    if r.Some? {
      var h := r.value.0;
      forall h': nat | IsFirstMatch(lines, text, rule, h') ensures h' == h {
      }
      var after := LinesAfter(lines, h);
      var f := FirstNonBlank(lines, h + 1);
      assert AllSpace(after[0]);
      if f.Some? {
        var m := f.value;
        assert after[1] == lines[m];
        assert FirstNonBlank(after, 1) == Some(1);
        assert FirstNonBlank(after, 0) == Some(1);
        forall m' | h < m' < |lines| && !AllSpace(lines[m']) && (forall q | h < q < m' :: AllSpace(lines[q]))
          ensures m' == m
        {
        }
      } else {
        assert FirstNonBlank(after, 0) == None;
      }
    }
  }

  /** `check_heading_exists` in terms of the lines of the note. */
  lemma HeadingExistsMeaning(content: string, heading: string, anyLevel: bool)
    ensures var lines := Split(content, '\n');
      var q := HeadingQuery(heading, anyLevel);
      && (NoMatch(lines, q.0, q.1) ==>
           !HeadingExists(content, heading, anyLevel))
      && (forall h | IsFirstMatch(lines, q.0, q.1, h) ::
           HeadingExists(content, heading, anyLevel) <==> ContentFollows(lines, h))
  {
    var lines := Split(content, '\n');
    var q := HeadingQuery(heading, anyLevel);
    HasContentUnderMeaning(lines, q.0, q.1);
    assert HeadingExists(content, heading, anyLevel) == HasContentUnder(lines, q.0, q.1);
  }

  // ---------------------------------------------------------------------------
  // get_section_content

  /** The expression text and level rule `get_section_content` builds: without
      `any_level` the level is the number of `#` in the heading, or 1 when it does
      not start with `#`. */
  function SectionQuery(heading: string, anyLevel: bool): (string, LevelRule) {
    if anyLevel then (heading, AnyLevel)
    else
      var level := if StartsWith(heading, "#") then CountChar(heading, '#') else 1;
      (Strip(LStripHashes(heading)), ExactLevel(level))
  }

  /** `re.match(r"^(#+)\s", line)` succeeds with a group no longer than `level`. */
  predicate ClosesSection(line: string, level: nat) {
    var k := LeadingHashes(line);
    1 <= k <= level && k < |line| && IsSpace(line[k])
  }

  /** The lines up to, not including, the first that closes the section. */
  function TakeSection(ls: seq<string>, level: nat): (kept: seq<string>)
    decreases |ls|
  {
    if |ls| == 0 || ClosesSection(ls[0], level) then []
    else [ls[0]] + TakeSection(ls[1..], level)
  }

  /** The section is the longest prefix with no closing line: deeper subheadings stay
      in it and the first heading of the same or a higher level ends it. */
  lemma {:induction false} TakeSectionMeaning(ls: seq<string>, level: nat)
    ensures var kept := TakeSection(ls, level);
      |kept| <= |ls| && kept == ls[..|kept|]
      && (forall j | 0 <= j < |kept| :: !ClosesSection(kept[j], level))
      && (|kept| < |ls| ==> ClosesSection(ls[|kept|], level))
    decreases |ls|
  {
    if |ls| > 0 && !ClosesSection(ls[0], level) {
      TakeSectionMeaning(ls[1..], level);
      var rest := TakeSection(ls[1..], level);
      assert ls[..1 + |rest|] == [ls[0]] + ls[1..][..|rest|];
      assert TakeSection(ls, level) == [ls[0]] + rest;
    }
  }

  /** `get_section_content(content, heading, any_level)`. */
  function SectionContent(content: string, heading: string, anyLevel: bool): Option<string> {
    var lines := Split(content, '\n');
    var q := SectionQuery(heading, anyLevel);
    match FirstHeading(lines, q.0, q.1, 0)
    case None => None
    case Some((h, level)) => Some(Join(TakeSection(LinesAfter(lines, h), level), '\n'))
  }

  /** The section is absent exactly when no line matches the heading; otherwise it is
      the joined lines after the first matching line, up to the first that closes
      the section at the level the match took. */
  lemma SectionContentMeaning(content: string, heading: string, anyLevel: bool)
    ensures var lines := Split(content, '\n');
      var q := SectionQuery(heading, anyLevel);
      SectionContent(content, heading, anyLevel).None? <==> NoMatch(lines, q.0, q.1)
    ensures var lines := Split(content, '\n');
      var q := SectionQuery(heading, anyLevel);
      var r := FirstHeading(lines, q.0, q.1, 0);
      r.Some? ==>
        && IsFirstMatch(lines, q.0, q.1, r.value.0)
        && SectionContent(content, heading, anyLevel)
           == Some(Join(TakeSection(LinesAfter(lines, r.value.0), r.value.1), '\n'))
  {
    var q := SectionQuery(heading, anyLevel);
    FirstHeadingMeaning(Split(content, '\n'), q.0, q.1);
  }
}

=== FILE: hosts.dfy ===
/**
 * `HostsManager` (lib/hosts.py): the block section this program owns in the
 * hosts file, between two marker lines, and its edits. The file's text is a
 * parameter and each edit returns the text to write; the `sudo cp` that writes
 * it and the DNS cache flush are left to the caller.
 */
module Hosts {
  import opened Wrappers
  import opened Text

  const BeginMarker: string := "# BEGIN BLOCK_DISTRACTIONS"
  const EndMarker: string := "# END BLOCK_DISTRACTIONS"
  const BlockIp: string := "127.0.0.1"

  /** A site already written with the `www.` prefix gets no second variant. */
  predicate IsWww(site: string) {
    StartsWith(site, "www.")
  }

  /** A line that opens or closes the block section, surrounding whitespace aside. */
  predicate IsMarker(line: string) {
    Strip(line) == BeginMarker || Strip(line) == EndMarker
  }

  /** A line that is empty once stripped. */
  predicate IsBlank(line: string) {
    Strip(line) == ""
  }

  // ---------------------------------------------------------------------------
  // _get_block_entries

  /** The lines one site contributes: IPv4 and IPv6, and the same for its `www.`
      variant unless it has one already. */
  function SiteLines(site: string): seq<string> {
    [BlockIp + " " + site, "::1 " + site]
    + (if IsWww(site) then [] else [BlockIp + " www." + site, "::1 www." + site])
  }

  function EntryLines(sites: seq<string>): seq<string>
    decreases |sites|
  {
    if |sites| == 0 then [] else SiteLines(sites[0]) + EntryLines(sites[1..])
  }

  /** The lines of the block section, markers included. */
  function BlockLines(sites: seq<string>): seq<string> {
    [BeginMarker] + EntryLines(sites) + [EndMarker]
  }

  /** `_get_block_entries(sites)`. */
  function BlockEntries(sites: seq<string>): string {
    Join(BlockLines(sites), '\n')
  }

  /** The sites without a `www.` prefix, in order. */
  function NonWww(sites: seq<string>): seq<string>
    decreases |sites|
  {
    if |sites| == 0 then []
    else (if IsWww(sites[0]) then [] else [sites[0]]) + NonWww(sites[1..])
  }

  /** The section opens with the begin marker and closes with the end marker, with
      two lines for every site and two more for every site without `www.`. */
  lemma {:induction false} BlockEntriesShape(sites: seq<string>)
    ensures StartsWith(BlockEntries(sites), BeginMarker)
    ensures EndsWith(BlockEntries(sites), EndMarker)
    ensures |BlockLines(sites)| == 2 + 2 * |sites| + 2 * |NonWww(sites)|
  {
    EntryLinesCount(sites);
    var block := BlockLines(sites);
    assert block[0] == BeginMarker && block[|block| - 1] == EndMarker;
    JoinEnds(block, '\n');
  }

  lemma {:induction false} EntryLinesCount(sites: seq<string>)
    ensures |EntryLines(sites)| == 2 * |sites| + 2 * |NonWww(sites)|
    decreases |sites|
  {
    if |sites| > 0 {
      EntryLinesCount(sites[1..]);
    }
  }

  // ---------------------------------------------------------------------------
  // _remove_block_section

  /** The loop of `_remove_block_section`: marker lines are dropped and flip the
      in-block flag; other lines are kept when outside the block. */
  function KeepOutside(lines: seq<string>, inBlock: bool): (kept: seq<string>)
    ensures forall l | l in kept :: l in lines && !IsMarker(l)
    decreases |lines|
  {
    if |lines| == 0 then []
    else if Strip(lines[0]) == BeginMarker then KeepOutside(lines[1..], true)
    else if Strip(lines[0]) == EndMarker then KeepOutside(lines[1..], false)
    else if inBlock then KeepOutside(lines[1..], true)
    else [lines[0]] + KeepOutside(lines[1..], false)
  }

  /** Pop blank lines off the end. */
  function DropTrailingBlank(lines: seq<string>): (r: seq<string>)
    ensures |r| <= |lines| && r == lines[..|r|]
    ensures |r| == 0 || !IsBlank(r[|r| - 1])
    ensures forall i | |r| <= i < |lines| :: IsBlank(lines[i])
    decreases |lines|
  {
    if |lines| > 0 && IsBlank(lines[|lines| - 1]) then DropTrailingBlank(lines[..|lines| - 1])
    else lines
  }

  /** The lines `_remove_block_section` keeps. */
  function OutsideLines(content: string): seq<string> {
    DropTrailingBlank(KeepOutside(Split(content, '\n'), false))
  }

  /** `_remove_block_section(content)`. */
  function RemoveBlockSection(content: string): string {
    Join(OutsideLines(content), '\n')
  }

  /** Lines with no marker among them pass through the loop unchanged. */
  lemma {:induction false} KeepUnmarked(before: seq<string>, after: seq<string>)
    requires forall l | l in before :: !IsMarker(l)
    ensures KeepOutside(before + after, false) == before + KeepOutside(after, false)
    decreases |before|
  {
    if |before| > 0 {
      assert before[0] in before;
      assert (before + after)[1..] == before[1..] + after;
      KeepUnmarked(before[1..], after);
    } else {
      assert before + after == after;
    }
  }

  /** Inside the block everything up to the end marker is dropped. */
  lemma {:induction false} SkipBlock(inner: seq<string>, after: seq<string>)
    requires forall l | l in inner :: !IsMarker(l)
    ensures KeepOutside(inner + [EndMarker] + after, true) == KeepOutside(after, false)
    decreases |inner|
  {
    assert Strip(EndMarker) == EndMarker by { StripTrimmed(EndMarker); }
    if |inner| > 0 {
      assert inner[0] in inner;
      assert (inner + [EndMarker] + after)[1..] == inner[1..] + [EndMarker] + after;
      SkipBlock(inner[1..], after);
    } else {
      assert (inner + [EndMarker] + after)[1..] == after;
    }
  }

  /** A block section between lines outside it is cut out and those lines are
      kept, in order. */
  lemma KeepAroundBlock(before: seq<string>, inner: seq<string>, after: seq<string>)
    requires forall l | l in before :: !IsMarker(l)
    requires forall l | l in inner :: !IsMarker(l)
    ensures KeepOutside(before + [BeginMarker] + inner + [EndMarker] + after, false)
         == before + KeepOutside(after, false)
  {
    var tail := inner + [EndMarker] + after;
    var rest := [BeginMarker] + tail;
    assert before + [BeginMarker] + inner + [EndMarker] + after == before + rest;
    KeepUnmarked(before, rest);
    assert rest[0] == BeginMarker && rest[1..] == tail;
    assert Strip(BeginMarker) == BeginMarker by { StripTrimmed(BeginMarker); }
    assert KeepOutside(rest, false) == KeepOutside(tail, true);
    SkipBlock(inner, after);
  }

  /** Cutting the section out of a file keeps the lines before and after it, in
      order, less trailing blank lines. */
  lemma RemoveKeepsOutside(before: seq<string>, inner: seq<string>, after: seq<string>)
    requires forall l | l in before :: !IsMarker(l) && '\n' !in l
    requires forall l | l in inner :: !IsMarker(l) && '\n' !in l
    requires forall l | l in after :: !IsMarker(l) && '\n' !in l
    ensures var all := before + [BeginMarker] + inner + [EndMarker] + after;
      RemoveBlockSection(Join(all, '\n')) == Join(DropTrailingBlank(before + after), '\n')
  {
    var all := before + [BeginMarker] + inner + [EndMarker] + after;
    NoBreakAround(before, inner, after);
    SplitJoin(all, '\n');
    KeepAroundBlock(before, inner, after);
    KeepUnmarked(after, []);
    assert after + [] == after;
    assert before + after == before + (after + []);
  }

  /** Lines without breaks around a block section have none. */
  lemma NoBreakAround(before: seq<string>, inner: seq<string>, after: seq<string>)
    requires forall l | l in before :: '\n' !in l
    requires forall l | l in inner :: '\n' !in l
    requires forall l | l in after :: '\n' !in l
    ensures var all := before + [BeginMarker] + inner + [EndMarker] + after;
      forall k | 0 <= k < |all| :: '\n' !in all[k]
  {
    var all := before + [BeginMarker] + inner + [EndMarker] + after;
    var m := |before| + 1 + |inner|;
    forall k | 0 <= k < |all| ensures '\n' !in all[k] {
      if k < |before| {
        assert all[k] == before[k] && before[k] in before;
      } else if |before| < k < m {
        assert all[k] == inner[k - |before| - 1] && inner[k - |before| - 1] in inner;
      } else if m < k {
        assert all[k] == after[k - m - 1] && after[k - m - 1] in after;
      }
    }
  }

  /** Blank lines appended at the end are popped again. */
  lemma {:induction false} DropBlankSuffix(a: seq<string>, b: seq<string>)
    requires forall l | l in b :: IsBlank(l)
    ensures DropTrailingBlank(a + b) == DropTrailingBlank(a)
    decreases |b|
  {
    if |b| > 0 {
      assert b[|b| - 1] in b;
      assert (a + b)[..|a + b| - 1] == a + b[..|b| - 1];
      DropBlankSuffix(a, b[..|b| - 1]);
    } else {
      assert a + b == a;
    }
  }

  /** The text left has no marker line and does not end in a blank line; every
      line in it is a line of the original content. */
  lemma RemoveBlockSectionMeaning(content: string)
    ensures var ls := Split(RemoveBlockSection(content), '\n');
      forall l | l in ls :: !IsMarker(l)
    ensures var ls := Split(RemoveBlockSection(content), '\n');
      RemoveBlockSection(content) == "" || !IsBlank(ls[|ls| - 1])
    ensures forall l | l in Split(RemoveBlockSection(content), '\n') ::
      l in Split(content, '\n') || l == ""
  {
    var kept := OutsideLines(content);
    KeptLinesSplit(content);
    if |kept| == 0 {
      assert Split("", '\n') == [""];
      assert !IsMarker("") by { assert Strip("") == ""; }
    } else {
      assert kept[|kept| - 1] in kept;
    }
  }

  /** The kept lines are lines of the content, hence free of line breaks, and none
      is a marker. */
  lemma KeptLines(content: string)
    ensures forall l | l in OutsideLines(content) ::
      l in Split(content, '\n') && '\n' !in l && !IsMarker(l)
  {
    var lines := Split(content, '\n');
    var all := KeepOutside(lines, false);
    var kept := OutsideLines(content);
    forall l | l in kept ensures l in lines && '\n' !in l && !IsMarker(l) {
      var i :| 0 <= i < |kept| && kept[i] == l;
      assert all[i] == l;
      assert l in all;
      var j :| 0 <= j < |lines| && lines[j] == l;
    }
  }

  /** Splitting the text left gives the kept lines back. */
  lemma KeptLinesSplit(content: string)
    ensures var kept := OutsideLines(content);
      (forall l | l in kept :: l in Split(content, '\n') && '\n' !in l && !IsMarker(l))
      && (|kept| > 0 ==> Split(RemoveBlockSection(content), '\n') == kept)
  {
    KeptLines(content);
    var kept := OutsideLines(content);
    if |kept| > 0 {
      SplitJoin(kept, '\n');
    }
  }

  // ---------------------------------------------------------------------------
  // block_sites, unblock_sites, sync_with_config

  /** `if content and not content.endswith("\n"): content += "\n"`. */
  function WithNewline(content: string): string {
    if content != "" && !EndsWith(content, "\n") then content + "\n" else content
  }

  /** What the hosts file becomes: kept as it is, or rewritten with this text. */
  datatype HostsEdit = Keep | Write(content: string)

  /** The file's text after an edit. */
  function Apply(content: string, edit: HostsEdit): string {
    match edit
    case Keep => content
    case Write(c) => c
  }

  /** The text `block_sites` builds: the file without its block section, a blank
      line, a fresh block section and a final line break. */
  function BlockedContent(content: string, sites: seq<string>): string {
    WithNewline(RemoveBlockSection(content)) + "\n" + BlockEntries(sites) + "\n"
  }

  /** `block_sites(sites)`: no write when the new text equals the old one up to
      surrounding whitespace. */
  function BlockSites(content: string, sites: seq<string>): HostsEdit {
    var updated := BlockedContent(content, sites);
    if Strip(updated) == Strip(content) then Keep else Write(updated)
  }

  /** `unblock_sites()`: always writes the text without the block section. */
  function UnblockSites(content: string): HostsEdit {
    Write(WithNewline(RemoveBlockSection(content)))
  }

  /** `sync_with_config(sites, should_block)`. */
  function SyncWithConfig(content: string, sites: seq<string>, shouldBlock: bool): HostsEdit {
    if shouldBlock then BlockSites(content, sites) else UnblockSites(content)
  }

  /** No line of a block section contains a line break when no site does. */
  lemma {:induction false} EntryLinesOneLine(sites: seq<string>)
    requires forall k | 0 <= k < |sites| :: '\n' !in sites[k]
    ensures forall l | l in BlockLines(sites) :: '\n' !in l
    ensures forall l | l in EntryLines(sites) :: !IsMarker(l) && !IsBlank(l)
    decreases |sites|
  {
    var e := EntryLines(sites);
    if |sites| > 0 {
      EntryLinesOneLine(sites[1..]);
      assert e == SiteLines(sites[0]) + EntryLines(sites[1..]);
      forall l | l in e ensures '\n' !in l && !IsMarker(l) && !IsBlank(l) {
        if l in SiteLines(sites[0]) {
          SiteLineShape(sites[0], l);
        } else {
          assert l in BlockLines(sites[1..]);
        }
      }
    }
    forall l | l in BlockLines(sites) ensures '\n' !in l {
      if l != BeginMarker && l != EndMarker {
        assert l in e;
      }
    }
  }

  /** A line a site contributes has no line break, is not blank and is no marker. */
  lemma SiteLineShape(site: string, l: string)
    requires '\n' !in site && l in SiteLines(site)
    ensures '\n' !in l && !IsMarker(l) && !IsBlank(l)
  {
    assert l == BlockIp + " " + site || l == "::1 " + site
        || l == BlockIp + " www." + site || l == "::1 www." + site;
    assert l[0] == '1' || l[0] == ':';
    StripMeaning(l);
    assert BeginMarker[0] == '#' && EndMarker[0] == '#';
  }

  /** The text without its block section, as `block_sites` lays it out: nothing,
      or its kept lines each ended by a line break. */
  lemma BaseLayout(content: string)
    ensures var kept := OutsideLines(content);
      && (|kept| == 0 ==> WithNewline(RemoveBlockSection(content)) == "")
      && (|kept| > 0 ==> WithNewline(RemoveBlockSection(content)) == Join(kept + [""], '\n'))
  {
    var kept := OutsideLines(content);
    KeptLinesSplit(content);
    if |kept| > 0 {
      var last := kept[|kept| - 1];
      assert last in kept;
      assert |last| > 0 by { assert Strip("") == ""; }
      var j := Join(kept, '\n');
      JoinLastChar(kept, '\n');
      assert last[|last| - 1] in last;
      assert !EndsWith(j, "\n");
      JoinAppend(kept, [""], '\n');
      assert Join([""], '\n') == "";
      assert j + ['\n'] + "" == j + "\n";
    }
  }

  /** A join ends with the last character of its last piece. */
  lemma {:induction false} JoinLastChar(parts: seq<string>, sep: char)
    requires |parts| > 0 && |parts[|parts| - 1]| > 0
    ensures var j := Join(parts, sep);
      |j| > 0 && j[|j| - 1] == parts[|parts| - 1][|parts[|parts| - 1]| - 1]
    decreases |parts|
  {
    if |parts| > 1 {
      JoinLastChar(parts[1..], sep);
    }
  }

  /** The text `block_sites` builds is the kept lines, an empty line, the section
      and an empty last piece, joined by line breaks. */
  lemma BlockedJoin(content: string, sites: seq<string>)
    ensures BlockedContent(content, sites)
         == Join(OutsideLines(content) + [""] + BlockLines(sites) + [""], '\n')
  {
    var kept := OutsideLines(content);
    var block := BlockLines(sites);
    BaseLayout(content);
    JoinEmptyLast(block, '\n');
    JoinAfterBase(kept, block);
    ConcatAssoc(WithNewline(RemoveBlockSection(content)) + "\n", BlockEntries(sites), "\n");
  }

  /** A join with an empty last piece ends with the separator. */
  lemma JoinEmptyLast(parts: seq<string>, sep: char)
    requires |parts| > 0
    ensures Join(parts + [""], sep) == Join(parts, sep) + [sep]
  {
    JoinAppend(parts, [""], sep);
    assert Join([""], sep) == "";
    assert Join(parts, sep) + [sep] + "" == Join(parts, sep) + [sep];
  }

  /** Joining the laid-out lines: the kept part (nothing when no line was kept), a
      line break, and the section with its empty last piece. */
  lemma JoinAfterBase(kept: seq<string>, block: seq<string>)
    requires |block| > 0
    ensures Join(kept + [""] + block + [""], '\n')
         == (if |kept| == 0 then "" else Join(kept + [""], '\n')) + ['\n'] + Join(block + [""], '\n')
  {
    if |kept| == 0 {
      assert kept + [""] + block + [""] == [""] + (block + [""]);
      JoinAppend([""], block + [""], '\n');
      assert Join([""], '\n') == "";
    } else {
      assert kept + [""] + block + [""] == (kept + [""]) + (block + [""]);
      JoinAppend(kept + [""], block + [""], '\n');
    }
  }

  /** Splitting that text at line breaks gives the pieces back. */
  lemma BlockedLayout(content: string, sites: seq<string>)
    requires forall k | 0 <= k < |sites| :: '\n' !in sites[k]
    ensures var all := OutsideLines(content) + [""] + BlockLines(sites) + [""];
      BlockedContent(content, sites) == Join(all, '\n') && Split(BlockedContent(content, sites), '\n') == all
  {
    BlockedJoin(content, sites);
    var kept := OutsideLines(content);
    KeptLinesSplit(content);
    EntryLinesOneLine(sites);
    var block := BlockLines(sites);
    var all := kept + [""] + block + [""];
    forall k | 0 <= k < |all| ensures '\n' !in all[k] {
      if k < |kept| {
        assert all[k] == kept[k] && kept[k] in kept;
      } else if |kept| < k < |kept| + 1 + |block| {
        assert all[k] == block[k - |kept| - 1] && block[k - |kept| - 1] in block;
      }
    }
    SplitJoin(all, '\n');
  }

  /** The loop over the laid-out lines keeps the old lines and the two empty ones. */
  lemma KeepLaidOut(kept: seq<string>, sites: seq<string>)
    requires forall l | l in kept :: !IsMarker(l)
    requires forall k | 0 <= k < |sites| :: '\n' !in sites[k]
    ensures KeepOutside(kept + [""] + BlockLines(sites) + [""], false) == kept + ["", ""]
  {
    EntryLinesOneLine(sites);
    assert !IsMarker("") by { assert Strip("") == ""; }
    var inner := EntryLines(sites);
    assert kept + [""] + BlockLines(sites) + [""] == (kept + [""]) + [BeginMarker] + inner + [EndMarker] + [""];
    KeepAroundBlock(kept + [""], inner, [""]);
    assert KeepOutside([""], false) == [""];
    assert (kept + [""]) + [""] == kept + ["", ""];
  }

  /** Cutting the block section out of `block_sites`' output leaves the lines that
      were kept the first time. */
  lemma OutsideOfBlocked(content: string, sites: seq<string>)
    requires forall k | 0 <= k < |sites| :: '\n' !in sites[k]
    ensures OutsideLines(BlockedContent(content, sites)) == OutsideLines(content)
  {
    var kept := OutsideLines(content);
    KeptLines(content);
    BlockedLayout(content, sites);
    KeepLaidOut(kept, sites);
    assert IsBlank("") by { assert Strip("") == ""; }
    DropBlankSuffix(kept, ["", ""]);
    assert DropTrailingBlank(kept) == kept;
  }

  /** `block_sites` is idempotent: on its own output the section it cuts out is the
      one it wrote, so it rebuilds the same text and performs no write. */
  lemma BlockSitesIdempotent(content: string, sites: seq<string>)
    requires forall k | 0 <= k < |sites| :: '\n' !in sites[k]
    ensures RemoveBlockSection(BlockedContent(content, sites)) == RemoveBlockSection(content)
    ensures BlockedContent(BlockedContent(content, sites), sites) == BlockedContent(content, sites)
    ensures BlockSites(BlockedContent(content, sites), sites) == Keep
  {
    OutsideOfBlocked(content, sites);
  }

  // ---------------------------------------------------------------------------
  // get_blocked_sites and is_blocking_active

  /** The site an IPv4 line of the section names, unless it is a `www.` variant. */
  function SiteOf(line: string): Option<string> {
    var parts := Words(line);
    if |parts| >= 2 && parts[0] == BlockIp && !IsWww(parts[1]) then Some(parts[1]) else None
  }

  /** An optional site as a list of zero or one. */
  function Listed(site: Option<string>): seq<string> {
    match site
    case Some(s) => [s]
    case None => []
  }

  /** The loop of `get_blocked_sites`. */
  function Collect(lines: seq<string>, inBlock: bool): seq<string>
    decreases |lines|
  {
    if |lines| == 0 then []
    else if Strip(lines[0]) == BeginMarker then Collect(lines[1..], true)
    else if Strip(lines[0]) == EndMarker then Collect(lines[1..], false)
    else if inBlock && Strip(lines[0]) != "" then Listed(SiteOf(lines[0])) + Collect(lines[1..], true)
    else Collect(lines[1..], inBlock)
  }

  /** `get_blocked_sites()` of the file's text. */
  function GetBlockedSites(content: string): seq<string> {
    Collect(Split(content, '\n'), false)
  }

  /** `is_blocking_active()`: the begin marker appears anywhere in the text. */
  function IsBlockingActive(content: string): bool {
    Find(content, BeginMarker)
  }

  /** A word runs to the first whitespace. */
  lemma {:induction false} WordLengthOf(a: string, rest: string)
    requires NoSpace(a) && (|rest| == 0 || IsSpace(rest[0]))
    ensures WordLength(a + rest) == |a|
    decreases |a|
  {
    if |a| > 0 {
      assert (a + rest)[1..] == a[1..] + rest;
      WordLengthOf(a[1..], rest);
    } else {
      assert a + rest == rest;
    }
  }

  /** A word at the start of a text is its first word. */
  lemma WordsFirst(w: string, rest: string)
    requires |w| > 0 && NoSpace(w) && (|rest| == 0 || IsSpace(rest[0]))
    ensures Words(w + rest) == [w] + Words(rest)
  {
    var s := w + rest;
    WordLengthOf(w, rest);
    assert !IsSpace(s[0]);
    assert s[..|w|] == w;
    assert s[|w|..] == rest;
  }

  /** `(a + " " + b).split() == [a, b]` for two words. */
  lemma WordsOfPair(a: string, b: string)
    requires |a| > 0 && NoSpace(a) && |b| > 0 && NoSpace(b)
    ensures Words(a + " " + b) == [a, b]
  {
    WordsFirst(a, " " + b);
    assert a + " " + b == a + (" " + b);
    assert (" " + b)[1..] == b;
    assert Words(" " + b) == Words(b);
    WordsFirst(b, "");
    assert b + "" == b;
  }

  /** A line of the section that is neither a marker nor blank contributes the
      site it names, if any. */
  lemma CollectStep(line: string, tail: seq<string>)
    requires !IsMarker(line) && !IsBlank(line)
    ensures Collect([line] + tail, true) == Listed(SiteOf(line)) + Collect(tail, true)
  {
    assert ([line] + tail)[1..] == tail;
  }

  /** A line written for a site is neither a marker nor blank. */
  lemma EntryLineShape(line: string)
    requires |line| > 0 && (line[0] == '1' || line[0] == ':')
    ensures !IsMarker(line) && !IsBlank(line)
  {
    StripMeaning(line);
    assert BeginMarker[0] == '#' && EndMarker[0] == '#';
  }

  /** A line of two words names its second word when the first is the IPv4
      address and the second is not a `www.` variant. */
  lemma SiteOfPair(ip: string, name: string)
    requires |ip| > 0 && NoSpace(ip) && |name| > 0 && NoSpace(name)
    ensures SiteOf(ip + " " + name) == (if ip == BlockIp && !IsWww(name) then Some(name) else None)
  {
    WordsOfPair(ip, name);
  }

  /** What each of the lines written for one site names. */
  lemma SiteLineNames(site: string)
    requires |site| > 0 && NoSpace(site)
    ensures SiteOf(BlockIp + " " + site) == (if IsWww(site) then None else Some(site))
    ensures SiteOf("::1 " + site) == None
    ensures SiteOf(BlockIp + " www." + site) == None
    ensures SiteOf("::1 www." + site) == None
  {
    SiteLineNamesBare(site);
    SiteLineNamesWww(site);
  }

  lemma SiteLineNamesBare(site: string)
    requires |site| > 0 && NoSpace(site)
    ensures SiteOf(BlockIp + " " + site) == (if IsWww(site) then None else Some(site))
    ensures SiteOf("::1 " + site) == None
  {
    assert "::1" != BlockIp by { assert "::1"[0] != BlockIp[0]; }
    SiteOfPair(BlockIp, site);
    SiteOfPair("::1", site);
    assert "::1 " + site == "::1" + " " + site;
  }

  lemma SiteLineNamesWww(site: string)
    requires |site| > 0 && NoSpace(site)
    ensures SiteOf(BlockIp + " www." + site) == None
    ensures SiteOf("::1 www." + site) == None
  {
    var www := "www." + site;
    WwwVariant(site);
    SiteOfPair(BlockIp, www);
    SiteOfPair("::1", www);
    assert BlockIp + " www." + site == BlockIp + " " + www;
    assert "::1 www." + site == "::1" + " " + www;
  }

  /** The `www.` variant of a name is a name with the prefix. */
  lemma WwwVariant(site: string)
    requires NoSpace(site)
    ensures NoSpace("www." + site) && IsWww("www." + site)
  {
    var www := "www." + site;
    forall i | 0 <= i < |www| ensures !IsSpace(www[i]) {
      if i >= 4 { assert www[i] == site[i - 4]; }
    }
    assert www[..4] == "www.";
  }

  /** The lines of one site give back the site when it has no `www.`, else nothing. */
  lemma SiteLinesCollect(site: string, tail: seq<string>)
    requires |site| > 0 && NoSpace(site)
    ensures Collect(SiteLines(site) + tail, true)
         == (if IsWww(site) then [] else [site]) + Collect(tail, true)
  {
    SiteLineNames(site);
    var l0, l1 := BlockIp + " " + site, "::1 " + site;
    EntryLineShape(l0);
    EntryLineShape(l1);
    if IsWww(site) {
      assert SiteLines(site) + tail == [l0] + ([l1] + tail);
      CollectStep(l0, [l1] + tail);
      CollectStep(l1, tail);
    } else {
      assert SiteLines(site) + tail == [l0] + ([l1] + (SiteLines(site)[2..] + tail));
      CollectStep(l0, [l1] + (SiteLines(site)[2..] + tail));
      CollectStep(l1, SiteLines(site)[2..] + tail);
      WwwLinesCollect(site, tail);
    }
  }

  /** The two lines for the `www.` variant give nothing back. */
  lemma WwwLinesCollect(site: string, tail: seq<string>)
    requires |site| > 0 && NoSpace(site) && !IsWww(site)
    ensures Collect(SiteLines(site)[2..] + tail, true) == Collect(tail, true)
  {
    SiteLineNamesWww(site);
    var l2, l3 := BlockIp + " www." + site, "::1 www." + site;
    EntryLineShape(l2);
    EntryLineShape(l3);
    assert SiteLines(site)[2..] + tail == [l2] + ([l3] + tail);
    CollectStep(l2, [l3] + tail);
    CollectStep(l3, tail);
  }

  lemma {:induction false} EntriesCollect(sites: seq<string>, tail: seq<string>)
    requires forall k | 0 <= k < |sites| :: |sites[k]| > 0 && NoSpace(sites[k])
    ensures Collect(EntryLines(sites) + tail, true) == NonWww(sites) + Collect(tail, true)
    decreases |sites|
  {
    if |sites| > 0 {
      var rest := EntryLines(sites[1..]);
      var mine := SiteLines(sites[0]);
      var head := if IsWww(sites[0]) then [] else [sites[0]];
      assert EntryLines(sites) == mine + rest;
      ConcatAssoc(mine, rest, tail);
      assert forall k | 0 <= k < |sites[1..]| :: sites[1..][k] == sites[k + 1];
      EntriesCollect(sites[1..], tail);
      SiteLinesCollect(sites[0], rest + tail);
      assert NonWww(sites) == head + NonWww(sites[1..]);
      ConcatAssoc(head, NonWww(sites[1..]), Collect(tail, true));
    } else {
      assert EntryLines(sites) + tail == tail;
    }
  }

  /** Reading back a written block section gives the sites without `www.`, in
      order, when every site is a single nonempty word. */
  lemma BlockedSitesRoundTrip(sites: seq<string>)
    requires forall k | 0 <= k < |sites| :: |sites[k]| > 0 && NoSpace(sites[k])
    ensures GetBlockedSites(BlockEntries(sites)) == NonWww(sites)
  {
    assert IsSpace('\n');
    forall k | 0 <= k < |sites| ensures '\n' !in sites[k] {
    }
    BlockSplit(sites);
    CollectBlock(sites);
  }

  /** The section's text splits back into its lines. */
  lemma BlockSplit(sites: seq<string>)
    requires forall k | 0 <= k < |sites| :: '\n' !in sites[k]
    ensures Split(BlockEntries(sites), '\n') == BlockLines(sites)
  {
    EntryLinesOneLine(sites);
    var block := BlockLines(sites);
    forall k | 0 <= k < |block| ensures '\n' !in block[k] {
      assert block[k] in block;
    }
    SplitJoin(block, '\n');
  }

  /** The loop over the section's lines collects the sites without `www.`. */
  lemma CollectBlock(sites: seq<string>)
    requires forall k | 0 <= k < |sites| :: |sites[k]| > 0 && NoSpace(sites[k])
    ensures Collect(BlockLines(sites), false) == NonWww(sites)
  {
    var block := BlockLines(sites);
    assert Strip(BeginMarker) == BeginMarker by { StripTrimmed(BeginMarker); }
    assert Strip(EndMarker) == EndMarker by { StripTrimmed(EndMarker); }
    assert block[1..] == EntryLines(sites) + [EndMarker];
    EntriesCollect(sites, [EndMarker]);
    assert [EndMarker][1..] == [];
    assert NonWww(sites) + [] == NonWww(sites);
  }

  /** After `block_sites` the file holds the begin marker. */
  lemma BlockedIsActive(content: string, sites: seq<string>)
    ensures IsBlockingActive(BlockedContent(content, sites))
  {
    var b := WithNewline(RemoveBlockSection(content));
    BlockEntriesShape(sites);
    OccursAfter(b + "\n", BlockEntries(sites), "\n", BeginMarker);
    FindMeaning(BlockedContent(content, sites), BeginMarker);
  }

  /** After `unblock_sites` no line of the file is a marker and no site is read
      back from it. */
  lemma UnblockClears(content: string)
    ensures forall l | l in Split(Apply(content, UnblockSites(content)), '\n') :: !IsMarker(l)
    ensures GetBlockedSites(Apply(content, UnblockSites(content))) == []
  {
    var kept := OutsideLines(content);
    KeptLines(content);
    BaseLayout(content);
    var u := Apply(content, UnblockSites(content));
    assert !IsMarker("") by { assert Strip("") == ""; }
    if |kept| == 0 {
      assert u == "";
      assert Split(u, '\n') == [""];
    } else {
      assert u == Join(kept + [""], '\n');
      SplitJoin(kept + [""], '\n');
    }
    NoMarkerNoSites(Split(u, '\n'));
  }

  /** Without a begin marker line nothing is in the block, so no site is read. */
  lemma {:induction false} NoMarkerNoSites(lines: seq<string>)
    requires forall l | l in lines :: !IsMarker(l)
    ensures Collect(lines, false) == []
    decreases |lines|
  {
    if |lines| > 0 {
      assert lines[0] in lines;
      assert forall l | l in lines[1..] :: l in lines;
      NoMarkerNoSites(lines[1..]);
    }
  }
}

=== FILE: json.dfy ===
/**
 * The JSON/YAML values the system reads and writes: configuration trees,
 * condition parameters, secrets, request-queue entries and log records.
 * Objects keep insertion order, as Python dictionaries do.
 */
module JsonData {
  import opened Wrappers
  import opened Text
  import Dict
  import Outcomes

  datatype Json =
    | JNull
    | JBool(b: bool)
    | JInt(i: int)
    | JStr(s: string)
    | JList(items: seq<Json>)
    | JObj(fields: Dict.Entries<string, Json>)

  /** `value.get(key)` for a dictionary; `None` for anything that is not one. */
  function Field(value: Json, key: string): Option<Json> {
    if value.JObj? then Dict.Get(value.fields, key) else None
  }

  /** `value.get(key, default)` for a dictionary; `default` for anything else. */
  function FieldOr(value: Json, key: string, default: Json): Json {
    Field(value, key).GetOr(default)
  }

  /** Python's `bool(value)`. */
  predicate Truthy(value: Json) {
    match value
    case JNull => false
    case JBool(b) => b
    case JInt(i) => i != 0
    case JStr(s) => s != ""
    case JList(items) => items != []
    case JObj(fields) => fields != []
  }

  /** Python's type name of a value, as error messages print it. */
  function TypeName(v: Json): string {
    match v
    case JNull => "NoneType"
    case JBool(_) => "bool"
    case JInt(_) => "int"
    case JStr(_) => "str"
    case JList(_) => "list"
    case JObj(_) => "dict"
  }

  /** The `AttributeError` Python raises for `v.attribute` when `v` has no such
      attribute (`.get` or `.items` on a non-dictionary, `.split` on a non-string). */
  function NoAttribute(v: Json, attribute: string): Outcomes.Exception {
    Outcomes.OtherError("AttributeError", "'" + TypeName(v) + "' object has no attribute '" + attribute + "'")
  }

  /** The `TypeError` Python raises for `for x in v` when `v` cannot be iterated. */
  function NotIterable(v: Json): Outcomes.Exception {
    Outcomes.OtherError("TypeError", "'" + TypeName(v) + "' object is not iterable")
  }

  /** Whether Python can hash the value: lists and dictionaries cannot be a
      dictionary key or a cache key. */
  predicate Hashable(v: Json) {
    !v.JList? && !v.JObj?
  }

  /** The `TypeError` Python raises when an unhashable value is looked up as a key. */
  function Unhashable(v: Json): Outcomes.Exception {
    Outcomes.OtherError("TypeError", "unhashable type: '" + TypeName(v) + "'")
  }

  /** The empty dictionary `{}`. */
  const EmptyObject: Json := JObj([])

  /** The dotted-path walk shared by `Config.get` and `ConditionContext.get_secret`:
      follow `keys` through nested dictionaries; `default` as soon as a key is missing
      or the value reached is not a dictionary. */
  function Lookup(value: Json, keys: seq<string>, default: Json): Json
    decreases |keys|
  {
    if |keys| == 0 then value
    else
      match Field(value, keys[0])
      case None => default
      case Some(child) => Lookup(child, keys[1..], default)
  }

  /** Every key of `keys` names an entry of the dictionary reached so far. */
  predicate PathPresent(value: Json, keys: seq<string>)
    decreases |keys|
  {
    |keys| == 0 || (Field(value, keys[0]).Some? && PathPresent(Field(value, keys[0]).value, keys[1..]))
  }

  /** The walk reaches a value along a present path and gives the default otherwise. */
  lemma {:induction false} LookupMeaning(value: Json, keys: seq<string>, default: Json)
    ensures !PathPresent(value, keys) ==> Lookup(value, keys, default) == default
    ensures |keys| > 0 && !value.JObj? ==> Lookup(value, keys, default) == default
    ensures |keys| > 0 && value.JObj? && !Dict.Has(value.fields, keys[0]) ==> Lookup(value, keys, default) == default
    ensures forall d: Json {:trigger Lookup(value, keys, d)} ::
      PathPresent(value, keys) ==> Lookup(value, keys, d) == Lookup(value, keys, default)
    decreases |keys|
  {
    if |keys| > 0 && Field(value, keys[0]).Some? {
      LookupMeaning(Field(value, keys[0]).value, keys[1..], default);
    }
  }

  /** Python's `str()` of a scalar, as f-strings print it. Containers are rendered by
      a fixed placeholder. */
  function Show(value: Json): string {
    match value
    case JNull => "None"
    case JBool(b) => if b then "True" else "False"
    case JInt(i) => IntToString(i)
    case JStr(s) => s
    case JList(_) => "[...]"
    case JObj(_) => "{...}"
  }
}

=== FILE: markdown.dfy ===
/**
 * Wiki-links and YAML frontmatter in note text. `[[target]]` and
 * `[[target|alias]]` are found with the expression
 * `\[\[([^\]|]+)(?:\|([^\]]+))?\]\]`, which `extract_wiki_links`
 * (lib/obsidian.py) and `count_words` (lib/wordcount.py) share; frontmatter is
 * the text between a leading `---` and the next `---`, as `str.split("---", 2)`
 * cuts it in `parse_frontmatter` and `count_words`.
 */
module Markdown {
  import opened Wrappers
  import opened Text

  // ---------------------------------------------------------------------------
  // Wiki-links.

  /** Length of the longest prefix of `s` with no character from `stops`. */
  function RunAvoiding(s: string, stops: set<char>): (n: nat)
    ensures n <= |s|
    ensures forall i | 0 <= i < n :: s[i] !in stops
    ensures n == |s| || s[n] in stops
    decreases |s|
  {
    if |s| == 0 || s[0] in stops then 0 else 1 + RunAvoiding(s[1..], stops)
  }

  /** A run stops at the first stop character after a stretch free of them. */
  lemma RunAvoidingStops(a: string, b: string, stops: set<char>)
    requires forall i | 0 <= i < |a| :: a[i] !in stops
    requires |b| > 0 && b[0] in stops
    ensures RunAvoiding(a + b, stops) == |a|
  {
    assert (a + b)[|a|] in stops;
    assert forall i | 0 <= i < |a| :: (a + b)[i] == a[i];
  }

  /** One link the expression matches: the first group, the second group if it took
      part, and the index just past the closing brackets. */
  datatype Link = Link(target: string, alias: Option<string>, end: nat)

  /** The expression matched at the start of `s`. The runs in it are greedy and no
      shorter run can be followed by what the expression needs next, so the first
      attempt decides. */
  function LinkAt(s: string): (r: Option<Link>)
    ensures r.Some? ==> 5 <= r.value.end <= |s|
  {
    if !StartsWith(s, "[[") then None
    else
      var t := RunAvoiding(s[2..], {']', '|'});
      var p := 2 + t;
      if t == 0 then None
      else if p < |s| && s[p] == '|' then
        var u := RunAvoiding(s[p + 1..], {']'});
        var q := p + 1 + u;
        if u > 0 && StartsWith(s[q..], "]]") then Some(Link(s[2..p], Some(s[p + 1..q]), q + 2))
        else None
      else if StartsWith(s[p..], "]]") then Some(Link(s[2..p], None, p + 2))
      else None
  }

  /** `re.findall` of the link expression: the targets, left to right, each search
      resuming after the previous match. */
  function ExtractLinks(s: string): seq<string>
    decreases |s|
  {
    if |s| == 0 then []
    else match LinkAt(s)
      case Some(link) => [link.target] + ExtractLinks(s[link.end..])
      case None => ExtractLinks(s[1..])
  }

  /** `re.sub` of the link expression with `\2`: each link becomes its alias, or
      nothing when it has none. */
  function Unlink(s: string): string
    decreases |s|
  {
    if |s| == 0 then ""
    else match LinkAt(s)
      case Some(link) => link.alias.GetOr("") + Unlink(s[link.end..])
      case None => [s[0]] + Unlink(s[1..])
  }

  /** Text before, between and after links: no `[` in it. */
  predicate Plain(s: string) {
    '[' !in s
  }

  /** A link as it is written: a target without `]` or `|`, and an alias without
      `]`, both nonempty. */
  datatype LinkText = LinkText(before: string, target: string, alias: Option<string>)

  predicate WellFormed(l: LinkText) {
    Plain(l.before) && |l.target| > 0 && ']' !in l.target && '|' !in l.target
    && (l.alias.Some? ==> |l.alias.value| > 0 && ']' !in l.alias.value)
  }

  /** `[[target]]` or `[[target|alias]]`. */
  function RenderLink(target: string, alias: Option<string>): string {
    match alias
    case None => "[[" + target + "]]"
    case Some(a) => "[[" + target + "|" + a + "]]"
  }

  /** A note made of plain text and links, in order, then plain text. */
  function Render(parts: seq<LinkText>, tail: string): string
    decreases |parts|
  {
    if |parts| == 0 then tail
    else parts[0].before + RenderLink(parts[0].target, parts[0].alias) + Render(parts[1..], tail)
  }

  function Targets(parts: seq<LinkText>): seq<string>
    decreases |parts|
  {
    if |parts| == 0 then [] else [parts[0].target] + Targets(parts[1..])
  }

  /** What substituting `\2` leaves of the rendered note. */
  function Unlinked(parts: seq<LinkText>, tail: string): string
    decreases |parts|
  {
    if |parts| == 0 then tail
    else parts[0].before + parts[0].alias.GetOr("") + Unlinked(parts[1..], tail)
  }

  /** A written link is matched whole, with its target and alias. */
  lemma LinkAtRendered(target: string, alias: Option<string>, rest: string)
    requires |target| > 0 && ']' !in target && '|' !in target
    requires alias.Some? ==> |alias.value| > 0 && ']' !in alias.value
    ensures var w := RenderLink(target, alias);
      LinkAt(w + rest) == Some(Link(target, alias, |w|))
  {
    match alias {
      case None => LinkAtBare(target, rest);
      case Some(a) => LinkAtAliased(target, a, rest);
    }
  }

  /** `[[target]]` is matched whole. */
  lemma LinkAtBare(target: string, rest: string)
    requires |target| > 0 && ']' !in target && '|' !in target
    ensures LinkAt("[[" + target + "]]" + rest) == Some(Link(target, None, |target| + 4))
  {
    var s := "[[" + target + "]]" + rest;
    assert s[..2] == "[[";
    var p := 2 + |target|;
    assert s[2..] == target + ("]]" + rest);
    RunAvoidingStops(target, "]]" + rest, {']', '|'});
    assert p < |s| && s[p] == ']';
    assert s[p..][..2] == "]]";
    assert s[2..p] == target;
  }

  /** `[[target|alias]]` is matched whole. */
  lemma LinkAtAliased(target: string, a: string, rest: string)
    requires |target| > 0 && ']' !in target && '|' !in target
    requires |a| > 0 && ']' !in a
    ensures LinkAt("[[" + target + "|" + a + "]]" + rest) == Some(Link(target, Some(a), |target| + |a| + 5))
  {
    var s := "[[" + target + "|" + a + "]]" + rest;
    assert s[..2] == "[[";
    var p := 2 + |target|;
    assert s[2..] == target + ("|" + a + "]]" + rest);
    RunAvoidingStops(target, "|" + a + "]]" + rest, {']', '|'});
    assert s[p] == '|';
    assert s[p + 1..] == a + ("]]" + rest);
    RunAvoidingStops(a, "]]" + rest, {']'});
    var q := p + 1 + |a|;
    assert s[q..][..2] == "]]";
    assert s[2..p] == target;
    assert s[p + 1..q] == a;
  }

  /** Text that does not start with `[` holds no link at its start. */
  lemma NoLinkAt(s: string)
    requires |s| > 0 && s[0] != '['
    ensures LinkAt(s).None?
  {
    assert !StartsWith(s, "[[") by {
      if |s| >= 2 {
        assert s[..2][0] == s[0];
      }
    }
  }

  /** Plain text contributes no links. */
  lemma {:induction false} SkipPlainLinks(p: string, rest: string)
    requires Plain(p)
    ensures ExtractLinks(p + rest) == ExtractLinks(rest)
    decreases |p|
  {
    if |p| > 0 {
      assert p[0] in p;
      NoLinkAt(p + rest);
      assert (p + rest)[1..] == p[1..] + rest;
      SkipPlainLinks(p[1..], rest);
    } else {
      assert p + rest == rest;
    }
  }

  /** Plain text survives substituting `\2` unchanged. */
  lemma {:induction false} SkipPlainUnlink(p: string, rest: string)
    requires Plain(p)
    ensures Unlink(p + rest) == p + Unlink(rest)
    decreases |p|
  {
    if |p| > 0 {
      var s := p + rest;
      assert s[0] == p[0] && p[0] in p;
      NoLinkAt(s);
      assert s[1..] == p[1..] + rest;
      assert Unlink(s) == [p[0]] + Unlink(s[1..]);
      SkipPlainUnlink(p[1..], rest);
      assert [p[0]] + (p[1..] + Unlink(rest)) == ([p[0]] + p[1..]) + Unlink(rest);
      assert [p[0]] + p[1..] == p;
    } else {
      assert p + rest == rest;
    }
  }

  /** `extract_wiki_links` of a note written from links gives back their targets in
      order, and substituting `\2` keeps the plain text and the aliases. */
  lemma RenderRoundTrip(parts: seq<LinkText>, tail: string)
    requires forall k | 0 <= k < |parts| :: WellFormed(parts[k])
    requires Plain(tail)
    ensures ExtractLinks(Render(parts, tail)) == Targets(parts)
    ensures Unlink(Render(parts, tail)) == Unlinked(parts, tail)
  {
    RenderLinks(parts, tail);
    RenderUnlink(parts, tail);
  }

  lemma {:induction false} RenderLinks(parts: seq<LinkText>, tail: string)
    requires forall k | 0 <= k < |parts| :: WellFormed(parts[k])
    requires Plain(tail)
    ensures ExtractLinks(Render(parts, tail)) == Targets(parts)
    decreases |parts|
  {
    if |parts| == 0 {
      SkipPlainLinks(tail, "");
      assert tail + "" == tail;
    } else {
      var l := parts[0];
      var w := RenderLink(l.target, l.alias);
      var rest := Render(parts[1..], tail);
      assert forall k | 0 <= k < |parts[1..]| :: WellFormed(parts[1..][k]);
      RenderLinks(parts[1..], tail);
      LinksPart(l, rest);
    }
  }

  /** One written part contributes exactly its target. */
  lemma LinksPart(l: LinkText, rest: string)
    requires WellFormed(l)
    ensures ExtractLinks(l.before + RenderLink(l.target, l.alias) + rest)
      == [l.target] + ExtractLinks(rest)
  {
    var w := RenderLink(l.target, l.alias);
    RenderedLinkStep(l.target, l.alias, rest);
    SkipPlainLinks(l.before, w + rest);
    Text.ConcatAssoc(l.before, w, rest);
  }

  lemma {:induction false} RenderUnlink(parts: seq<LinkText>, tail: string)
    requires forall k | 0 <= k < |parts| :: WellFormed(parts[k])
    requires Plain(tail)
    ensures Unlink(Render(parts, tail)) == Unlinked(parts, tail)
    decreases |parts|
  {
    if |parts| == 0 {
      SkipPlainUnlink(tail, "");
      assert tail + "" == tail;
    } else {
      var l := parts[0];
      var w := RenderLink(l.target, l.alias);
      var rest := Render(parts[1..], tail);
      assert forall k | 0 <= k < |parts[1..]| :: WellFormed(parts[1..][k]);
      RenderUnlink(parts[1..], tail);
      UnlinkPart(l, rest);
      assert Unlink(Render(parts, tail)) == l.before + l.alias.GetOr("") + Unlink(rest);
    }
  }

  /** Substituting over one written part leaves its plain text and its alias. */
  lemma UnlinkPart(l: LinkText, rest: string)
    requires WellFormed(l)
    ensures Unlink(l.before + RenderLink(l.target, l.alias) + rest)
      == l.before + l.alias.GetOr("") + Unlink(rest)
  {
    var w := RenderLink(l.target, l.alias);
    var a := l.alias.GetOr("");
    RenderedLinkStep(l.target, l.alias, rest);
    SkipPlainUnlink(l.before, w + rest);
    Text.ConcatAssoc(l.before, w, rest);
    Text.ConcatAssoc(l.before, a, Unlink(rest));
  }

  /** A written link at the front contributes its target and its alias. */
  lemma RenderedLinkStep(target: string, alias: Option<string>, rest: string)
    requires |target| > 0 && ']' !in target && '|' !in target
    requires alias.Some? ==> |alias.value| > 0 && ']' !in alias.value
    ensures var w := RenderLink(target, alias);
      && ExtractLinks(w + rest) == [target] + ExtractLinks(rest)
      && Unlink(w + rest) == alias.GetOr("") + Unlink(rest)
  {
    var w := RenderLink(target, alias);
    LinkAtRendered(target, alias, rest);
    assert (w + rest)[|w|..] == rest;
  }

  // ---------------------------------------------------------------------------
  // Frontmatter.

  /** `content.split("---", 2)` when the content starts with `---` and the split
      gives three parts: the text between the first two `---` and the text after
      the second. */
  function FrontmatterSplit(content: string): Option<(string, string)> {
    if !StartsWith(content, "---") then None
    else match FirstIndex(content[3..], "---")
      case None => None
      case Some(p) => Some((content[3..3 + p], content[3 + p + 3..]))
  }

  /** No `---` begins inside `y` when it is followed by `---`. */
  ghost predicate NoFence(y: string) {
    !Contains(y + "--", "---")
  }

  /** Occurrences inside `y`, in `y + "---" + b`, are those of `y + "--"`. */
  lemma FenceInside(y: string, b: string, q: nat)
    requires q < |y|
    ensures OccursAt(y + "---" + b, "---", q) <==> OccursAt(y + "--", "---", q)
  {
    assert (y + "---" + b)[q..q + 3] == (y + "--")[q..q + 3];
  }

  /** The frontmatter split succeeds exactly on `---`, a text in which no `---`
      begins before the closing fence, `---`, and the rest, which it returns. */
  lemma FrontmatterSplitMeaning(content: string, y: string, b: string)
    ensures FrontmatterSplit(content) == Some((y, b)) <==>
      content == "---" + y + "---" + b && NoFence(y)
  {
    if content == "---" + y + "---" + b && NoFence(y) {
      FrontmatterSplitFinds(y, b);
    }
    if FrontmatterSplit(content) == Some((y, b)) {
      FrontmatterSplitFound(content, y, b);
    }
  }

  /** Fenced text splits into what is between the fences and what follows. */
  lemma FrontmatterSplitFinds(y: string, b: string)
    requires NoFence(y)
    ensures FrontmatterSplit("---" + y + "---" + b) == Some((y, b))
  {
    var content := "---" + y + "---" + b;
    var s := y + "---" + b;
    assert content[3..] == s;
    assert s[|y|..|y| + 3] == "---";
    forall q: nat | q < |y| ensures !OccursAt(s, "---", q) {
      FenceInside(y, b, q);
    }
    FirstIndexAt(s, "---", |y|);
    assert content[3..3 + |y|] == y;
    assert content[3 + |y| + 3..] == b;
  }

  /** What the split returns is fenced as above. */
  lemma FrontmatterSplitFound(content: string, y: string, b: string)
    requires FrontmatterSplit(content) == Some((y, b))
    ensures content == "---" + y + "---" + b && NoFence(y)
  {
    var c := content[3..];
    var p := FirstIndex(c, "---").value;
    FirstIndexMeaning(c, "---");
    assert y == c[..p] && b == c[p + 3..];
    FencedPieces(content, p);
    assert c == y + "---" + b;
    NoFenceBefore(y, b);
  }

  /** A text opening with `---` and holding `---` at `p` after it is the fence,
      the text before `p`, the fence, and the rest. */
  lemma FencedPieces(content: string, p: nat)
    requires StartsWith(content, "---") && OccursAt(content[3..], "---", p)
    ensures content == "---" + content[3..][..p] + "---" + content[3..][p + 3..]
  {
    var c := content[3..];
    assert c[p..p + 3] == "---";
    assert c == c[..p] + c[p..p + 3] + c[p + 3..];
    assert content == content[..3] + c;
  }

  /** No fence begins in `y` when the first one is right after it. */
  lemma NoFenceBefore(y: string, b: string)
    requires forall q: nat | q < |y| :: !OccursAt(y + "---" + b, "---", q)
    ensures NoFence(y)
  {
    if !NoFence(y) {
      var q: nat :| OccursAt(y + "--", "---", q);
      FenceInside(y, b, q);
      assert false;
    }
  }
}

=== FILE: notes.dfy ===
/**
 * The daily-note predicates of `ObsidianParser` (lib/obsidian.py): checked
 * checkboxes, headings with content, the lines of a section, wiki-links, YAML
 * frontmatter fields and the user's regular expression. The fixed regular
 * expressions of the source are written out as scanners, each with a
 * declarative description of what it finds. Headings are matched line by line.
 * Reading files, parsing YAML and running an arbitrary user regular expression
 * are supplied by the caller as a `Vault`.
 */
module Notes {
  import opened Wrappers
  import opened Text
  import opened JsonData
  import opened Outcomes

  // ---------------------------------------------------------------------------
  // Checkboxes: `[-*]\s*\[[xX]\]\s*<text>`, the text compared ignoring case.

  /** `check_checkbox`'s pattern text: one of the four six-character checkbox
      prefixes is dropped, anything else is used as it is. */
  function CheckboxText(pattern: string): string {
    if StartsWith(pattern, "- [x] ") || StartsWith(pattern, "- [X] ")
       || StartsWith(pattern, "* [x] ") || StartsWith(pattern, "* [X] ")
    then pattern[6..]
    else pattern
  }

  /** A checked box. */
  predicate IsBox(s: string) {
    s == "[x]" || s == "[X]"
  }

  /** The checkbox expression matches `c` at `i`: the bullet at `i`, whitespace up to
      the box at `j`, whitespace up to the text at `k`. */
  ghost predicate CheckboxMatchAt(c: string, text: string, i: nat, j: nat, k: nat) {
    i < j && j + 3 <= k && k + |text| <= |c|
    && (c[i] == '-' || c[i] == '*')
    && AllSpace(c[i + 1..j]) && IsBox(c[j..j + 3]) && AllSpace(c[j + 3..k])
    && EqualIgnoringCase(c[k..k + |text|], text)
  }

  /** `re.search` of the checkbox expression finds a match somewhere. */
  ghost predicate CheckboxFound(c: string, text: string) {
    exists i: nat, j: nat, k: nat :: CheckboxMatchAt(c, text, i, j, k)
  }

  /** Some whitespace, then `text` (ignoring case), at the start of `s`. */
  function SpacesThen(s: string, text: string): bool
    decreases |s|
  {
    StartsWithIgnoringCase(s, text) || (|s| > 0 && IsSpace(s[0]) && SpacesThen(s[1..], text))
  }

  /** Some whitespace, a checked box, some whitespace, then `text`, at the start of `s`. */
  function BoxThen(s: string, text: string): bool
    decreases |s|
  {
    (|s| >= 3 && IsBox(s[..3]) && SpacesThen(s[3..], text))
    || (|s| > 0 && IsSpace(s[0]) && BoxThen(s[1..], text))
  }

  /** The checkbox expression matches at some index from `i` on. */
  function CheckboxFrom(c: string, text: string, i: nat): bool
    requires i <= |c|
    decreases |c| - i
  {
    i < |c| && (((c[i] == '-' || c[i] == '*') && BoxThen(c[i + 1..], text)) || CheckboxFrom(c, text, i + 1))
  }

  /** `check_checkbox(content, pattern)`. */
  function CheckCheckbox(content: string, pattern: string): bool {
    CheckboxFrom(content, CheckboxText(pattern), 0)
  }

  /** `text` (ignoring case) at index `k` of `s`, with only whitespace before it. */
  ghost predicate SpacesMatch(s: string, text: string, k: nat) {
    k + |text| <= |s| && AllSpace(s[..k]) && EqualIgnoringCase(s[k..k + |text|], text)
  }

  /** A box at `j` and `text` at `k` in `s`, with only whitespace before, between. */
  ghost predicate BoxMatch(s: string, text: string, j: nat, k: nat) {
    j + 3 <= k && k + |text| <= |s| && AllSpace(s[..j]) && IsBox(s[j..j + 3])
    && AllSpace(s[j + 3..k]) && EqualIgnoringCase(s[k..k + |text|], text)
  }

  /** A successful `SpacesThen` has a witness. */
  lemma {:induction false} SpacesThenWitness(s: string, text: string) returns (k: nat)
    requires SpacesThen(s, text)
    ensures SpacesMatch(s, text, k)
    decreases |s|
  {
    if StartsWithIgnoringCase(s, text) {
      assert s[0..0 + |text|] == s[..|text|];
      k := 0;
    } else {
      var k' := SpacesThenWitness(s[1..], text);
      assert s[..k' + 1] == [s[0]] + s[1..][..k'];
      assert s[k' + 1..k' + 1 + |text|] == s[1..][k'..k' + |text|];
      k := k' + 1;
    }
  }

  /** Every witness makes `SpacesThen` succeed. */
  lemma {:induction false} SpacesThenComplete(s: string, text: string, k: nat)
    requires SpacesMatch(s, text, k)
    ensures SpacesThen(s, text)
    decreases k
  {
    if k == 0 {
      assert s[..|text|] == s[0..0 + |text|];
    } else {
      assert IsSpace(s[..k][0]);
      assert s[1..][..k - 1] == s[1..k];
      assert s[1..][k - 1..k - 1 + |text|] == s[k..k + |text|];
      SpacesThenComplete(s[1..], text, k - 1);
    }
  }

  /** A successful `BoxThen` has a witness. */
  lemma {:induction false} BoxThenWitness(s: string, text: string) returns (j: nat, k: nat)
    requires BoxThen(s, text)
    ensures BoxMatch(s, text, j, k)
    decreases |s|
  {
    if |s| >= 3 && IsBox(s[..3]) && SpacesThen(s[3..], text) {
      var k' := SpacesThenWitness(s[3..], text);
      BoxHere(s, text, k');
      j, k := 0, k' + 3;
    } else {
      var j', k' := BoxThenWitness(s[1..], text);
      BoxShift(s, text, j', k');
      j, k := j' + 1, k' + 1;
    }
  }

  /** A box at the start of `s` followed by a spaced `text` is a box match at 0. */
  lemma BoxHere(s: string, text: string, k: nat)
    requires |s| >= 3 && IsBox(s[..3]) && SpacesMatch(s[3..], text, k)
    ensures BoxMatch(s, text, 0, k + 3)
  {
    assert s[3..][..k] == s[3..k + 3];
    assert s[3..][k..k + |text|] == s[k + 3..k + 3 + |text|];
    assert s[0..3] == s[..3];
  }

  /** A box match in `s[1..]` after a leading whitespace character is one in `s`. */
  lemma BoxShift(s: string, text: string, j: nat, k: nat)
    requires |s| > 0 && IsSpace(s[0]) && BoxMatch(s[1..], text, j, k)
    ensures BoxMatch(s, text, j + 1, k + 1)
  {
    assert s[..j + 1] == [s[0]] + s[1..][..j];
    assert s[j + 1..j + 4] == s[1..][j..j + 3];
    var inner, shifted := s[j + 4..k + 1], s[1..][j + 3..k];
    forall t | 0 <= t < |inner|
      ensures inner[t] == shifted[t]
    {
    }
    assert inner == shifted;
    assert s[k + 1..k + 1 + |text|] == s[1..][k..k + |text|];
  }

  /** Every witness makes `BoxThen` succeed. */
  lemma {:induction false} BoxThenComplete(s: string, text: string, j: nat, k: nat)
    requires BoxMatch(s, text, j, k)
    ensures BoxThen(s, text)
    decreases j
  {
    if j == 0 {
      assert s[3..][..k - 3] == s[3..k];
      assert s[3..][k - 3..k - 3 + |text|] == s[k..k + |text|];
      SpacesThenComplete(s[3..], text, k - 3);
      assert s[..3] == s[0..3];
    } else {
      assert IsSpace(s[..j][0]);
      assert s[1..][..j - 1] == s[1..j];
      assert s[1..][j - 1..j + 2] == s[j..j + 3];
      assert s[1..][j + 2..k - 1] == s[j + 3..k];
      assert s[1..][k - 1..k - 1 + |text|] == s[k..k + |text|];
      BoxThenComplete(s[1..], text, j - 1, k - 1);
    }
  }

  /** A match at index `i` is a bullet followed by a box match in the rest. */
  lemma MatchAtShift(c: string, text: string, i: nat, j: nat, k: nat)
    requires i < j <= k && i < |c|
    ensures CheckboxMatchAt(c, text, i, j, k) <==>
      (c[i] == '-' || c[i] == '*') && BoxMatch(c[i + 1..], text, j - i - 1, k - i - 1)
  {
    if j + 3 <= k && k + |text| <= |c| {
      var s := c[i + 1..];
      assert s[..j - i - 1] == c[i + 1..j];
      assert s[j - i - 1..j - i + 2] == c[j..j + 3];
      assert s[j - i + 2..k - i - 1] == c[j + 3..k];
      assert s[k - i - 1..k - i - 1 + |text|] == c[k..k + |text|];
    }
  }

  /** A successful scan from `i` has a witness at `i` or later. */
  lemma {:induction false} CheckboxFromWitness(c: string, text: string, i: nat)
    returns (i': nat, j: nat, k: nat)
    requires i <= |c| && CheckboxFrom(c, text, i)
    ensures i <= i' && CheckboxMatchAt(c, text, i', j, k)
    decreases |c| - i
  {
    if (c[i] == '-' || c[i] == '*') && BoxThen(c[i + 1..], text) {
      var j', k' := BoxThenWitness(c[i + 1..], text);
      MatchAtShift(c, text, i, i + 1 + j', i + 1 + k');
      i', j, k := i, i + 1 + j', i + 1 + k';
    } else {
      i', j, k := CheckboxFromWitness(c, text, i + 1);
    }
  }

  /** Every witness at `i` or later makes the scan from `i` succeed. */
  lemma {:induction false} CheckboxFromComplete(c: string, text: string, i: nat, i': nat, j: nat, k: nat)
    requires i <= i' && i <= |c| && CheckboxMatchAt(c, text, i', j, k)
    ensures CheckboxFrom(c, text, i)
    decreases i' - i
  {
    if i == i' {
      MatchAtShift(c, text, i, j, k);
      BoxThenComplete(c[i + 1..], text, j - i - 1, k - i - 1);
    } else {
      CheckboxFromComplete(c, text, i + 1, i', j, k);
    }
  }

  /** `check_checkbox` is true exactly when the checkbox expression, built from the
      pattern with its prefix dropped, matches somewhere in the note. */
  lemma CheckCheckboxMeaning(content: string, pattern: string)
    ensures CheckCheckbox(content, pattern) <==> CheckboxFound(content, CheckboxText(pattern))
  {
    var text := CheckboxText(pattern);
    if CheckCheckbox(content, pattern) {
      var i, j, k := CheckboxFromWitness(content, text, 0);
    }
    if CheckboxFound(content, text) {
      var i: nat, j: nat, k: nat :| CheckboxMatchAt(content, text, i, j, k);
      CheckboxFromComplete(content, text, 0, i, j, k);
    }
  }

  /** The note has a checked box `[x]` or `[X]` starting at `j`. */
  predicate CheckedBoxAt(c: string, j: nat)
    requires j + 3 <= |c|
  {
    c[j] == '[' && (c[j + 1] == 'x' || c[j + 1] == 'X') && c[j + 2] == ']'
  }

  /** No match puts its box where the note has no checked box. */
  lemma NoBoxAt(c: string, text: string, i: nat, j: nat, k: nat)
    requires j + 3 <= |c| ==> !CheckedBoxAt(c, j)
    ensures !CheckboxMatchAt(c, text, i, j, k)
  {
    if j + 3 <= |c| {
      assert c[j..j + 3][0] == c[j] && c[j..j + 3][1] == c[j + 1] && c[j..j + 3][2] == c[j + 2];
    }
  }

  /** A note in which no `[x]` or `[X]` box occurs satisfies no checkbox pattern;
      unchecked boxes such as "- [ ] Exercise" are allowed. */
  lemma UncheckedNeverMatches(content: string, pattern: string)
    requires forall j: nat | j + 3 <= |content| :: !CheckedBoxAt(content, j)
    ensures !CheckCheckbox(content, pattern)
  {
    CheckCheckboxMeaning(content, pattern);
    forall i: nat, j: nat, k: nat
      ensures !CheckboxMatchAt(content, CheckboxText(pattern), i, j, k)
    {
      NoBoxAt(content, CheckboxText(pattern), i, j, k);
    }
  }
}

=== FILE: outcome.dfy ===
/**
 * Python exceptions as values: an operation either returns or raises, and the
 * callers that catch distinguish `ValueError` from every other exception.
 */
module Outcomes {
  /** A raised exception: its class (only `ValueError` is told apart by the
      callers) and the text `str(e)` gives. */
  datatype Exception = ValueError(msg: string) | OtherError(name: string, msg: string) {
    function Message(): string {
      match this
      case ValueError(m) => m
      case OtherError(_, m) => m
    }
  }

  /** The result of a call that may raise. */
  datatype Outcome<T> = Return(value: T) | Raise(error: Exception)
}

=== FILE: parser.dfy ===
/**
 * `ObsidianParser` (lib/obsidian.py) over a vault given as data: today's daily
 * note, the files wiki-links resolve to, and the two things the model does not
 * compute itself, YAML parsing and searching with a user-written regular
 * expression. The checks of one condition kind each return `(met, description)`
 * or raise; `check_condition` dispatches on the condition's `type`.
 */
module NoteParser {
  import opened Wrappers
  import opened Text
  import opened JsonData
  import opened Outcomes
  import Dict
  import Notes
  import Headings
  import Markdown

  /** What `yaml.safe_load` gives for a text. */
  datatype YamlLoad = Loaded(value: Json) | YamlError

  /** What `re.search(pattern, content, re.IGNORECASE | re.MULTILINE)` gives. */
  datatype RegexResult = Malformed | Searched(found: bool)

  /** A linked file that resolved to a path: readable with this text, or not. */
  datatype FileState = Readable(content: string) | Unreadable

  /** The vault as the checks see it. `note` is today's daily note, if it exists;
      `linked` maps each wiki-link target that resolves to an existing file. */
  datatype Vault = Vault(
    note: Option<string>,
    linked: map<string, FileState>,
    yaml: string -> YamlLoad,
    search: (string, string) -> RegexResult)

  /** A check's answer: whether the condition is met, and why. */
  type Verdict = (bool, string)

  // ---------------------------------------------------------------------------
  // parse_frontmatter and check_yaml_field

  /** `parse_frontmatter(content)`: the loaded frontmatter, or `{}` when there is
      none, it does not load, or it loads to a false value. */
  function ParseFrontmatter(vault: Vault, content: string): (fm: Json)
    ensures fm == EmptyObject || Truthy(fm)
    ensures Markdown.FrontmatterSplit(content).None? ==> fm == EmptyObject
    ensures Markdown.FrontmatterSplit(content).Some? ==>
      match vault.yaml(Markdown.FrontmatterSplit(content).value.0)
      case Loaded(v) => fm == (if Truthy(v) then v else EmptyObject)
      case YamlError => fm == EmptyObject
  {
    match Markdown.FrontmatterSplit(content)
    case None => EmptyObject
    case Some((y, _)) =>
      match vault.yaml(y)
      case Loaded(v) => if Truthy(v) then v else EmptyObject
      case YamlError => EmptyObject
  }

  /** The integer value Python's numeric comparisons see: `True` is 1 and `False` 0. */
  function Numeric(v: Json): Option<int> {
    match v
    case JInt(i) => Some(i)
    case JBool(b) => Some(if b then 1 else 0)
    case _ => None
  }

  /** `float(value)` for the values the model has: numbers, booleans and strings
      holding an integer; `None` where Python raises. */
  function AsNumber(v: Json): Option<int> {
    match v
    case JStr(s) => ParseInt(s)
    case _ => Numeric(v)
  }

  /** Python's `==` on two values: booleans and integers compare by number, lists
      item by item, and dictionaries by their keys whatever the order, each value
      compared with `==` again. */
  predicate PyEq(a: Json, b: Json)
    decreases a
  {
    if Numeric(a).Some? && Numeric(b).Some? then Numeric(a) == Numeric(b)
    else
      match a
      case JList(xs) =>
        b.JList? && |xs| == |b.items| && forall k | 0 <= k < |xs| :: PyEq(xs[k], b.items[k])
      case JObj(fs) =>
        b.JObj? && |fs| == |b.fields|
        && forall k | 0 <= k < |fs| ::
             Dict.Get(b.fields, fs[k].0).Some? && PyEq(fs[k].1, Dict.Get(b.fields, fs[k].0).value)
      case _ => a == b
  }

  /** Dictionaries that differ only in key order are equal. */
  lemma PyEqKeyOrder()
    ensures PyEq(JObj([("a", JInt(1)), ("b", JInt(2))]), JObj([("b", JInt(2)), ("a", JInt(1))]))
  {
    var y := JObj([("b", JInt(2)), ("a", JInt(1))]);
    assert Dict.Get(y.fields, "a") == Some(JInt(1));
    assert Dict.Get(y.fields, "b") == Some(JInt(2));
    assert PyEq(JInt(1), JInt(1)) && PyEq(JInt(2), JInt(2));
  }

  /** Lists compare their items with `==`, so `[1] == [True]`, while a string never
      equals a number. */
  lemma PyEqNested()
    ensures PyEq(JList([JInt(1)]), JList([JBool(true)]))
    ensures !PyEq(JStr("1"), JInt(1))
  {
    assert PyEq(JInt(1), JBool(true));
  }

  /** The verdict on a present field's value: `minimum` first, then `value`, then
      truthiness. A minimum that is not a number makes the comparison raise, which
      is caught as false. */
  function FieldVerdict(value: Json, expected: Json, minimum: Json): bool {
    if minimum != JNull then
      AsNumber(value).Some? && Numeric(minimum).Some? && AsNumber(value).value >= Numeric(minimum).value
    else if expected != JNull then PyEq(value, expected)
    else Truthy(value)
  }

  /** `check_yaml_field` on the parsed frontmatter, for a `field` of any type. A
      dictionary is looked up. Dictionaries here are keyed by strings, so a field
      of another type is absent, unless it is a list or a dictionary, which cannot
      be hashed; YAML keys that load as numbers, booleans or `None` are outside the
      model. A truthy
      string is searched with `in` and a truthy list compared item by item; a field
      found there is then used as an index. A number raises on `in`. */
  function CheckYamlField(fm: Json, field: Json, expected: Json, minimum: Json): Outcome<bool> {
    match fm
    case JObj(fields) =>
      if !Hashable(field) then Raise(Unhashable(field))
      else if !field.JStr? then Return(false)
      else
        (match Dict.Get(fields, field.s)
         case None => Return(false)
         case Some(value) => Return(FieldVerdict(value, expected, minimum)))
    case JStr(s) =>
      if !field.JStr? then
        Raise(OtherError("TypeError", "'in <string>' requires string as left operand, not " + TypeName(field)))
      else if Find(s, field.s) then Raise(OtherError("TypeError", "string indices must be integers, not 'str'"))
      else Return(false)
    case JList(items) =>
      if !(exists k | 0 <= k < |items| :: PyEq(items[k], field)) then Return(false)
      else
        (match Numeric(field)
         case None => Raise(OtherError("TypeError", "list indices must be integers or slices, not " + TypeName(field)))
         case Some(i) =>
           if -|items| <= i < 0 then Return(FieldVerdict(items[i + |items|], expected, minimum))
           else if 0 <= i < |items| then Return(FieldVerdict(items[i], expected, minimum))
           else Raise(OtherError("IndexError", "list index out of range")))
    case JInt(_) => Raise(OtherError("TypeError", "argument of type 'int' is not iterable"))
    case JBool(_) => Raise(OtherError("TypeError", "argument of type 'bool' is not iterable"))
    case JNull => Raise(OtherError("TypeError", "argument of type 'NoneType' is not iterable"))
  }

  /** On a dictionary of frontmatter: a list or dictionary field raises; any other
      field that is not a key, strings of other types included, is false; `minimum`
      takes precedence over `value`; then equality with `value`; then truthiness. */
  lemma YamlFieldMeaning(fields: Dict.Entries<string, Json>, field: Json, expected: Json, minimum: Json)
    ensures !Hashable(field) ==> CheckYamlField(JObj(fields), field, expected, minimum) == Raise(Unhashable(field))
    ensures Hashable(field) ==> CheckYamlField(JObj(fields), field, expected, minimum).Return?
    ensures Hashable(field) && !(field.JStr? && Dict.Has(fields, field.s)) ==>
      CheckYamlField(JObj(fields), field, expected, minimum) == Return(false)
    ensures forall other: Json {:trigger CheckYamlField(JObj(fields), field, other, minimum)} ::
      minimum != JNull ==>
        CheckYamlField(JObj(fields), field, other, minimum) == CheckYamlField(JObj(fields), field, expected, minimum)
    ensures field.JStr? && Dict.Has(fields, field.s) && minimum == JNull && expected != JNull ==>
      (CheckYamlField(JObj(fields), field, expected, minimum) == Return(true)
       <==> PyEq(Dict.Get(fields, field.s).value, expected))
    ensures field.JStr? && Dict.Has(fields, field.s) && minimum == JNull && expected == JNull ==>
      (CheckYamlField(JObj(fields), field, expected, minimum) == Return(true)
       <==> Truthy(Dict.Get(fields, field.s).value))
  {
  }

  /** With a minimum, the verdict is exactly the numeric comparison, and a value
      that is no number never meets it. */
  lemma MinimumMeaning(value: Json, expected: Json, m: int)
    ensures FieldVerdict(value, expected, JInt(m)) <==> AsNumber(value).Some? && AsNumber(value).value >= m
    ensures AsNumber(value).None? ==> !FieldVerdict(value, expected, JInt(m))
  {
  }

  /** An integer field read back from its own decimal text meets exactly the
      minimums it is at least. */
  lemma MinimumOfText(i: int, m: int, expected: Json)
    ensures FieldVerdict(JStr(IntToString(i)), expected, JInt(m)) <==> i >= m
  {
    ParseIntToString(i);
  }

  // ---------------------------------------------------------------------------
  // check_regex

  /** `check_regex`: a malformed pattern gives false instead of raising. */
  function CheckRegex(vault: Vault, content: string, pattern: string): (met: bool)
    ensures vault.search(pattern, content) == Malformed ==> !met
    ensures vault.search(pattern, content).Searched? ==> met == vault.search(pattern, content).found
  {
    match vault.search(pattern, content)
    case Malformed => false
    case Searched(found) => found
  }

  // ---------------------------------------------------------------------------
  // The checks of one condition kind.

  /** The `TypeError` `re.escape` raises for a value that is neither text nor bytes. */
  function EscapeError(v: Json): Exception {
    OtherError("TypeError", "decoding to str: need a bytes-like object, " + TypeName(v) + " found")
  }

  /** The `TypeError` `re.search` raises for a pattern that is not a string: the
      pattern cache hashes it first. */
  function PatternError(v: Json): Exception {
    if Hashable(v) then OtherError("TypeError", "first argument must be string or compiled pattern")
    else Unhashable(v)
  }

  /** What `check_heading_exists` raises for a heading that is not a string: the
      escape for any level; otherwise `.count`, which only a list has, and then
      `.lstrip`. */
  function HeadingError(v: Json, anyLevel: bool): Exception {
    if anyLevel then EscapeError(v)
    else if v.JList? then NoAttribute(v, "lstrip")
    else NoAttribute(v, "count")
  }

  const NoteNotFound := "Daily note not found"

  /** The description suffix a met or unmet condition gets. */
  function Suffix(met: bool, yes: string, no: string): string {
    if met then yes else no
  }

  /** `CheckboxCondition.check` once the note is read. */
  function CheckboxVerdict(content: string, config: Json): Outcome<Verdict> {
    var pattern := FieldOr(config, "pattern", JStr(""));
    if !pattern.JStr? then Raise(NoAttribute(pattern, "startswith"))
    else
      var met := Notes.CheckCheckbox(content, pattern.s);
      Return((met, "Checkbox '" + pattern.s + "'" + Suffix(met, " checked", " not checked")))
  }

  /** `YamlCondition.check` once the note is read. */
  function YamlVerdict(vault: Vault, content: string, config: Json): Outcome<Verdict> {
    var field := FieldOr(config, "field", JStr(""));
    var expected := FieldOr(config, "value", JNull);
    var minimum := FieldOr(config, "minimum", JNull);
    match CheckYamlField(ParseFrontmatter(vault, content), field, expected, minimum)
    case Raise(e) => Raise(e)
    case Return(met) => Return((met, YamlDescription(field, minimum, met)))
  }

  /** The yaml check's description of `field`: against the minimum when there is one,
      otherwise whether the field is set. */
  function YamlDescription(field: Json, minimum: Json, met: bool): string {
    var head := "YAML field '" + Show(field) + "'";
    if minimum != JNull then head + Suffix(met, " >= ", " < ") + Show(minimum)
    else head + Suffix(met, " set", " not set")
  }

  /** `HeadingCondition.check` once the note is read. */
  function HeadingVerdict(content: string, config: Json): Outcome<Verdict> {
    var heading := FieldOr(config, "section", JStr(""));
    var anyLevel := Truthy(FieldOr(config, "section_any_level", JBool(true)));
    if !heading.JStr? then Raise(HeadingError(heading, anyLevel))
    else
      var met := Headings.HeadingExists(content, heading.s, anyLevel);
      Return((met, "Heading '" + heading.s + "'" + Suffix(met, " has content", " empty or missing")))
  }

  /** `RegexCondition.check` once the note is read. */
  function RegexVerdict(vault: Vault, content: string, config: Json): Outcome<Verdict> {
    var pattern := FieldOr(config, "pattern", JStr(""));
    if !pattern.JStr? then Raise(PatternError(pattern))
    else
      var met := CheckRegex(vault, content, pattern.s);
      Return((met, "Pattern '" + pattern.s + "'" + Suffix(met, " matched", " not matched")))
  }

  /** A failed and a passed check are told apart by the end of the description: the
      unmet suffix cannot end the met description, because the subject before it
      ends in a quote. */
  lemma TellApart(head: string, yes: string, no: string, k: nat)
    requires |head| > 0 && head[|head| - 1] == '\''
    requires |yes| + k < |no| && no[k] != '\'' && no[k + 1..] == yes
    ensures !EndsWith(head + yes, no)
    ensures EndsWith(head + no, no)
  {
    var d := head + yes;
    if |no| <= |d| {
      assert d[|d| - |no| + k] == head[|head| - 1];
    }
    assert (head + no)[|head + no| - |no|..] == no;
  }

  /** The checkbox check reports `check_checkbox` of a string pattern, and its
      description ends in " not checked" exactly when it is unmet. Any other pattern
      has no `startswith`. */
  lemma CheckboxVerdictMeaning(content: string, config: Json)
    ensures var p := FieldOr(config, "pattern", JStr(""));
      !p.JStr? ==> CheckboxVerdict(content, config) == Raise(NoAttribute(p, "startswith"))
    ensures var p := FieldOr(config, "pattern", JStr("")); var r := CheckboxVerdict(content, config);
      p.JStr? ==>
        && r.Return?
        && r.value.0 == Notes.CheckCheckbox(content, p.s)
        && (r.value.0 <==> !EndsWith(r.value.1, " not checked"))
  {
    var p := FieldOr(config, "pattern", JStr(""));
    if p.JStr? {
      NotSuffixes("Checkbox '" + p.s + "'", " checked", " not checked");
    }
  }

  /** The heading check reports `check_heading_exists` of a string heading,
      `section_any_level` read by truthiness with default true; the description
      ends in " empty or missing" exactly when it is unmet. Any other heading makes
      the escape raise a `TypeError` for any level, and an `AttributeError`
      otherwise. */
  lemma HeadingVerdictMeaning(content: string, config: Json)
    ensures var h := FieldOr(config, "section", JStr(""));
      var anyLevel := Truthy(FieldOr(config, "section_any_level", JBool(true)));
      var r := HeadingVerdict(content, config);
      !h.JStr? ==>
        && r.Raise? && r.error.OtherError?
        && r.error.name == (if anyLevel then "TypeError" else "AttributeError")
    ensures var h := FieldOr(config, "section", JStr(""));
      var anyLevel := Truthy(FieldOr(config, "section_any_level", JBool(true)));
      var r := HeadingVerdict(content, config);
      h.JStr? ==>
        && r.Return?
        && r.value.0 == Headings.HeadingExists(content, h.s, anyLevel)
        && (r.value.0 <==> !EndsWith(r.value.1, " empty or missing"))
  {
    var h := FieldOr(config, "section", JStr(""));
    if h.JStr? {
      HeadingSuffixes("Heading '" + h.s + "'");
    }
  }

  /** The two heading descriptions are told apart by their ends. */
  lemma HeadingSuffixes(head: string)
    ensures !EndsWith(head + " has content", " empty or missing")
    ensures EndsWith(head + " empty or missing", " empty or missing")
  {
    var d := head + " has content";
    if 17 <= |d| {
      assert d[|d| - 17..][5] == d[|d| - 12] == ' ';
    }
    assert (head + " empty or missing")[|head|..] == " empty or missing";
  }

  /** The regex check reports `check_regex` of a string pattern; its description
      ends in " not matched" exactly when it is unmet. Any other pattern makes the
      search raise a `TypeError`, which `check_regex` does not catch. */
  lemma RegexVerdictMeaning(vault: Vault, content: string, config: Json)
    ensures var p := FieldOr(config, "pattern", JStr("")); var r := RegexVerdict(vault, content, config);
      !p.JStr? ==> r.Raise? && r.error.OtherError? && r.error.name == "TypeError"
    ensures var p := FieldOr(config, "pattern", JStr("")); var r := RegexVerdict(vault, content, config);
      p.JStr? ==>
        && r.Return?
        && r.value.0 == CheckRegex(vault, content, p.s)
        && (r.value.0 <==> !EndsWith(r.value.1, " not matched"))
  {
    var p := FieldOr(config, "pattern", JStr(""));
    if p.JStr? {
      NotSuffixes("Pattern '" + p.s + "'", " matched", " not matched");
    }
  }

  /** The yaml check raises exactly when `check_yaml_field` of the parsed frontmatter
      raises, and otherwise reports its answer, for a field of any type. Without a
      minimum its description ends in " not set" exactly when unmet; with one, the
      description ends in the minimum and reads ">= m" exactly when met. */
  lemma YamlVerdictMeaning(vault: Vault, content: string, config: Json)
    ensures var r := YamlVerdict(vault, content, config);
      var checked := CheckYamlField(ParseFrontmatter(vault, content), FieldOr(config, "field", JStr("")),
                                    FieldOr(config, "value", JNull), FieldOr(config, "minimum", JNull));
      && (r.Raise? <==> checked.Raise?)
      && (r.Return? ==> checked == Return(r.value.0))
    ensures var r := YamlVerdict(vault, content, config);
      var m := FieldOr(config, "minimum", JNull);
      r.Return? ==>
        && (m == JNull ==> (r.value.0 <==> !EndsWith(r.value.1, " not set")))
        && (m != JNull ==>
              EndsWith(r.value.1, Show(m))
              && (r.value.0 <==> EndsWith(r.value.1[..|r.value.1| - |Show(m)|], " >= ")))
  {
    var r := YamlVerdict(vault, content, config);
    if r.Return? {
      YamlDescriptionMeaning(FieldOr(config, "field", JStr("")), FieldOr(config, "minimum", JNull), r.value.0);
    }
  }

  /** Without a minimum the description ends in " not set" exactly when unmet; with
      one, it ends in the minimum and reads ">= m" exactly when met. */
  lemma YamlDescriptionMeaning(field: Json, m: Json, met: bool)
    ensures var d := YamlDescription(field, m, met);
      && (m == JNull ==> (met <==> !EndsWith(d, " not set")))
      && (m != JNull ==> EndsWith(d, Show(m)) && (met <==> EndsWith(d[..|d| - |Show(m)|], " >= ")))
  {
    var head := "YAML field '" + Show(field) + "'";
    if m == JNull {
      NotSuffixes(head, " set", " not set");
    } else {
      MinimumSuffix(head, met, Show(m));
    }
  }

  /** In the model's string-keyed dictionaries, a field that is a number, a boolean or
      `None` is never set: the check answers unmet and names the field. */
  lemma YamlNonStringField(vault: Vault, content: string, config: Json)
    requires ParseFrontmatter(vault, content).JObj?
    requires var f := FieldOr(config, "field", JStr("")); !f.JStr? && Hashable(f)
    requires FieldOr(config, "minimum", JNull) == JNull
    ensures YamlVerdict(vault, content, config)
      == Return((false, "YAML field '" + Show(FieldOr(config, "field", JStr(""))) + "'" + " not set"))
  {
    var fm := ParseFrontmatter(vault, content);
    YamlFieldMeaning(fm.fields, FieldOr(config, "field", JStr("")), FieldOr(config, "value", JNull), JNull);
  }

  /** A description with the unmet suffix " not" + `yes` is told apart from the met
      one by its end. */
  lemma NotSuffixes(head: string, yes: string, no: string)
    requires |head| > 0 && head[|head| - 1] == '\''
    requires no == " not" + yes
    ensures !EndsWith(head + yes, no) && EndsWith(head + no, no)
  {
    TellApart(head, yes, no, 3);
  }

  /** A description with a minimum ends in the minimum, and reads " >= " before it
      exactly when the check is met. */
  lemma MinimumSuffix(head: string, met: bool, shown: string)
    requires |head| > 0 && head[|head| - 1] == '\''
    ensures var d := head + Suffix(met, " >= ", " < ") + shown;
      EndsWith(d, shown) && (met <==> EndsWith(d[..|d| - |shown|], " >= "))
  {
    var stem := head + Suffix(met, " >= ", " < ");
    var d := stem + shown;
    assert d[..|d| - |shown|] == stem;
    assert d[|d| - |shown|..] == shown;
    if !met {
      assert stem[|stem| - 4] == '\'';
    }
  }

  // ---------------------------------------------------------------------------
  // check_condition

  /** `ObsidianParser.check_condition(condition_config)`. */
  function CheckCondition(vault: Vault, config: Json): Outcome<Verdict> {
    match vault.note
    case None => Return((false, NoteNotFound))
    case Some(content) =>
      var t := FieldOr(config, "type", JStr("checkbox"));
      if t == JStr("checkbox") then CheckboxVerdict(content, config)
      else if t == JStr("yaml") then YamlVerdict(vault, content, config)
      else if t == JStr("heading") then HeadingVerdict(content, config)
      else if t == JStr("regex") then RegexVerdict(vault, content, config)
      else if t == JStr("linked_wordcount") then Return((false, "Word count check (handled separately)"))
      else Return((false, "Unknown condition type: " + Show(t)))
  }

  /** The condition types `check_condition` evaluates itself. */
  predicate Evaluated(t: Json) {
    t == JStr("checkbox") || t == JStr("yaml") || t == JStr("heading") || t == JStr("regex")
  }

  /** Without a daily note nothing is met; a missing `type` is a checkbox; the four
      evaluated kinds give their check's verdict; any other type, word counts
      included, is reported unmet without raising. */
  lemma CheckConditionMeaning(vault: Vault, config: Json)
    ensures vault.note.None? ==> CheckCondition(vault, config) == Return((false, NoteNotFound))
    ensures vault.note.Some? && config.JObj? && !Dict.Has(config.fields, "type") ==>
      CheckCondition(vault, config) == CheckboxVerdict(vault.note.value, config)
    ensures vault.note.Some? && FieldOr(config, "type", JStr("checkbox")) == JStr("heading") ==>
      CheckCondition(vault, config) == HeadingVerdict(vault.note.value, config)
    ensures !Evaluated(FieldOr(config, "type", JStr("checkbox"))) ==>
      CheckCondition(vault, config).Return? && !CheckCondition(vault, config).value.0
    ensures vault.note.Some? && FieldOr(config, "type", JStr("checkbox")) == JStr("linked_wordcount") ==>
      CheckCondition(vault, config) == Return((false, "Word count check (handled separately)"))
    ensures var t := FieldOr(config, "type", JStr("checkbox"));
      vault.note.Some? && t.JStr? && !Evaluated(t) && t.s != "linked_wordcount" ==>
        CheckCondition(vault, config) == Return((false, "Unknown condition type: " + t.s))
  {
    var t := FieldOr(config, "type", JStr("checkbox"));
    if vault.note.Some? && !Evaluated(t) {
      assert CheckCondition(vault, config).Return?;
    }
  }
}

=== FILE: poll.dfy ===
/**
 * `PollManager` (lib/poll.py): the laptop side of the phone unlock flow. It runs
 * `ssh` commands on the server that holds the request queue: reading the queue,
 * marking a request completed, and publishing the status. Each command's runs are
 * supplied by the caller as attempt outcomes, and `json.loads` of the output is a
 * function parameter (`None` for a decoding error).
 */
module Poll {
  import opened Wrappers
  import opened Text
  import opened JsonData
  import opened Outcomes
  import Retry

  /** The settings read by `PollManager.__init__`. */
  datatype Settings = Settings(enabled: Json, host: Json, user: Json, dataDir: Json, authToken: Json)

  const DefaultDataDir: string := "/var/lib/block_distractions"

  function SettingsOf(config: Json): (ps: Settings)
    ensures config == EmptyObject ==>
      ps == Settings(JBool(false), JStr(""), JStr(""), JStr(DefaultDataDir), JStr(""))
    ensures config.JObj? && Field(config, "host") == Some(JStr("")) ==> !Truthy(ps.host)
  {
    Settings(
      FieldOr(config, "enabled", JBool(false)),
      FieldOr(config, "host", JStr("")),
      FieldOr(config, "user", JStr("")),
      FieldOr(config, "data_dir", JStr(DefaultDataDir)),
      FieldOr(config, "auth_token", JStr("")))
  }

  /** Both the host and the user are set. */
  predicate Configured(ps: Settings) {
    Truthy(ps.host) && Truthy(ps.user)
  }

  /** What `_run_ssh` returns, with the number of runs it made. */
  datatype Ssh = Ssh(success: bool, output: string, used: nat)

  /** `_run_ssh`: without a host or user nothing runs; otherwise the retry loop, in
      which a timeout counts as a failed attempt and is retried. */
  function RunSsh(ps: Settings, runs: seq<Retry.Attempt>): (r: Ssh)
    requires |runs| >= Retry.MaxRetries
  {
    if !Configured(ps) then Ssh(false, "SSH not configured", 0)
    else
      match Retry.RunWithRetry(runs, true)
      case Succeeded(stdout, _, used, _) => Ssh(true, Strip(stdout), used)
      case Failed(error, used, _) => Ssh(false, error, used)
      case TimeoutRaised(used, _) => Ssh(false, "Command timed out", used)
  }

  /** An unconfigured manager fails without running anything; otherwise between one
      and three runs are made, the call succeeds exactly when the last one exited
      with status zero, it reports that run's stripped output, and a run that always
      times out ends in "Command timed out" after three runs instead of escaping. */
  lemma RunSshMeaning(ps: Settings, runs: seq<Retry.Attempt>)
    requires |runs| >= Retry.MaxRetries
    ensures !Configured(ps) ==> RunSsh(ps, runs) == Ssh(false, "SSH not configured", 0)
    ensures var r := RunSsh(ps, runs);
      Configured(ps) ==>
        && 1 <= r.used <= Retry.MaxRetries
        && (r.success <==> runs[r.used - 1].Exited? && runs[r.used - 1].code == 0)
        && (r.success ==> r.output == Strip(runs[r.used - 1].stdout))
        && (!r.success && runs[r.used - 1].Exited? ==> r.output == Strip(runs[r.used - 1].stderr))
    ensures Configured(ps) && runs[0].TimedOut? && runs[1].TimedOut? && runs[2].TimedOut? ==>
      RunSsh(ps, runs) == Ssh(false, "Command timed out", Retry.MaxRetries)
  {
    if Configured(ps) && runs[0].TimedOut? && runs[1].TimedOut? && runs[2].TimedOut? {
      Retry.RetriesOnlyRetryable(runs, true);
    }
  }

  // ---------------------------------------------------------------------------
  // check_pending_requests

  /** A dictionary whose "status" is "pending". */
  predicate IsPending(r: Json) {
    Field(r, "status") == Some(JStr("pending"))
  }

  /** `[r for r in items if r.get("status") == "pending"]`: the first entry that is
      not a dictionary raises. */
  function PendingOf(items: seq<Json>): (r: Outcome<seq<Json>>)
    ensures r.Return? <==> forall k | 0 <= k < |items| :: items[k].JObj?
    ensures r.Return? ==> |r.value| <= |items|
    decreases |items|
  {
    if |items| == 0 then Return([])
    else if !items[0].JObj? then Raise(NoAttribute(items[0], "get"))
    else
      match PendingOf(items[1..])
      case Raise(e) => Raise(e)
      case Return(rest) => Return((if IsPending(items[0]) then [items[0]] else []) + rest)
  }

  /** The entries kept are exactly the pending ones, and the filter distributes over
      concatenation, so they keep their order. */
  lemma PendingOfMeaning(items: seq<Json>, more: seq<Json>)
    requires forall k | 0 <= k < |items| :: items[k].JObj?
    requires forall k | 0 <= k < |more| :: more[k].JObj?
    ensures forall x | x in PendingOf(items).value :: x in items && IsPending(x)
    ensures forall x | x in items && IsPending(x) :: x in PendingOf(items).value
    ensures PendingOf(items + more) == Return(PendingOf(items).value + PendingOf(more).value)
  {
    PendingOfMembers(items);
    PendingOfAppend(items, more);
  }

  lemma {:induction false} PendingOfMembers(items: seq<Json>)
    requires forall k | 0 <= k < |items| :: items[k].JObj?
    ensures forall x | x in PendingOf(items).value :: x in items && IsPending(x)
    ensures forall x | x in items && IsPending(x) :: x in PendingOf(items).value
    decreases |items|
  {
    if |items| > 0 {
      PendingOfMembers(items[1..]);
      var head := if IsPending(items[0]) then [items[0]] else [];
      assert PendingOf(items).value == head + PendingOf(items[1..]).value;
      assert forall x | x in items[1..] :: x in items;
      assert forall x | x in items :: x == items[0] || x in items[1..];
    }
  }

  lemma PendingOfAppend(items: seq<Json>, more: seq<Json>)
    requires forall k | 0 <= k < |items| :: items[k].JObj?
    requires forall k | 0 <= k < |more| :: more[k].JObj?
    ensures PendingOf(items + more) == Return(PendingOf(items).value + PendingOf(more).value)
  {
    var both := items + more;
    forall k | 0 <= k < |both| ensures both[k].JObj? {
      if k < |items| { assert both[k] == items[k]; } else { assert both[k] == more[k - |items|]; }
    }
    PendingOfFilter(items);
    PendingOfFilter(more);
    PendingOfFilter(both);
    FilterPendingAppend(items, more);
  }

  /** The pending entries, for a list of dictionaries. */
  function FilterPending(items: seq<Json>): seq<Json>
    decreases |items|
  {
    if |items| == 0 then [] else (if IsPending(items[0]) then [items[0]] else []) + FilterPending(items[1..])
  }

  /** On a list of dictionaries the comprehension does not raise and keeps the
      pending entries. */
  lemma {:induction false} PendingOfFilter(items: seq<Json>)
    requires forall k | 0 <= k < |items| :: items[k].JObj?
    ensures PendingOf(items) == Return(FilterPending(items))
    decreases |items|
  {
    if |items| > 0 {
      assert forall k | 0 <= k < |items[1..]| :: items[1..][k].JObj?;
      PendingOfFilter(items[1..]);
    }
  }

  lemma {:induction false} FilterPendingAppend(items: seq<Json>, more: seq<Json>)
    ensures FilterPending(items + more) == FilterPending(items) + FilterPending(more)
    decreases |items|
  {
    if |items| == 0 {
      assert items + more == more;
    } else {
      var both := items + more;
      assert both[0] == items[0] && both[1..] == items[1..] + more;
      FilterPendingAppend(items[1..], more);
      var head := if IsPending(items[0]) then [items[0]] else [];
      assert FilterPending(both) == head + FilterPending(items[1..] + more);
      assert head + (FilterPending(items[1..]) + FilterPending(more))
          == (head + FilterPending(items[1..])) + FilterPending(more);
    }
  }

  /** Iterating over the decoded value: a list is filtered, an empty dictionary or
      string gives nothing, a non-empty one yields strings that have no `.get`, and
      anything else cannot be iterated. */
  function PendingIn(v: Json): Outcome<seq<Json>> {
    match v
    case JList(items) => PendingOf(items)
    case JObj(fields) => if fields == [] then Return([]) else Raise(NoAttribute(JStr(""), "get"))
    case JStr(s) => if s == "" then Return([]) else Raise(NoAttribute(JStr(""), "get"))
    case _ => Raise(NotIterable(v))
  }

  /** `check_pending_requests`: nothing when disabled, when the command fails or when
      its output is not JSON; otherwise the pending entries of the decoded list. */
  function CheckPendingRequests(ps: Settings, runs: seq<Retry.Attempt>, decode: string -> Option<Json>)
    : Outcome<seq<Json>>
    requires |runs| >= Retry.MaxRetries
  {
    if !Truthy(ps.enabled) then Return([])
    else
      var ssh := RunSsh(ps, runs);
      if !ssh.success then Return([])
      else
        match decode(ssh.output)
        case None => Return([])
        case Some(v) => PendingIn(v)
  }

  /** Disabled, failed or undecodable reads give no requests; a decoded list of
      dictionaries gives exactly its pending entries; a list holding anything else
      raises. */
  lemma CheckPendingMeaning(ps: Settings, runs: seq<Retry.Attempt>, decode: string -> Option<Json>)
    requires |runs| >= Retry.MaxRetries
    ensures !Truthy(ps.enabled) || !RunSsh(ps, runs).success ==>
      CheckPendingRequests(ps, runs, decode) == Return([])
    ensures var ssh := RunSsh(ps, runs);
      Truthy(ps.enabled) && ssh.success && decode(ssh.output).None? ==>
        CheckPendingRequests(ps, runs, decode) == Return([])
    ensures var ssh := RunSsh(ps, runs);
      Truthy(ps.enabled) && ssh.success && decode(ssh.output).Some? && decode(ssh.output).value.JList? ==>
        var items := decode(ssh.output).value.items;
        var r := CheckPendingRequests(ps, runs, decode);
        && (r.Return? <==> forall k | 0 <= k < |items| :: items[k].JObj?)
        && (r.Return? ==> forall x :: x in r.value <==> x in items && IsPending(x))
  {
    var ssh := RunSsh(ps, runs);
    if Truthy(ps.enabled) && ssh.success && decode(ssh.output).Some? && decode(ssh.output).value.JList? {
      var items := decode(ssh.output).value.items;
      if forall k | 0 <= k < |items| :: items[k].JObj? {
        PendingOfMeaning(items, []);
      }
    }
  }

  // ---------------------------------------------------------------------------
  // mark_completed, update_status

  /** `mark_completed`: the request is completed on the server by a script that
      prints "ok" when it has rewritten the queue (its effect on the queue is
      `PhoneRequests.CompleteScript`); the call reports whether that word came
      back. */
  function MarkCompleted(ps: Settings, runs: seq<Retry.Attempt>): bool
    requires |runs| >= Retry.MaxRetries
  {
    Truthy(ps.enabled) && (var ssh := RunSsh(ps, runs); ssh.success && Strip(ssh.output) == "ok")
  }

  /** `update_status`: the status file is written by the command; the call reports
      whether it succeeded. */
  function UpdateStatus(ps: Settings, runs: seq<Retry.Attempt>): bool
    requires |runs| >= Retry.MaxRetries
  {
    Truthy(ps.enabled) && RunSsh(ps, runs).success
  }

  /** A disabled or unconfigured manager reports failure for both updates; when the
      command succeeds, publishing the status succeeds, and marking succeeds exactly
      when the script's output is "ok"; a script that reports an error is a
      failure even though the command exited with status zero. */
  lemma UpdatesMeaning(ps: Settings, runs: seq<Retry.Attempt>)
    requires |runs| >= Retry.MaxRetries
    ensures !Truthy(ps.enabled) || !Configured(ps) ==> !MarkCompleted(ps, runs) && !UpdateStatus(ps, runs)
    ensures Truthy(ps.enabled) && Configured(ps) && runs[0].Exited? && runs[0].code == 0 ==>
      && UpdateStatus(ps, runs)
      && (MarkCompleted(ps, runs) <==> Strip(runs[0].stdout) == "ok")
    ensures MarkCompleted(ps, runs) ==> UpdateStatus(ps, runs)
  {
    if Truthy(ps.enabled) && Configured(ps) && runs[0].Exited? && runs[0].code == 0 {
      Retry.FirstSuccessStops(runs, true);
      StripTwice(runs[0].stdout);
    }
  }
}

=== FILE: registry.dfy ===
/**
 * The condition-type registry (`ConditionRegistry` in
 * lib/conditions/registry.py): a process-wide dictionary from type name to
 * factory, and the five Obsidian-based types registered when the condition
 * package is imported (lib/conditions/obsidian.py).
 */
module Registry {
  import opened Wrappers
  import opened Outcomes
  import opened ConditionContext
  import Dict

  /** The built-in condition classes. */
  datatype Kind = Checkbox | Yaml | Heading | Regex | LinkedWordcount

  /** A factory: one of the built-in classes, or a factory registered by other code,
      known only by an identifier. */
  datatype Factory = ObsidianFactory(kind: Kind) | PluginFactory(id: nat)

  /** A condition instance, as a factory makes it. */
  datatype Condition = ObsidianCondition(kind: Kind) | PluginCondition(id: nat)

  type Registry = Dict.Entries<string, Factory>

  /** `register(t)(f)`: the new factory replaces any earlier one for `t`. */
  function Register(reg: Registry, t: string, f: Factory): Registry {
    Dict.Put(reg, t, f)
  }

  /** `get(t)`. */
  function GetFactory(reg: Registry, t: string): Option<Factory> {
    Dict.Get(reg, t)
  }

  /** `list_types()`: the registered names in registration order. */
  function ListTypes(reg: Registry): seq<string> {
    Dict.Keys(reg)
  }

  /** `is_registered(t)`. */
  predicate IsRegistered(reg: Registry, t: string) {
    Dict.Has(reg, t)
  }

  /** `clear()`. */
  function Clear(): (reg: Registry)
    ensures ListTypes(reg) == []
  {
    []
  }

  /** After `register(t, f)` the factory for `t` is `f`, `t` is registered, and every
      other name keeps its factory. */
  lemma RegisterThenGet(reg: Registry, t: string, f: Factory, u: string)
    ensures GetFactory(Register(reg, t, f), t) == Some(f)
    ensures IsRegistered(Register(reg, t, f), t)
    ensures u != t ==> GetFactory(Register(reg, t, f), u) == GetFactory(reg, u)
  {
    Dict.GetPut(reg, t, f, t);
    Dict.GetPut(reg, t, f, u);
  }

  /** The three ways of asking agree: registered, listed, and found. */
  lemma RegisteredIffListed(reg: Registry, t: string)
    ensures IsRegistered(reg, t) <==> t in ListTypes(reg)
    ensures IsRegistered(reg, t) <==> GetFactory(reg, t) != None
  {
  }

  /** Re-registering a name keeps the list of names as it was. */
  lemma ReRegisterKeepsTypes(reg: Registry, t: string, f: Factory)
    requires IsRegistered(reg, t)
    ensures ListTypes(Register(reg, t, f)) == ListTypes(reg)
  {
  }

  /** `create(t, ctx)`: an unknown name raises `ValueError`; a built-in class raises
      `ValueError` when the context has no vault path; another factory raises
      whatever `pluginMake` says it raises for that context, or makes its condition. */
  function Create(reg: Registry, t: string, ctx: Context,
                  pluginMake: (nat, Context) -> Option<Exception>): (r: Outcome<Condition>)
    ensures !IsRegistered(reg, t) ==> r == Raise(ValueError("Unknown condition type: " + t))
    ensures r.Return? ==> IsRegistered(reg, t)
    ensures GetFactory(reg, t) == Some(ObsidianFactory(Checkbox)) && ctx.vaultPath.Some? ==>
      r == Return(ObsidianCondition(Checkbox))
    ensures r.Return? && r.value.ObsidianCondition? ==> ctx.vaultPath.Some?
  {
    match GetFactory(reg, t)
    case None => Raise(ValueError("Unknown condition type: " + t))
    case Some(ObsidianFactory(kind)) =>
      if ctx.vaultPath.None? then Raise(ValueError(VaultRequired))
      else Return(ObsidianCondition(kind))
    case Some(PluginFactory(id)) =>
      match pluginMake(id, ctx)
      case Some(e) => Raise(e)
      case None => Return(PluginCondition(id))
  }

  /** The error a built-in condition raises on a context without a vault path. */
  const VaultRequired: string := "ObsidianCondition requires vault_path in context"

  /** A built-in type needs the vault path: without one its creation raises
      `ValueError`, with one it makes an instance of its class. */
  lemma BuiltinNeedsVault(reg: Registry, t: string, kind: Kind, ctx: Context,
                          pluginMake: (nat, Context) -> Option<Exception>)
    requires GetFactory(reg, t) == Some(ObsidianFactory(kind))
    ensures ctx.vaultPath.None? <==> Create(reg, t, ctx, pluginMake) == Raise(ValueError(VaultRequired))
    ensures ctx.vaultPath.Some? <==> Create(reg, t, ctx, pluginMake) == Return(ObsidianCondition(kind))
  {
  }

  /** The registrations made when the condition package is imported, in order. */
  const Builtins: seq<(string, Factory)> := [
    ("checkbox", ObsidianFactory(Checkbox)),
    ("yaml", ObsidianFactory(Yaml)),
    ("heading", ObsidianFactory(Heading)),
    ("regex", ObsidianFactory(Regex)),
    ("linked_wordcount", ObsidianFactory(LinkedWordcount))]

  /** Registering each entry in turn. */
  function RegisterAll(reg: Registry, entries: seq<(string, Factory)>): Registry
    decreases |entries|
  {
    if |entries| == 0 then reg else RegisterAll(Register(reg, entries[0].0, entries[0].1), entries[1..])
  }

  function RegisterBuiltins(reg: Registry): Registry {
    RegisterAll(reg, Builtins)
  }

  /** Registering names that are new and distinct appends them in order. */
  lemma {:induction false} RegisterAllNew(reg: Registry, entries: seq<(string, Factory)>)
    requires Dict.UniqueKeys(reg + entries)
    ensures RegisterAll(reg, entries) == reg + entries
    decreases |entries|
  {
    var all := reg + entries;
    if |entries| == 0 {
      assert all == reg;
    } else {
      var e := entries[0];
      assert !Dict.Has(reg, e.0) by {
        forall i | 0 <= i < |reg| ensures Dict.Keys(reg)[i] != e.0 {
          assert Dict.Keys(reg)[i] == reg[i].0 == all[i].0 && all[|reg|] == e;
        }
      }
      assert (reg + [e]) + entries[1..] == all;
      RegisterAllNew(reg + [e], entries[1..]);
    }
  }

  /** The five built-in names are distinct: their lengths are. */
  lemma BuiltinsUnique()
    ensures Dict.UniqueKeys(Builtins)
  {
    assert |Builtins[0].0| == 8 && |Builtins[1].0| == 4 && |Builtins[2].0| == 7;
    assert |Builtins[3].0| == 5 && |Builtins[4].0| == 16;
  }

  /** The names of a registry of the five built-in entries. */
  lemma FiveListed(reg: Registry)
    requires |reg| == 5 && reg[0].0 == "checkbox" && reg[1].0 == "yaml" && reg[2].0 == "heading"
    requires reg[3].0 == "regex" && reg[4].0 == "linked_wordcount"
    ensures ListTypes(reg) == ["checkbox", "yaml", "heading", "regex", "linked_wordcount"]
  {
    var ks := ListTypes(reg);
    assert |ks| == 5 && ks[0] == "checkbox" && ks[1] == "yaml" && ks[2] == "heading";
    assert ks[3] == "regex" && ks[4] == "linked_wordcount";
  }

  /** On a fresh registry, importing registers exactly the five built-in names in
      order, each bound to its class. */
  lemma BuiltinsRegistered()
    ensures ListTypes(RegisterBuiltins(Clear())) == ["checkbox", "yaml", "heading", "regex", "linked_wordcount"]
    ensures GetFactory(RegisterBuiltins(Clear()), "checkbox") == Some(ObsidianFactory(Checkbox))
    ensures GetFactory(RegisterBuiltins(Clear()), "linked_wordcount") == Some(ObsidianFactory(LinkedWordcount))
  {
    BuiltinsUnique();
    assert [] + Builtins == Builtins;
    RegisterAllNew([], Builtins);
    FiveListed(Builtins);
    Dict.GetUnique(Builtins, 0);
    Dict.GetUnique(Builtins, 4);
  }
}

=== FILE: remote_sync.dfy ===
/**
 * `RemoteSyncManager` (lib/hosts.py): the blocklist a remote dnsmasq server
 * reads, in its `address=/site/` form, copied over with `scp` and installed
 * with `ssh`. Each command's runs are supplied by the caller as attempt
 * outcomes; writing the local temporary file is assumed to succeed.
 */
module RemoteSync {
  import opened Wrappers
  import opened Text
  import opened JsonData
  import Sorting
  import Retry
  import Hosts

  /** The settings read by `RemoteSyncManager.__init__`. */
  datatype Settings = Settings(enabled: Json, host: Json, user: Json, remotePath: Json)

  const DefaultBlocklistPath: string := "/etc/dnsmasq.d/blocklist.conf"

  function SettingsOf(config: Json): (rs: Settings)
    ensures config == EmptyObject ==>
      rs == Settings(JBool(false), JStr(""), JStr(""), JStr(DefaultBlocklistPath))
  {
    Settings(
      FieldOr(config, "enabled", JBool(false)),
      FieldOr(config, "host", JStr("")),
      FieldOr(config, "user", JStr("")),
      FieldOr(config, "blocklist_path", JStr(DefaultBlocklistPath)))
  }

  /** The dnsmasq lines for each site, and its `www.` variant unless it has one. */
  function DnsLines(sites: seq<string>): seq<string>
    decreases |sites|
  {
    if |sites| == 0 then []
    else
      ["address=/" + sites[0] + "/"]
      + (if Hosts.IsWww(sites[0]) then [] else ["address=/www." + sites[0] + "/"])
      + DnsLines(sites[1..])
  }

  /** The file uploaded: the distinct lines in ascending order, each ended by a line
      break, or nothing at all for no sites. */
  function DnsContent(sites: seq<string>): string {
    var lines := DnsLines(sites);
    if |lines| == 0 then "" else Join(Sorting.SortedSet(lines), '\n') + "\n"
  }

  lemma {:induction false} DnsLinesEmpty(sites: seq<string>)
    ensures |DnsLines(sites)| == 0 <==> |sites| == 0
    ensures forall l | l in DnsLines(sites) :: StartsWith(l, "address=/")
    ensures (forall k | 0 <= k < |sites| :: '\n' !in sites[k]) ==>
      forall l | l in DnsLines(sites) :: '\n' !in l
    decreases |sites|
  {
    if |sites| > 0 {
      DnsLinesEmpty(sites[1..]);
      var a := "address=/" + sites[0] + "/";
      var b := "address=/www." + sites[0] + "/";
      assert a[..9] == "address=/";
      assert b[..9] == "address=/";
    }
  }

  /** The uploaded file is empty for no sites; otherwise its lines are the dnsmasq
      lines of the sites, each once, in ascending order, followed by a final line
      break. */
  lemma DnsContentMeaning(sites: seq<string>)
    requires forall k | 0 <= k < |sites| :: '\n' !in sites[k]
    ensures |sites| == 0 <==> DnsContent(sites) == ""
    ensures |sites| > 0 ==>
      var ls := Split(DnsContent(sites), '\n');
      && ls[|ls| - 1] == ""
      && Sorting.Ascending(ls[..|ls| - 1])
      && (forall l :: l in ls[..|ls| - 1] <==> l in DnsLines(sites))
      && (forall i, j | 0 <= i < j < |ls| - 1 :: ls[i] != ls[j])
  {
    DnsLinesEmpty(sites);
    var lines := DnsLines(sites);
    if |sites| > 0 {
      var sorted := Sorting.SortedSet(lines);
      assert lines[0] in lines;
      assert |sorted| > 0;
      JoinAppend(sorted, [""], '\n');
      assert DnsContent(sites) == Join(sorted + [""], '\n');
      SplitJoin(sorted + [""], '\n');
      var ls := sorted + [""];
      assert ls[..|ls| - 1] == sorted;
      Sorting.AscendingAll(sorted);
    }
  }

  /** What `sync` reports, the file it uploaded if it got that far, and how many
      commands it ran. */
  datatype SyncResult = SyncResult(success: bool, message: string, uploaded: Option<string>, commands: nat)

  /** `sync(sites)`: disabled or unconfigured syncs run nothing; otherwise the file is
      copied with `scp` and installed with `ssh`, each under the retry loop, which
      lets a timeout escape to `sync`'s own handler. */
  function Sync(rs: Settings, sites: seq<string>, scpRuns: seq<Retry.Attempt>, sshRuns: seq<Retry.Attempt>)
    : SyncResult
    requires |scpRuns| >= Retry.MaxRetries && |sshRuns| >= Retry.MaxRetries
  {
    if !Truthy(rs.enabled) then SyncResult(true, "Remote sync disabled", None, 0)
    else if !Truthy(rs.host) || !Truthy(rs.user) then
      SyncResult(false, "Remote sync not configured (missing host or user)", None, 0)
    else
      var content := DnsContent(sites);
      var scp := Retry.RunWithRetry(scpRuns, false);
      match scp
      case TimeoutRaised(_, _) => SyncResult(false, "Remote sync timed out", Some(content), scp.used)
      case Failed(error, _, _) =>
        SyncResult(false, "Failed to copy to remote: " + error, Some(content), scp.used)
      case Succeeded(_, _, _, _) =>
        var ssh := Retry.RunWithRetry(sshRuns, false);
        match ssh
        case TimeoutRaised(_, _) => SyncResult(false, "Remote sync timed out", Some(content), scp.used + ssh.used)
        case Failed(error, _, _) =>
          SyncResult(false, "Failed to update remote: " + error, Some(content), scp.used + ssh.used)
        case Succeeded(_, _, _, _) =>
          SyncResult(true, "Synced " + NatToString(|sites|) + " sites to " + Show(rs.host),
                     Some(content), scp.used + ssh.used)
  }

  /** A disabled sync succeeds without running anything; a sync without a host or
      user fails without running anything; otherwise it uploads the rendered list,
      runs between two and six commands, and succeeds exactly when the copy and the
      install both end in a zero exit. */
  lemma SyncMeaning(rs: Settings, sites: seq<string>, scpRuns: seq<Retry.Attempt>, sshRuns: seq<Retry.Attempt>)
    requires |scpRuns| >= Retry.MaxRetries && |sshRuns| >= Retry.MaxRetries
    ensures var r := Sync(rs, sites, scpRuns, sshRuns);
      !Truthy(rs.enabled) ==> r.success && r.commands == 0 && r.uploaded == None
    ensures var r := Sync(rs, sites, scpRuns, sshRuns);
      Truthy(rs.enabled) && (!Truthy(rs.host) || !Truthy(rs.user)) ==>
        !r.success && r.commands == 0 && r.uploaded == None
    ensures var r := Sync(rs, sites, scpRuns, sshRuns);
      Truthy(rs.enabled) && Truthy(rs.host) && Truthy(rs.user) ==>
        && r.uploaded == Some(DnsContent(sites))
        && 1 <= r.commands <= 2 * Retry.MaxRetries
        && (r.success <==> Retry.RunWithRetry(scpRuns, false).Succeeded?
                           && Retry.RunWithRetry(sshRuns, false).Succeeded?)
  {
  }
}

=== FILE: requests.dfy ===
/**
 * The phone request queue of remote_api/server.py: the bearer-token check,
 * queueing of unlock and emergency requests with one pending request per type,
 * and completing a request, after which only the pending requests and the last
 * ten completed ones are kept. The same retention is applied by the script
 * `PollManager.mark_completed` runs on the server (lib/poll.py). Request ids
 * and timestamps are parameters.
 */
module PhoneRequests {
  import opened Wrappers
  import opened Text
  import opened JsonData

  /** One queued request as stored in requests.json. */
  datatype Request = Request(
    id: string,
    kind: string,
    status: string,
    createdAt: int,
    result: Option<Json>,
    completedAt: Option<int>)

  type Queue = seq<Request>

  // ---------------------------------------------------------------------------
  // require_auth

  const Bearer: string := "Bearer "

  /** `require_auth`: with no token configured every request is admitted; otherwise
      the `Authorization` header (empty when missing), with every "Bearer " removed,
      must equal the token. */
  predicate Admitted(authToken: string, header: Option<string>) {
    authToken == "" || ReplaceAll(header.GetOr(""), Bearer, "") == authToken
  }

  /** No token admits everything; a configured token admits its own bearer header
      and its bare value, and refuses a request with no header. */
  lemma AdmittedMeaning(authToken: string, header: Option<string>)
    ensures authToken == "" ==> Admitted(authToken, header)
    ensures !Contains(authToken, Bearer) ==> Admitted(authToken, Some(Bearer + authToken))
    ensures !Contains(authToken, Bearer) ==> Admitted(authToken, Some(authToken))
    ensures authToken != "" ==> !Admitted(authToken, None)
  {
    if !Contains(authToken, Bearer) {
      ReplaceAllAbsent(authToken, Bearer, "");
      var h := Bearer + authToken;
      assert h[..|Bearer|] == Bearer;
      assert h[|Bearer|..] == authToken;
    }
  }

  // ---------------------------------------------------------------------------
  // request_unlock, request_emergency

  /** The index of the first pending request of `kind`, if any. */
  function FirstPending(q: Queue, kind: string): (r: Option<nat>)
    ensures r.Some? ==> r.value < |q| && q[r.value].kind == kind && q[r.value].status == "pending"
    ensures r.Some? ==> forall j | 0 <= j < r.value :: !(q[j].kind == kind && q[j].status == "pending")
    ensures r.None? <==> forall j | 0 <= j < |q| :: !(q[j].kind == kind && q[j].status == "pending")
    decreases |q|
  {
    if |q| == 0 then None
    else if q[0].kind == kind && q[0].status == "pending" then Some(0)
    else
      match FirstPending(q[1..], kind)
      case None => None
      case Some(i) => Some(i + 1)
  }

  /** The reply to a request: the pending one found, or the new one queued. */
  datatype Reply = AlreadyPending(id: string) | Queued(id: string)

  /** `/unlock` (kind "unlock") and `/emergency` (kind "emergency"): the id of a
      pending request of the same kind is returned as it is; otherwise a new pending
      request with id `newId` is appended. */
  function RequestKind(q: Queue, kind: string, newId: string, now: int): (Reply, Queue) {
    match FirstPending(q, kind)
    case Some(i) => (AlreadyPending(q[i].id), q)
    case None => (Queued(newId), q + [Request(newId, kind, "pending", now, None, None)])
  }

  /** A pending request of the kind is answered with the first one's id and the
      queue is left unchanged; otherwise exactly one pending request of that kind is
      appended at the end. So at most one pending request of each kind is ever
      added. */
  lemma RequestKindMeaning(q: Queue, kind: string, newId: string, now: int)
    ensures var (reply, after) := RequestKind(q, kind, newId, now);
      (exists j | 0 <= j < |q| :: q[j].kind == kind && q[j].status == "pending") ==>
        && after == q && reply.AlreadyPending?
        && (exists j | 0 <= j < |q| :: q[j].id == reply.id && q[j].kind == kind && q[j].status == "pending")
    ensures var (reply, after) := RequestKind(q, kind, newId, now);
      (forall j | 0 <= j < |q| :: !(q[j].kind == kind && q[j].status == "pending")) ==>
        && reply == Queued(newId)
        && |after| == |q| + 1 && after[..|q|] == q
        && after[|q|].kind == kind && after[|q|].status == "pending" && after[|q|].id == newId
  {
    var (reply, after) := RequestKind(q, kind, newId, now);
    if exists j | 0 <= j < |q| :: q[j].kind == kind && q[j].status == "pending" {
      var i := FirstPending(q, kind).value;
      assert q[i].id == reply.id;
    } else {
      assert after[..|q|] == q;
    }
  }

  /** Requests of one kind, made one after another, leave at most one pending
      request of that kind when there was none before. */
  lemma AtMostOnePending(q: Queue, kind: string, id1: string, id2: string, t1: int, t2: int)
    requires forall j | 0 <= j < |q| :: !(q[j].kind == kind && q[j].status == "pending")
    ensures var q1 := RequestKind(q, kind, id1, t1).1;
      RequestKind(q1, kind, id2, t2) == (AlreadyPending(id1), q1)
  {
    var q1 := RequestKind(q, kind, id1, t1).1;
    assert q1[|q|].kind == kind && q1[|q|].status == "pending";
    var i := FirstPending(q1, kind).value;
    assert i == |q|;
  }

  // ---------------------------------------------------------------------------
  // complete_request

  /** The entries with status `status`, in order. */
  function WithStatus(q: Queue, status: string): (r: Queue)
    ensures |r| <= |q|
    decreases |q|
  {
    if |q| == 0 then []
    else (if q[0].status == status then [q[0]] else []) + WithStatus(q[1..], status)
  }

  /** Filtering keeps exactly the entries with the status. */
  lemma {:induction false} WithStatusMembers(q: Queue, status: string)
    ensures forall r | r in WithStatus(q, status) :: r in q && r.status == status
    ensures forall r | r in q && r.status == status :: r in WithStatus(q, status)
    decreases |q|
  {
    if |q| > 0 {
      WithStatusMembers(q[1..], status);
      assert forall r | r in q[1..] :: r in q;
      assert forall r | r in q :: r == q[0] || r in q[1..];
    }
  }

  /** Filtering distributes over concatenation, so it keeps the order. */
  lemma {:induction false} WithStatusAppend(q: Queue, t: Queue, status: string)
    ensures WithStatus(q + t, status) == WithStatus(q, status) + WithStatus(t, status)
    decreases |q|
  {
    if |q| == 0 {
      assert q + t == t;
    } else {
      var head := if q[0].status == status then [q[0]] else [];
      assert (q + t)[0] == q[0];
      assert (q + t)[1..] == q[1..] + t;
      assert WithStatus(q + t, status) == head + WithStatus(q[1..] + t, status);
      assert WithStatus(q, status) == head + WithStatus(q[1..], status);
      WithStatusAppend(q[1..], t, status);
      assert head + (WithStatus(q[1..], status) + WithStatus(t, status))
          == (head + WithStatus(q[1..], status)) + WithStatus(t, status);
    }
  }

  /** `xs[-n:]`: the last `n` entries, or all of them when there are fewer. */
  function LastN(xs: Queue, n: nat): (r: Queue)
    ensures |r| == if |xs| < n then |xs| else n
  {
    if |xs| <= n then xs else xs[|xs| - n..]
  }

  /** The retention: the pending requests, then the last ten completed ones. Entries
      with any other status are dropped. */
  function Retain(q: Queue): Queue {
    WithStatus(q, "pending") + LastN(WithStatus(q, "completed"), 10)
  }

  /** Retention keeps every pending request, in order, and at most ten completed
      ones, the latest by position; nothing else. */
  lemma RetainMeaning(q: Queue)
    ensures var r := Retain(q);
      && r[..|WithStatus(q, "pending")|] == WithStatus(q, "pending")
      && |r| <= |WithStatus(q, "pending")| + 10
      && (forall x | x in r :: x in q && (x.status == "pending" || x.status == "completed"))
      && (forall x | x in q && x.status == "pending" :: x in r)
  {
    WithStatusMembers(q, "pending");
    WithStatusMembers(q, "completed");
    var p := WithStatus(q, "pending");
    var c := WithStatus(q, "completed");
    var r := Retain(q);
    assert r[..|p|] == p;
    forall x | x in r ensures x in q && (x.status == "pending" || x.status == "completed") {
      if x !in p {
        assert x in LastN(c, 10);
        assert x in c;
      }
    }
  }

  /** The index of the first request with id `id`, if any. */
  function FirstWithId(q: Queue, id: string): (r: Option<nat>)
    ensures r.Some? ==> r.value < |q| && q[r.value].id == id
    ensures r.Some? ==> forall j | 0 <= j < r.value :: q[j].id != id
    ensures r.None? <==> forall j | 0 <= j < |q| :: q[j].id != id
    decreases |q|
  {
    if |q| == 0 then None
    else if q[0].id == id then Some(0)
    else
      match FirstWithId(q[1..], id)
      case None => None
      case Some(i) => Some(i + 1)
  }

  /** The request completed with `result` at `now`. */
  function Completed(r: Request, result: Json, now: int): Request {
    r.(status := "completed", result := Some(result), completedAt := Some(now))
  }

  /** `/complete/<id>`: an unknown id is a 404 with the queue unchanged (`None`);
      otherwise the first request with the id is completed and the queue retained. */
  function CompleteRequest(q: Queue, id: string, result: Json, now: int): Option<Queue> {
    match FirstWithId(q, id)
    case None => None
    case Some(i) => Some(Retain(q[i := Completed(q[i], result, now)]))
  }

  /** The script `mark_completed` runs on the server: the same marking, but the
      retention runs whether or not the id was found. */
  function CompleteScript(q: Queue, id: string, result: Json, now: int): Queue {
    match FirstWithId(q, id)
    case None => Retain(q)
    case Some(i) => Retain(q[i := Completed(q[i], result, now)])
  }

  /** Completing answers 404 exactly for an id not in the queue; otherwise it retains
      the queue in which only the first request with the id is completed, which is
      also what the poller's script leaves. For an unknown id the script still
      prunes. */
  lemma CompleteMeaning(q: Queue, id: string, result: Json, now: int)
    ensures CompleteRequest(q, id, result, now).None? <==> forall j | 0 <= j < |q| :: q[j].id != id
    ensures CompleteRequest(q, id, result, now).Some? ==>
      && CompleteRequest(q, id, result, now).value == CompleteScript(q, id, result, now)
      && exists i | 0 <= i < |q| ::
           && q[i].id == id
           && (forall j | 0 <= j < i :: q[j].id != id)
           && CompleteRequest(q, id, result, now).value == Retain(q[i := Completed(q[i], result, now)])
    ensures (forall j | 0 <= j < |q| :: q[j].id != id) ==> CompleteScript(q, id, result, now) == Retain(q)
  {
  }

  /** The request just completed survives the retention exactly when fewer than ten
      completed requests come after it in the queue: retention goes by position,
      not by completion time. */
  lemma JustCompletedKept(before: Queue, x: Request, after: Queue)
    requires x.status == "completed" && x !in after
    ensures var q := before + [x] + after;
      x in LastN(WithStatus(q, "completed"), 10) <==> |WithStatus(after, "completed")| < 10
  {
    var q := before + [x] + after;
    WithStatusAppend(before + [x], after, "completed");
    WithStatusAppend(before, [x], "completed");
    WithStatusMembers(after, "completed");
    assert WithStatus([x], "completed") == [x];
    var tail := WithStatus(after, "completed");
    assert x !in tail;
    assert WithStatus(q, "completed") == WithStatus(before, "completed") + [x] + tail;
    LastTenAround(WithStatus(before, "completed"), x, tail);
  }

  /** An entry followed by `tail` is among the last ten exactly when fewer than ten
      entries follow it, provided it does not recur among them. */
  lemma LastTenAround(pre: Queue, x: Request, tail: Queue)
    requires x !in tail
    ensures x in LastN(pre + [x] + tail, 10) <==> |tail| < 10
  {
    var c := pre + [x] + tail;
    var l := LastN(c, 10);
    var k := |pre|;
    assert c[k] == x;
    if |tail| < 10 {
      if |c| > 10 {
        assert l == c[|c| - 10..];
        assert l[k - (|c| - 10)] == x;
      }
    } else {
      assert l == c[|c| - 10..];
      assert l == tail[|tail| - 10..];
      assert forall y | y in l :: y in tail;
    }
  }
}

=== FILE: retry.dfy ===
/**
 * The retry loop around remote commands (ssh/scp) that appears three times in
 * the source: remote state, remote DNS sync and phone polling. Each run of the
 * command is an outcome supplied by the environment; the loop decides how many
 * runs it makes, how long it sleeps between them and what it reports.
 */
module Retry {
  import opened Text

  const MaxRetries: nat := 3
  const InitialBackoff: nat := 2
  const BackoffMultiplier: nat := 2

  /** Error texts that mark a failure of the transport rather than of the command. */
  const TransientSignatures: seq<string> := [
    "Connection reset by peer",
    "Connection refused",
    "Connection timed out",
    "Network is unreachable",
    "No route to host"
  ]

  /** What one run of the command produced: an exit status with its output, or the
      30-second subprocess timeout firing. */
  datatype Attempt = Exited(code: int, stdout: string, stderr: string) | TimedOut

  /** How the loop ended, how many runs it made and the sleeps it took between them. */
  datatype Outcome =
    | Succeeded(stdout: string, stderr: string, used: nat, sleeps: seq<nat>)
    | Failed(lastError: string, used: nat, sleeps: seq<nat>)
    | TimeoutRaised(used: nat, sleeps: seq<nat>)

  /** Some transient signature occurs in the (stripped) error text. */
  ghost predicate IsTransient(error: string) {
    exists k | 0 <= k < |TransientSignatures| :: Contains(error, TransientSignatures[k])
  }

  /** `_is_transient_error`: executable form of `IsTransient`. */
  function Transient(error: string): bool {
    AnyOccurs(error, TransientSignatures)
  }

  /** Some text of `pats` occurs in `error`. */
  function AnyOccurs(error: string, pats: seq<string>): bool
    decreases |pats|
  {
    if |pats| == 0 then false else Find(error, pats[0]) || AnyOccurs(error, pats[1..])
  }

  /** The scan over the patterns finds one exactly when one of them occurs. */
  lemma {:induction false} AnyOccursMeaning(error: string, pats: seq<string>)
    ensures AnyOccurs(error, pats) <==> exists k | 0 <= k < |pats| :: Contains(error, pats[k])
    decreases |pats|
  {
    if |pats| > 0 {
      FindMeaning(error, pats[0]);
      AnyOccursMeaning(error, pats[1..]);
      if AnyOccurs(error, pats[1..]) {
        var k :| 0 <= k < |pats[1..]| && Contains(error, pats[1..][k]);
        assert pats[1..][k] == pats[k + 1];
      }
      if exists k | 0 <= k < |pats| :: Contains(error, pats[k]) {
        var k :| 0 <= k < |pats| && Contains(error, pats[k]);
        if k != 0 {
          assert pats[1..][k - 1] == pats[k];
        }
      }
    }
  }

  /** The classifier answers exactly whether some transient signature occurs. */
  lemma TransientMeaning(error: string)
    ensures Transient(error) <==> IsTransient(error)
  {
    AnyOccursMeaning(error, TransientSignatures);
  }

  /** A run that the loop answers with another run: a non-zero exit with a transient
      error, or (where timeouts are caught) a timeout. */
  predicate Retryable(a: Attempt, catchTimeouts: bool) {
    match a
    case Exited(code, _, stderr) => code != 0 && Transient(Strip(stderr))
    case TimedOut => catchTimeouts
  }

  /** The backoff before run `k + 1`: 2 s, doubled after every sleep. */
  function Backoff(k: nat): nat {
    if k == 0 then InitialBackoff else Backoff(k - 1) * BackoffMultiplier
  }

  /** The sleeps taken before run `n` (counting from 0): one backoff between runs. */
  function Schedule(n: nat): (sleeps: seq<nat>)
    ensures |sleeps| == n
  {
    if n == 0 then [] else Schedule(n - 1) + [Backoff(n - 1)]
  }

  /** Whether each run, if it fails, is one the loop answers with another run. The
      classification depends only on the run, so it is computed once up front. */
  function RetryFlags(runs: seq<Attempt>, catchTimeouts: bool): (retry: seq<bool>)
    ensures |retry| == |runs|
  {
    if |runs| == 0 then [] else [Retryable(runs[0], catchTimeouts)] + RetryFlags(runs[1..], catchTimeouts)
  }

  /** The flag of run `k` is its classification. */
  lemma {:induction false} RetryFlagAt(runs: seq<Attempt>, catchTimeouts: bool, k: nat)
    requires k < |runs|
    ensures RetryFlags(runs, catchTimeouts)[k] == Retryable(runs[k], catchTimeouts)
  {
    if k > 0 {
      RetryFlagAt(runs[1..], catchTimeouts, k - 1);
    }
  }

  /** Run `k` (counting from 0) ends the loop: it exited 0, its failure is not one to
      retry, or it was the last run allowed. */
  predicate Ends(runs: seq<Attempt>, retry: seq<bool>, k: nat)
    requires k < |runs| == |retry|
  {
    (runs[k].Exited? && runs[k].code == 0) || !retry[k] || k == MaxRetries - 1
  }

  /** What the loop reports when run `k` ends it; `error` is the stripped error text. */
  function Report(run: Attempt, error: string, catchTimeouts: bool, k: nat): (r: Outcome)
  {
    match run
    case Exited(code, stdout, stderr) =>
      if code == 0 then Succeeded(stdout, stderr, k + 1, Schedule(k))
      else Failed(error, k + 1, Schedule(k))
    case TimedOut =>
      if catchTimeouts then Failed("Command timed out", k + 1, Schedule(k))
      else TimeoutRaised(k + 1, Schedule(k))
  }

  /** The stripped error text of every run. */
  function Errors(runs: seq<Attempt>): (errors: seq<string>)
    ensures |errors| == |runs|
  {
    if |runs| == 0 then []
    else [if runs[0].Exited? then Strip(runs[0].stderr) else ""] + Errors(runs[1..])
  }

  /** The error text of an exited run `k` is its stripped stderr. */
  lemma {:induction false} ErrorAt(runs: seq<Attempt>, k: nat)
    requires k < |runs|
    ensures runs[k].Exited? ==> Errors(runs)[k] == Strip(runs[k].stderr)
  {
    if k > 0 {
      ErrorAt(runs[1..], k - 1);
    }
  }

  /** The loop over runs `attempt`, `attempt + 1`, ... of `runs`, given the retry flag
      and stripped error text of each run. When `catchTimeouts` is false a timeout
      propagates out of the loop, as in the remote-state and remote-sync copies; the
      phone-poll copy catches it and records "Command timed out". */
  function Loop(runs: seq<Attempt>, retry: seq<bool>, errors: seq<string>, catchTimeouts: bool,
                attempt: nat, backoff: nat, sleeps: seq<nat>): (r: Outcome)
    requires |runs| == |retry| == |errors| && |runs| >= MaxRetries && attempt < MaxRetries
    requires backoff == Backoff(attempt) && sleeps == Schedule(attempt)
    decreases MaxRetries - attempt
  {
    var run := runs[attempt];
    if run.Exited? && run.code == 0 then Succeeded(run.stdout, run.stderr, attempt + 1, sleeps)
    else if !retry[attempt] || attempt == MaxRetries - 1 then
      // the loop ends here: a timeout that is not caught propagates, a caught one is
      // the last error, otherwise the stripped error text is
      if run.TimedOut? then
        if catchTimeouts then Failed("Command timed out", attempt + 1, sleeps)
        else TimeoutRaised(attempt + 1, sleeps)
      else Failed(errors[attempt], attempt + 1, sleeps)
    else
      Loop(runs, retry, errors, catchTimeouts, attempt + 1, backoff * BackoffMultiplier, sleeps + [backoff])
  }

  /** The loop from run `attempt` on reports the first run at or after `attempt` that
      ends it, after sleeping the backoff before every run it made. */
  lemma {:induction false} LoopEndsAtFirstEnd(runs: seq<Attempt>, retry: seq<bool>, errors: seq<string>,
                                              catchTimeouts: bool, attempt: nat, backoff: nat, sleeps: seq<nat>)
    requires |runs| == |retry| == |errors| && |runs| >= MaxRetries && attempt < MaxRetries
    requires backoff == Backoff(attempt) && sleeps == Schedule(attempt)
    ensures var r := Loop(runs, retry, errors, catchTimeouts, attempt, backoff, sleeps);
      attempt < r.used <= MaxRetries
      && Ends(runs, retry, r.used - 1)
      && (forall k | attempt <= k < r.used - 1 :: !Ends(runs, retry, k))
      && r == Report(runs[r.used - 1], errors[r.used - 1], catchTimeouts, r.used - 1)
    decreases MaxRetries - attempt
  {
    if !Ends(runs, retry, attempt) {
      LoopEndsAtFirstEnd(runs, retry, errors, catchTimeouts, attempt + 1, backoff * BackoffMultiplier, sleeps + [backoff]);
    }
  }

  /** `_run_with_retry`: at most three runs, stopping at the first zero exit or the first
      error that is not transient, sleeping 2 s and then 4 s between runs. */
  function RunWithRetry(runs: seq<Attempt>, catchTimeouts: bool): (r: Outcome)
    requires |runs| >= MaxRetries
    ensures 1 <= r.used <= MaxRetries && r.sleeps == Schedule(r.used - 1)
    ensures r.Succeeded? <==> runs[r.used - 1].Exited? && runs[r.used - 1].code == 0
    ensures r.Succeeded? ==> r.stdout == runs[r.used - 1].stdout && r.stderr == runs[r.used - 1].stderr
    ensures r.TimeoutRaised? <==> runs[r.used - 1].TimedOut? && !catchTimeouts
    ensures r.Failed? && runs[r.used - 1].Exited? ==> r.lastError == Strip(runs[r.used - 1].stderr)
    ensures r.Failed? && runs[r.used - 1].TimedOut? ==> r.lastError == "Command timed out"
  {
    var retry := RetryFlags(runs, catchTimeouts);
    var errors := Errors(runs);
    LoopEndsAtFirstEnd(runs, retry, errors, catchTimeouts, 0, InitialBackoff, []);
    var r := Loop(runs, retry, errors, catchTimeouts, 0, InitialBackoff, []);
    ErrorAt(runs, r.used - 1);
    r
  }

  /** Every run before the last one made failed in a way the loop retries, and a
      failure ends the loop only when it is not retried or no run is left. */
  lemma RetriesOnlyRetryable(runs: seq<Attempt>, catchTimeouts: bool)
    requires |runs| >= MaxRetries
    ensures var r := RunWithRetry(runs, catchTimeouts);
      (forall k | 0 <= k < r.used - 1 :: Retryable(runs[k], catchTimeouts))
      && (r.Failed? ==> r.used == MaxRetries || !Retryable(runs[r.used - 1], catchTimeouts))
  {
    var retry := RetryFlags(runs, catchTimeouts);
    var errors := Errors(runs);
    LoopEndsAtFirstEnd(runs, retry, errors, catchTimeouts, 0, InitialBackoff, []);
    var r := RunWithRetry(runs, catchTimeouts);
    forall k | 0 <= k < r.used - 1
      ensures Retryable(runs[k], catchTimeouts)
    {
      assert !Ends(runs, retry, k);
      RetryFlagAt(runs, catchTimeouts, k);
    }
    RetryFlagAt(runs, catchTimeouts, r.used - 1);
  }

  /** A first run that exits 0 ends the loop at once, with no sleep. */
  lemma FirstSuccessStops(runs: seq<Attempt>, catchTimeouts: bool)
    requires |runs| >= MaxRetries && runs[0].Exited? && runs[0].code == 0
    ensures RunWithRetry(runs, catchTimeouts) == Succeeded(runs[0].stdout, runs[0].stderr, 1, [])
  {
  }

  /** Three transient failures in a row exhaust the loop after sleeping 2 s and 4 s. */
  lemma TransientFailuresExhaust(runs: seq<Attempt>, catchTimeouts: bool)
    requires |runs| >= MaxRetries
    requires runs[0].Exited? && Retryable(runs[0], catchTimeouts)
    requires runs[1].Exited? && Retryable(runs[1], catchTimeouts)
    requires runs[2].Exited? && Retryable(runs[2], catchTimeouts)
    ensures RunWithRetry(runs, catchTimeouts) == Failed(Strip(runs[2].stderr), 3, [2, 4])
  {
    var retry := RetryFlags(runs, catchTimeouts);
    var errors := Errors(runs);
    RetryFlagAt(runs, catchTimeouts, 0);
    RetryFlagAt(runs, catchTimeouts, 1);
    ErrorAt(runs, 2);
    LoopEndsAtFirstEnd(runs, retry, errors, catchTimeouts, 0, InitialBackoff, []);
    assert Schedule(1) == [2] && Schedule(2) == [2, 4];
  }
}

=== FILE: sorting.dfy ===
/**
 * `sorted(set(xs))` on strings: Python orders strings by comparing code points
 * left to right, a proper prefix coming first.
 */
module Sorting {
  /** `a < b` on Python strings. */
  predicate Below(a: string, b: string)
    decreases |a|
  {
    |b| > 0 && (|a| == 0 || a[0] < b[0] || (a[0] == b[0] && Below(a[1..], b[1..])))
  }

  lemma {:induction false} BelowIrreflexive(a: string)
    ensures !Below(a, a)
    decreases |a|
  {
    if |a| > 0 {
      BelowIrreflexive(a[1..]);
    }
  }

  /** Two different strings are ordered one way or the other. */
  lemma {:induction false} BelowTotal(a: string, b: string)
    requires a != b
    ensures Below(a, b) || Below(b, a)
    decreases |a|
  {
    if |a| > 0 && |b| > 0 && a[0] == b[0] {
      assert a == [a[0]] + a[1..] && b == [b[0]] + b[1..];
      BelowTotal(a[1..], b[1..]);
    }
  }

  lemma {:induction false} BelowTransitive(a: string, b: string, c: string)
    requires Below(a, b) && Below(b, c)
    ensures Below(a, c)
    decreases |a|
  {
    if |a| > 0 && a[0] == b[0] && b[0] == c[0] {
      BelowTransitive(a[1..], b[1..], c[1..]);
    }
  }

  /** Each string is below the next one. */
  predicate Ascending(s: seq<string>) {
    forall i | 0 <= i < |s| - 1 :: Below(s[i], s[i + 1])
  }

  /** Place `x` in an ascending list, unless it is there already. */
  function Insert(x: string, s: seq<string>): (r: seq<string>)
    requires Ascending(s)
    ensures Ascending(r)
    ensures forall y :: y in r <==> y == x || y in s
    ensures |r| > 0 && (r[0] == x || (|s| > 0 && r[0] == s[0]))
    decreases |s|
  {
    if |s| == 0 then [x]
    else if x == s[0] then s
    else if Below(x, s[0]) then [x] + s
    else
      BelowTotal(x, s[0]);
      [s[0]] + Insert(x, s[1..])
  }

  /** `sorted(set(xs))`. */
  function SortedSet(xs: seq<string>): (r: seq<string>)
    ensures Ascending(r)
    ensures forall y :: y in r <==> y in xs
    decreases |xs|
  {
    if |xs| == 0 then [] else Insert(xs[0], SortedSet(xs[1..]))
  }

  /** In an ascending list every string is below every later one, so none repeats. */
  lemma {:induction false} AscendingAll(s: seq<string>)
    requires Ascending(s)
    ensures forall i, j | 0 <= i < j < |s| :: Below(s[i], s[j])
    ensures forall i, j | 0 <= i < j < |s| :: s[i] != s[j]
    decreases |s|
  {
    if |s| > 1 {
      AscendingAll(s[1..]);
      forall i, j | 0 <= i < j < |s| ensures Below(s[i], s[j]) {
        if i > 0 {
          assert s[i] == s[1..][i - 1] && s[j] == s[1..][j - 1];
        } else if j > 1 {
          assert s[1] == s[1..][0] && s[j] == s[1..][j - 1];
          BelowTransitive(s[0], s[1], s[j]);
        }
      }
      forall i, j | 0 <= i < j < |s| ensures s[i] != s[j] {
        if s[i] == s[j] {
          BelowIrreflexive(s[i]);
        }
      }
    }
  }

  /** Two ascending lists of the same strings are the same list: the result of
      `SortedSet` is the one `sorted(set(xs))` gives. */
  lemma {:induction false} AscendingUnique(a: seq<string>, b: seq<string>)
    requires Ascending(a) && Ascending(b)
    requires forall y :: y in a <==> y in b
    ensures a == b
    decreases |a|
  {
    AscendingAll(a);
    AscendingAll(b);
    assert |b| == 0 || b[0] in b;
    if |a| > 0 {
      assert a[0] in a;
      assert |b| > 0;
      assert b[0] in b;
      var j :| 0 <= j < |b| && b[j] == a[0];
      var i :| 0 <= i < |a| && a[i] == b[0];
      if j > 0 && i > 0 {
        BelowTransitive(a[0], b[0], a[0]);
        BelowIrreflexive(a[0]);
      }
      assert a[0] == b[0];
      forall y ensures y in a[1..] <==> y in b[1..] {
        if y in a[1..] {
          var k :| 0 <= k < |a[1..]| && a[1..][k] == y;
          assert a[k + 1] == y;
          assert y != a[0] && y in a && y in b;
          var m :| 0 <= m < |b| && b[m] == y;
          assert b[1..][m - 1] == y;
        }
        if y in b[1..] {
          var k :| 0 <= k < |b[1..]| && b[1..][k] == y;
          assert b[k + 1] == y;
          assert y != b[0] && y in b && y in a;
          var m :| 0 <= m < |a| && a[m] == y;
          assert a[1..][m - 1] == y;
        }
      }
      AscendingUnique(a[1..], b[1..]);
      assert a == [a[0]] + a[1..] && b == [b[0]] + b[1..];
    }
  }
}

=== FILE: text.dfy ===
/**
 * Character and string helpers with the meaning Python's `str` methods give
 * them: `split`, `join`, `strip`, `startswith`, `in`, `replace`, the regular
 * expression class `\s`, and `str()` of an integer.
 */
module Text {
  import opened Wrappers

  /** Concatenation regroups freely. */
  lemma ConcatAssoc<T>(a: seq<T>, b: seq<T>, c: seq<T>)
    ensures a + b + c == a + (b + c)
  {
  }

  /** Whitespace as `str.isspace` and the regular-expression class `\s` see it,
      restricted to the ASCII range. */
  predicate IsSpace(c: char) {
    c == ' ' || c == '\t' || c == '\n' || c == '\r' || c == '\U{B}' || c == '\U{C}'
    || c == '\U{1C}' || c == '\U{1D}' || c == '\U{1E}' || c == '\U{1F}'
  }

  predicate AllSpace(s: string) {
    forall i | 0 <= i < |s| :: IsSpace(s[i])
  }

  predicate NoSpace(s: string) {
    forall i | 0 <= i < |s| :: !IsSpace(s[i])
  }

  predicate StartsWith(s: string, prefix: string) {
    |prefix| <= |s| && s[..|prefix|] == prefix
  }

  predicate EndsWith(s: string, suffix: string) {
    |suffix| <= |s| && s[|s| - |suffix|..] == suffix
  }

  /** `pat` occurs in `s` starting at index `i`. */
  predicate OccursAt(s: string, pat: string, i: nat) {
    i + |pat| <= |s| && s[i..i + |pat|] == pat
  }

  /** `pat in s`: `pat` occurs in `s` as a contiguous piece. */
  ghost predicate Contains(s: string, pat: string) {
    exists i: nat :: OccursAt(s, pat, i)
  }

  lemma ContainsShift(s: string, pat: string)
    requires |s| > 0
    ensures Contains(s, pat) <==> OccursAt(s, pat, 0) || Contains(s[1..], pat)
  {
    if Contains(s, pat) && !OccursAt(s, pat, 0) {
      var i: nat :| OccursAt(s, pat, i);
      assert OccursAt(s[1..], pat, i - 1);
    }
    if Contains(s[1..], pat) {
      var i: nat :| OccursAt(s[1..], pat, i);
      assert OccursAt(s, pat, i + 1);
    }
  }

  /** A text that starts with `pat`, placed after `x`, holds it at `|x|`. */
  lemma OccursAfter(x: string, y: string, z: string, pat: string)
    requires StartsWith(y, pat)
    ensures OccursAt(x + y + z, pat, |x|)
  {
    var s := x + y + z;
    assert |s| == |x| + |y| + |z|;
    forall k | 0 <= k < |pat| ensures s[|x|..|x| + |pat|][k] == pat[k] {
      assert s[|x| + k] == y[k] == y[..|pat|][k];
    }
  }

  /** Executable form of `Contains`; `FindMeaning` relates the two. */
  function Find(s: string, pat: string): bool
    decreases |s|
  {
    if |s| < |pat| then false
    else if s[..|pat|] == pat then true
    else Find(s[1..], pat)
  }

  /** The search answers exactly the question "does `pat` occur in `s`?". */
  lemma {:induction false} FindMeaning(s: string, pat: string)
    ensures Find(s, pat) <==> Contains(s, pat)
    decreases |s|
  {
    if |s| < |pat| {
      assert !Contains(s, pat);
    } else if s[..|pat|] == pat {
      assert OccursAt(s, pat, 0);
    } else {
      ContainsShift(s, pat);
      FindMeaning(s[1..], pat);
    }
  }

  /** `s.find(pat)` as an option: the first index at which `pat` occurs. */
  function FirstIndex(s: string, pat: string): (r: Option<nat>)
    ensures r.Some? ==> OccursAt(s, pat, r.value)
    decreases |s|
  {
    if |s| < |pat| then None
    else if s[..|pat|] == pat then Some(0)
    else match FirstIndex(s[1..], pat)
      case None => None
      case Some(i) =>
        OccursInTail(s, pat, i);
        Some(i + 1)
  }

  /** An occurrence in the tail is one in the whole, one place later. */
  lemma OccursInTail(s: string, pat: string, i: nat)
    requires |s| > 0 && OccursAt(s[1..], pat, i)
    ensures OccursAt(s, pat, i + 1)
  {
    assert |s[1..]| == |s| - 1;
    forall k | 0 <= k < |pat| ensures s[i + 1..i + 1 + |pat|][k] == pat[k] {
      assert s[i + 1..i + 1 + |pat|][k] == s[i + 1 + k] == s[1..][i + k] == s[1..][i..i + |pat|][k];
    }
  }

  /** The index found is the first occurrence, and there is none exactly when `pat`
      does not occur. */
  lemma {:induction false} FirstIndexMeaning(s: string, pat: string)
    ensures FirstIndex(s, pat).None? <==> !Contains(s, pat)
    ensures FirstIndex(s, pat).Some? ==>
      forall q: nat | q < FirstIndex(s, pat).value :: !OccursAt(s, pat, q)
    decreases |s|
  {
    if |s| < |pat| {
      assert !Contains(s, pat);
    } else if s[..|pat|] == pat {
      assert OccursAt(s, pat, 0);
    } else {
      ContainsShift(s, pat);
      FirstIndexMeaning(s[1..], pat);
      forall q: nat | 0 < q && OccursAt(s, pat, q) ensures OccursAt(s[1..], pat, q - 1) {
        assert s[1..][q - 1..q - 1 + |pat|] == s[q..q + |pat|];
      }
    }
  }

  /** An occurrence with none before it is the one found. */
  lemma FirstIndexAt(s: string, pat: string, i: nat)
    requires OccursAt(s, pat, i)
    requires forall q: nat | q < i :: !OccursAt(s, pat, q)
    ensures FirstIndex(s, pat) == Some(i)
  {
    FirstIndexMeaning(s, pat);
    assert Contains(s, pat);
  }

  /** Number of whitespace characters that start `s`. */
  function LeadingSpaces(s: string): (n: nat)
    ensures n <= |s|
    decreases |s|
  {
    if |s| > 0 && IsSpace(s[0]) then LeadingSpaces(s[1..]) + 1 else 0
  }

  /** The leading run is all whitespace and is followed by a non-space, if anything. */
  lemma {:induction false} LeadingSpacesMeaning(s: string)
    ensures AllSpace(s[..LeadingSpaces(s)])
    ensures LeadingSpaces(s) == |s| || !IsSpace(s[LeadingSpaces(s)])
    decreases |s|
  {
    if |s| > 0 && IsSpace(s[0]) {
      LeadingSpacesMeaning(s[1..]);
      var n := LeadingSpaces(s[1..]);
      assert s[..n + 1] == [s[0]] + s[1..][..n];
    }
  }

  /** Number of whitespace characters that end `s`. */
  function TrailingSpaces(s: string): (n: nat)
    ensures n <= |s|
    decreases |s|
  {
    if |s| > 0 && IsSpace(s[|s| - 1]) then TrailingSpaces(s[..|s| - 1]) + 1 else 0
  }

  /** The trailing run is all whitespace and is preceded by a non-space, if anything. */
  lemma {:induction false} TrailingSpacesMeaning(s: string)
    ensures AllSpace(s[|s| - TrailingSpaces(s)..])
    ensures TrailingSpaces(s) == |s| || !IsSpace(s[|s| - TrailingSpaces(s) - 1])
    decreases |s|
  {
    if |s| > 0 && IsSpace(s[|s| - 1]) {
      var t := s[..|s| - 1];
      TrailingSpacesMeaning(t);
      var n := TrailingSpaces(t);
      forall i | |s| - (n + 1) <= i < |s| ensures IsSpace(s[i]) {
        if i < |s| - 1 {
          assert s[i] == t[|t| - n..][i - (|t| - n)];
        }
      }
    }
  }

  /** `str.strip()`: drop leading and trailing whitespace. */
  function Strip(s: string): string
  {
    var t := s[LeadingSpaces(s)..];
    t[..|t| - TrailingSpaces(t)]
  }

  /** Stripping leaves nothing exactly when the text is all whitespace, and keeps a
      first character that is not whitespace. */
  lemma StripMeaning(s: string)
    ensures Strip(s) == "" <==> AllSpace(s)
    ensures |s| > 0 && !IsSpace(s[0]) ==> |Strip(s)| > 0 && Strip(s)[0] == s[0]
  {
    var a := LeadingSpaces(s);
    var t := s[a..];
    var b := TrailingSpaces(t);
    LeadingSpacesMeaning(s);
    TrailingSpacesMeaning(t);
    assert AllSpace(s) ==> a == |s|;
    if t[..|t| - b] == "" {
      assert s == s[..a] + t;
      assert t == t[|t| - b..];
    }
  }

  /** A text with no whitespace at either end is its own strip. */
  lemma StripTrimmed(s: string)
    requires |s| > 0 && !IsSpace(s[0]) && !IsSpace(s[|s| - 1])
    ensures Strip(s) == s
  {
    assert LeadingSpaces(s) == 0;
    assert TrailingSpaces(s) == 0;
  }

  /** Stripping twice is stripping once. */
  lemma StripTwice(s: string)
    ensures Strip(Strip(s)) == Strip(s)
  {
    var a := LeadingSpaces(s);
    var t := s[a..];
    var b := TrailingSpaces(t);
    var u := Strip(s);
    if u != "" {
      LeadingSpacesMeaning(s);
      TrailingSpacesMeaning(t);
      assert u[0] == s[a];
      assert u[|u| - 1] == t[|t| - b - 1];
      StripTrimmed(u);
    }
  }

  /** `s.split(sep)` for a one-character separator: the pieces between separators.
      There is always at least one piece. */
  function Split(s: string, sep: char): (parts: seq<string>)
    ensures |parts| >= 1
    ensures forall k | 0 <= k < |parts| :: sep !in parts[k]
    decreases |s|
  {
    if |s| == 0 then [""]
    else
      var rest := Split(s[1..], sep);
      if s[0] == sep then [""] + rest
      else [[s[0]] + rest[0]] + rest[1..]
  }

  /** `sep.join(parts)`. */
  function Join(parts: seq<string>, sep: char): string
    decreases |parts|
  {
    if |parts| == 0 then ""
    else if |parts| == 1 then parts[0]
    else parts[0] + [sep] + Join(parts[1..], sep)
  }

  /** Joining the pieces of a split restores the text. */
  lemma {:induction false} JoinSplit(s: string, sep: char)
    ensures Join(Split(s, sep), sep) == s
    decreases |s|
  {
    if |s| > 0 {
      JoinSplit(s[1..], sep);
      var rest := Split(s[1..], sep);
      if s[0] != sep {
        var parts := Split(s, sep);
        if |rest| == 1 {
          assert parts == [[s[0]] + rest[0]];
        } else {
          assert parts[1..] == rest[1..];
          assert Join(rest, sep) == rest[0] + [sep] + Join(rest[1..], sep);
        }
      }
    }
  }

  /** Splitting joined pieces gives the pieces back when no piece holds the separator. */
  lemma {:induction false} SplitJoin(parts: seq<string>, sep: char)
    requires |parts| >= 1
    requires forall k | 0 <= k < |parts| :: sep !in parts[k]
    ensures Split(Join(parts, sep), sep) == parts
    decreases |parts|, |parts[0]|
  {
    if |parts[0]| > 0 {
      var head := parts[0];
      var tail := [head[1..]] + parts[1..];
      SplitJoin(tail, sep);
      var joined := Join(parts, sep);
      if |parts| == 1 {
        assert joined[1..] == Join(tail, sep);
      } else {
        assert joined[1..] == Join(tail, sep) by {
          assert Join(tail, sep) == head[1..] + [sep] + Join(parts[1..], sep);
        }
      }
      assert joined[0] == head[0];
      assert [head[0]] + head[1..] == head;
      assert parts == [head] + parts[1..];
    } else if |parts| > 1 {
      SplitJoin(parts[1..], sep);
      assert Join(parts, sep)[1..] == Join(parts[1..], sep);
    }
  }

  /** A join starts with its first piece and ends with its last. */
  lemma {:induction false} JoinEnds(parts: seq<string>, sep: char)
    requires |parts| > 0
    ensures StartsWith(Join(parts, sep), parts[0])
    ensures EndsWith(Join(parts, sep), parts[|parts| - 1])
    decreases |parts|
  {
    if |parts| > 1 {
      var r := Join(parts[1..], sep);
      JoinEnds(parts[1..], sep);
      ConcatAssoc(parts[0], [sep], r);
      PrefixOfConcat(parts[0], [sep] + r);
      SuffixOfConcat(parts[0] + [sep], r, parts[|parts| - 1]);
    } else {
      assert Join(parts, sep) == parts[0];
    }
  }

  lemma PrefixOfConcat(a: string, b: string)
    ensures StartsWith(a + b, a)
  {
    assert (a + b)[..|a|] == a;
  }

  lemma SuffixOfConcat(a: string, b: string, suffix: string)
    requires EndsWith(b, suffix)
    ensures EndsWith(a + b, suffix)
  {
    assert (a + b)[|a + b| - |suffix|..] == b[|b| - |suffix|..];
  }

  /** Joining two nonempty runs of pieces puts one separator between their joins. */
  lemma {:induction false} JoinAppend(a: seq<string>, b: seq<string>, sep: char)
    requires |a| > 0 && |b| > 0
    ensures Join(a + b, sep) == Join(a, sep) + [sep] + Join(b, sep)
    decreases |a|
  {
    if |a| == 1 {
      assert (a + b)[1..] == b;
    } else {
      assert (a + b)[1..] == a[1..] + b;
      JoinAppend(a[1..], b, sep);
    }
  }

  /** A text without the separator splits into itself alone. */
  lemma {:induction false} SplitNoSeparator(s: string, sep: char)
    requires sep !in s
    ensures Split(s, sep) == [s]
    decreases |s|
  {
    if |s| > 0 {
      SplitNoSeparator(s[1..], sep);
      assert [s[0]] + s[1..] == s;
    }
  }

  /** Two separator-free pieces joined by one separator split back into the two. */
  lemma SplitTwoPieces(a: string, b: string, sep: char)
    requires sep !in a && sep !in b
    ensures Split(a + [sep] + b, sep) == [a, b]
  {
    SplitJoin([a, b], sep);
    assert Join([a, b], sep) == a + [sep] + Join([b], sep);
  }

  /** `s.replace(pat, rep)`: every non-overlapping occurrence of `pat`, found left to
      right, is replaced. */
  function ReplaceAll(s: string, pat: string, rep: string): string
    requires |pat| > 0
    decreases |s|
  {
    if |s| < |pat| then s
    else if s[..|pat|] == pat then rep + ReplaceAll(s[|pat|..], pat, rep)
    else [s[0]] + ReplaceAll(s[1..], pat, rep)
  }

  /** Replacing leaves a text without occurrences untouched. */
  lemma {:induction false} ReplaceAllAbsent(s: string, pat: string, rep: string)
    requires |pat| > 0 && !Contains(s, pat)
    ensures ReplaceAll(s, pat, rep) == s
    decreases |s|
  {
    if |s| >= |pat| {
      ContainsShift(s, pat);
      ReplaceAllAbsent(s[1..], pat, rep);
    }
  }

  /** Python's `str.split()` with no argument: the maximal runs of non-whitespace. */
  function Words(s: string): (ws: seq<string>)
    ensures forall k | 0 <= k < |ws| :: |ws[k]| > 0 && NoSpace(ws[k])
    decreases |s|
  {
    if |s| == 0 then []
    else if IsSpace(s[0]) then Words(s[1..])
    else
      var n := WordLength(s);
      [s[..n]] + Words(s[n..])
  }

  /** Length of the run of non-whitespace characters that starts `s`. */
  function WordLength(s: string): (n: nat)
    ensures n <= |s| && NoSpace(s[..n])
    ensures n == |s| || IsSpace(s[n])
    decreases |s|
  {
    if |s| == 0 || IsSpace(s[0]) then 0
    else
      var n := WordLength(s[1..]);
      assert s[..n + 1] == [s[0]] + s[1..][..n];
      n + 1
  }

  /** ASCII lower-casing, the case folding the model applies for `re.IGNORECASE`. */
  function Lower(c: char): char {
    if 'A' <= c <= 'Z' then (c as int + 32) as char else c
  }

  /** Case-insensitive equality of two strings, with ASCII case folding only. */
  predicate EqualIgnoringCase(a: string, b: string) {
    |a| == |b| && forall i | 0 <= i < |a| :: Lower(a[i]) == Lower(b[i])
  }

  /** `prefix` starts `s`, compared case-insensitively. */
  predicate StartsWithIgnoringCase(s: string, prefix: string) {
    |prefix| <= |s| && EqualIgnoringCase(s[..|prefix|], prefix)
  }

  predicate IsDigit(c: char) {
    '0' <= c <= '9'
  }

  predicate AllDigits(s: string) {
    forall i | 0 <= i < |s| :: IsDigit(s[i])
  }

  function DigitChar(d: nat): (c: char)
    requires d < 10
    ensures IsDigit(c) && c as int - '0' as int == d
  {
    (d + '0' as int) as char
  }

  /** The number a run of decimal digits denotes. */
  function DigitsValue(s: string): nat
    requires AllDigits(s)
    decreases |s|
  {
    if |s| == 0 then 0 else DigitsValue(s[..|s| - 1]) * 10 + (s[|s| - 1] as int - '0' as int)
  }

  /** `str(n)` for a natural number. */
  function NatToString(n: nat): (s: string)
    ensures |s| >= 1 && AllDigits(s)
  {
    if n < 10 then [DigitChar(n)] else NatToString(n / 10) + [DigitChar(n % 10)]
  }

  /** Reading back the digits `str(n)` writes gives `n`. */
  lemma {:induction false} NatToStringValue(n: nat)
    ensures DigitsValue(NatToString(n)) == n
  {
    var s := NatToString(n);
    if n >= 10 {
      NatToStringValue(n / 10);
      assert s[..|s| - 1] == NatToString(n / 10);
    } else {
      assert s[..|s| - 1] == [];
    }
  }

  /** `str(i)` for any integer. */
  function IntToString(i: int): string {
    if i < 0 then "-" + NatToString(-i) else NatToString(i)
  }

  /** `int(s)` on a string: surrounding whitespace is ignored, an optional sign is
      followed by at least one ASCII decimal digit; anything else is a `ValueError`
      (`None`). Underscores between digits and non-ASCII digits are not read. */
  function ParseInt(s: string): Option<int> {
    var t := Strip(s);
    if |t| > 0 && (t[0] == '-' || t[0] == '+') then
      var digits := t[1..];
      if |digits| > 0 && AllDigits(digits) then
        var v: int := DigitsValue(digits);
        Some(if t[0] == '-' then -v else v)
      else None
    else if |t| > 0 && AllDigits(t) then Some(DigitsValue(t))
    else None
  }

  /** `int(str(i)) == i`. */
  lemma ParseIntToString(i: int)
    ensures ParseInt(IntToString(i)) == Some(i)
  {
    var s := IntToString(i);
    var digits := NatToString(if i < 0 then -i else i);
    NatToStringValue(if i < 0 then -i else i);
    assert !IsSpace(s[0]) && !IsSpace(s[|s| - 1]);
    StripTrimmed(s);
    if i < 0 {
      assert s[1..] == digits;
    }
  }

  /** `f"{n:02d}"` for a natural number. */
  function Pad2(n: nat): (s: string)
    ensures |s| >= 2 && AllDigits(s)
  {
    if n < 10 then "0" + NatToString(n) else NatToString(n)
  }

  /** The padded digits still denote `n`, and a number below 100 takes exactly two. */
  lemma Pad2Value(n: nat)
    ensures DigitsValue(Pad2(n)) == n
    ensures n < 100 ==> |Pad2(n)| == 2
  {
    var s := Pad2(n);
    if n < 10 {
      assert s[..|s| - 1] == "0";
      assert DigitsValue("0") == 0 by {
        assert "0"[..0] == [];
      }
    } else {
      NatToStringValue(n);
      if n < 100 {
        assert NatToString(n) == NatToString(n / 10) + [DigitChar(n % 10)];
      }
    }
  }
}

=== FILE: unlock.dfy ===
/**
 * `UnlockManager` (lib/unlock.py): evaluates the configured conditions, unlocks
 * on proof of work or in an emergency, blocks on demand and reconciles the
 * hosts file and the remote DNS server with the daily record. The clock and
 * calendar, the vault, plugin condition code and the outcome of remote
 * commands are parameters; the hosts file is its text.
 */
module Unlock {
  import opened Wrappers
  import opened Text
  import opened JsonData
  import opened Outcomes
  import Dict
  import Config
  import Registry
  import ConditionContext
  import NoteParser
  import Checkers
  import WordCount
  import DailyState
  import Hosts
  import RemoteSync
  import Retry

  /** Runs of a remote command, enough for every attempt of the retry loop. */
  type Runs = r: seq<Retry.Attempt> | |r| >= Retry.MaxRetries
    witness [Retry.TimedOut, Retry.TimedOut, Retry.TimedOut]

  /** What the manager reads and never changes: the configuration and its blocked
      sites, the condition registry and the context handed to factories, what
      plugin factories and plugin checks do, today's vault, the remote-sync
      manager (if one was given) and what its `scp` and `ssh` runs end in. */
  datatype Env = Env(
    config: Json,
    sites: seq<string>,
    reg: Registry.Registry,
    ctx: ConditionContext.Context,
    pluginMake: (nat, ConditionContext.Context) -> Option<Exception>,
    plugin: (nat, Json) -> Outcome<NoteParser.Verdict>,
    vault: NoteParser.Vault,
    remote: Option<RemoteSync.Settings>,
    scpRuns: Runs,
    sshRuns: Runs)

  /** `self._conditions`: the condition instances made so far, by type name. */
  type Cache = Dict.Entries<string, Registry.Condition>

  /** What the manager changes: the daily record, the condition cache and the text
      of the hosts file. */
  datatype World = World(record: DailyState.DayRecord, cache: Cache, hostsFile: string)

  /** What an operation returned or raised, the world after it, and the site list it
      sent to the remote DNS server, if it sent one. */
  datatype Done<T> = Done(out: Outcome<T>, world: World, sent: Option<seq<string>>)

  /** One line of the condition report: name, met, description. */
  type Row = (string, bool, string)

  // ---------------------------------------------------------------------------
  // _get_condition

  /** `_get_condition(t)`: the cached instance, or a new one from the registry, which
      is cached only when creating it did not raise. Also answers whether a new
      instance was made. */
  function GetCondition(env: Env, cache: Cache, t: string): (Outcome<Registry.Condition>, Cache, bool) {
    match Dict.Get(cache, t)
    case Some(c) => (Return(c), cache, false)
    case None =>
      var made := Registry.Create(env.reg, t, env.ctx, env.pluginMake);
      if made.Return? then (made, Dict.Put(cache, t, made.value), true) else (made, cache, false)
  }

  /** Every cached instance is the one the registry makes for its name. */
  ghost predicate CacheSound(env: Env, cache: Cache) {
    forall i | 0 <= i < |cache| :: Registry.Create(env.reg, cache[i].0, env.ctx, env.pluginMake) == Return(cache[i].1)
  }

  /** The cache answers as the registry does; it consults the registry only for a
      name it holds no instance for, and afterwards holds one exactly when creation
      succeeded, appended at the end. */
  lemma GetConditionMeaning(env: Env, cache: Cache, t: string)
    requires CacheSound(env, cache)
    ensures var (made, after, created) := GetCondition(env, cache, t);
      && made == Registry.Create(env.reg, t, env.ctx, env.pluginMake)
      && CacheSound(env, after)
      && (created <==> !Dict.Has(cache, t) && made.Return?)
      && (created ==> after == cache + [(t, made.value)])
      && (!created ==> after == cache)
      && (made.Return? ==> Dict.Has(after, t))
  {
    if Dict.Has(cache, t) {
      GetCached(env, cache, t);
    } else {
      GetFresh(env, cache, t);
    }
  }

  /** A name the cache holds is answered from it, and that is what the registry makes. */
  lemma GetCached(env: Env, cache: Cache, t: string)
    requires CacheSound(env, cache) && Dict.Has(cache, t)
    ensures GetCondition(env, cache, t) == (Registry.Create(env.reg, t, env.ctx, env.pluginMake), cache, false)
  {
    var c := Dict.Get(cache, t).value;
    var i :| 0 <= i < |cache| && cache[i] == (t, c);
  }

  /** A name the cache lacks is made by the registry and appended when that succeeds. */
  lemma GetFresh(env: Env, cache: Cache, t: string)
    requires CacheSound(env, cache) && !Dict.Has(cache, t)
    ensures var (made, after, created) := GetCondition(env, cache, t);
      && made == Registry.Create(env.reg, t, env.ctx, env.pluginMake)
      && created == made.Return?
      && (created ==> after == cache + [(t, made.value)] && Dict.Has(after, t))
      && (!created ==> after == cache)
      && CacheSound(env, after)
  {
    var (made, after, created) := GetCondition(env, cache, t);
    if created {
      forall i | 0 <= i < |after|
        ensures Registry.Create(env.reg, after[i].0, env.ctx, env.pluginMake) == Return(after[i].1)
      {
        if i < |cache| {
          assert after[i] == cache[i];
        }
      }
    }
  }

  /** A second request for a type that was made is answered from the cache: the
      factory runs at most once per type. */
  lemma GetConditionOnce(env: Env, cache: Cache, t: string)
    ensures var (made, after, _) := GetCondition(env, cache, t);
      made.Return? ==> GetCondition(env, after, t) == (made, after, false)
  {
    var (made, after, created) := GetCondition(env, cache, t);
    if made.Return? && created {
      Dict.GetPut(cache, t, made.value, t);
    }
  }

  // ---------------------------------------------------------------------------
  // check_all_conditions

  /** `except ValueError` reports an unknown type; any other exception its text. */
  function FailSafe(t: Json, e: Exception): (bool, string) {
    match e
    case ValueError(_) => (false, "Unknown type: " + Show(t))
    case OtherError(_, m) => (false, "Error: " + m)
  }

  /** The verdict recorded for one condition, given what getting its instance gave. */
  function Judge(env: Env, t: Json, made: Outcome<Registry.Condition>, cc: Json): (bool, string) {
    match made
    case Raise(e) => FailSafe(t, e)
    case Return(c) =>
      match Checkers.Evaluate(c, env.vault, env.plugin, cc)
      case Raise(e) => FailSafe(t, e)
      case Return(v) => v
  }

  /** The verdict on one condition configuration (a dictionary), with the cache
      afterwards and the type names whose instance was made. A type that is not a
      string is never registered; a list or dictionary cannot even be looked up in
      the cache. */
  function ConditionVerdict(env: Env, cache: Cache, cc: Json): ((bool, string), Cache, seq<string>) {
    var t := FieldOr(cc, "type", JStr("checkbox"));
    match t
    case JStr(s) =>
      var (made, after, created) := GetCondition(env, cache, s);
      (Judge(env, t, made, cc), after, if created then [s] else [])
    case JList(_) => ((false, "Error: unhashable type: 'list'"), cache, [])
    case JObj(_) => ((false, "Error: unhashable type: 'dict'"), cache, [])
    case _ => ((false, "Unknown type: " + Show(t)), cache, [])
  }

  /** The verdict on one condition configuration computed without a cache: creating
      its instance afresh. */
  function Reference(env: Env, cc: Json): (bool, string) {
    var t := FieldOr(cc, "type", JStr("checkbox"));
    match t
    case JStr(s) => Judge(env, t, Registry.Create(env.reg, s, env.ctx, env.pluginMake), cc)
    case JList(_) => (false, "Error: unhashable type: 'list'")
    case JObj(_) => (false, "Error: unhashable type: 'dict'")
    case _ => (false, "Unknown type: " + Show(t))
  }

  /** With a sound cache, the cached verdict is the fresh one, the cache stays sound,
      and at most one instance is made, for a type that had none. */
  lemma ConditionVerdictMeaning(env: Env, cache: Cache, cc: Json)
    requires CacheSound(env, cache)
    ensures var (v, after, made) := ConditionVerdict(env, cache, cc);
      && v == Reference(env, cc)
      && CacheSound(env, after)
      && Dict.Keys(after) == Dict.Keys(cache) + made
      && |made| <= 1
      && (forall t | t in made :: !Dict.Has(cache, t))
  {
    var t := FieldOr(cc, "type", JStr("checkbox"));
    if t.JStr? {
      GetConditionMeaning(env, cache, t.s);
      var (made, after, created) := GetCondition(env, cache, t.s);
      assert ConditionVerdict(env, cache, cc) == (Judge(env, t, made, cc), after, if created then [t.s] else []);
      assert Reference(env, cc) == Judge(env, t, Registry.Create(env.reg, t.s, env.ctx, env.pluginMake), cc);
      if created {
        assert after == Dict.Put(cache, t.s, made.value);
        assert Dict.Keys(after) == Dict.Keys(cache) + [t.s];
      }
    }
  }

  /** The part of `ConditionVerdictMeaning` the loop's report needs. */
  lemma VerdictIsReference(env: Env, cache: Cache, cc: Json)
    requires CacheSound(env, cache)
    ensures ConditionVerdict(env, cache, cc).0 == Reference(env, cc)
    ensures CacheSound(env, ConditionVerdict(env, cache, cc).1)
  {
    ConditionVerdictMeaning(env, cache, cc);
  }

  /** The loop over the configured conditions: the report, the cache afterwards and
      the type names whose instance was made, in order. */
  datatype Scan = Scan(out: Outcome<seq<Row>>, cache: Cache, made: seq<string>)

  /** The loop of `check_all_conditions` over `(name, config)` entries. Reading the
      type of a configuration that is not a dictionary raises outside the `try`, so
      the whole call raises; every other failure is caught for its own condition. */
  function ScanConditions(env: Env, cache: Cache, entries: seq<(string, Json)>): Scan
    decreases |entries|
  {
    if |entries| == 0 then Scan(Return([]), cache, [])
    else
      var (name, cc) := entries[0];
      if !cc.JObj? then Scan(Raise(NoAttribute(cc, "get")), cache, [])
      else
        var (v, after, made) := ConditionVerdict(env, cache, cc);
        var rest := ScanConditions(env, after, entries[1..]);
        match rest.out
        case Raise(e) => Scan(Raise(e), rest.cache, made + rest.made)
        case Return(rows) => Scan(Return([(name, v.0, v.1)] + rows), rest.cache, made + rest.made)
  }

  /** Every configuration in `entries` is a dictionary. */
  predicate AllObjects(entries: seq<(string, Json)>) {
    forall k | 0 <= k < |entries| :: entries[k].1.JObj?
  }

  /** One step of the loop on a dictionary configuration. */
  lemma ScanStep(env: Env, cache: Cache, entries: seq<(string, Json)>)
    requires |entries| > 0 && entries[0].1.JObj?
    ensures var (v, after, made) := ConditionVerdict(env, cache, entries[0].1);
      var rest := ScanConditions(env, after, entries[1..]);
      var s := ScanConditions(env, cache, entries);
      && s.cache == rest.cache
      && s.made == made + rest.made
      && (rest.out.Return? <==> s.out.Return?)
      && (rest.out.Return? ==> s.out.value == [(entries[0].0, v.0, v.1)] + rest.out.value)
  {
  }

  lemma AllObjectsTail(entries: seq<(string, Json)>)
    requires |entries| > 0 && AllObjects(entries)
    ensures AllObjects(entries[1..]) && entries[0].1.JObj?
  {
    forall k | 0 <= k < |entries[1..]| ensures entries[1..][k].1.JObj? {
      assert entries[1..][k] == entries[k + 1];
    }
  }

  /** With a sound cache and dictionary configurations, the loop reports one row per
      condition in declared order, each the fresh verdict on its configuration: a
      failing condition does not stop the later ones. */
  lemma {:induction false} ScanRows(env: Env, cache: Cache, entries: seq<(string, Json)>)
    requires CacheSound(env, cache) && AllObjects(entries)
    ensures var s := ScanConditions(env, cache, entries);
      && s.out.Return?
      && |s.out.value| == |entries|
      && (forall k | 0 <= k < |entries| ::
            s.out.value[k].0 == entries[k].0
            && (s.out.value[k].1, s.out.value[k].2) == Reference(env, entries[k].1))
    decreases |entries|
  {
    if |entries| > 0 {
      AllObjectsTail(entries);
      VerdictIsReference(env, cache, entries[0].1);
      var (v, after, made) := ConditionVerdict(env, cache, entries[0].1);
      ScanRows(env, after, entries[1..]);
      ScanStep(env, cache, entries);
      var rest := ScanConditions(env, after, entries[1..]).out.value;
      var rows := ScanConditions(env, cache, entries).out.value;
      forall k | 0 <= k < |entries|
        ensures rows[k].0 == entries[k].0 && (rows[k].1, rows[k].2) == Reference(env, entries[k].1)
      {
        if k > 0 {
          assert rows[k] == rest[k - 1];
          assert entries[1..][k - 1] == entries[k];
        }
      }
    }
  }

  /** With a sound cache and dictionary configurations, the cache stays sound. */
  lemma {:induction false} ScanSound(env: Env, cache: Cache, entries: seq<(string, Json)>)
    requires CacheSound(env, cache) && AllObjects(entries)
    ensures CacheSound(env, ScanConditions(env, cache, entries).cache)
    decreases |entries|
  {
    if |entries| > 0 {
      AllObjectsTail(entries);
      VerdictIsReference(env, cache, entries[0].1);
      var (v, after, made) := ConditionVerdict(env, cache, entries[0].1);
      ScanSound(env, after, entries[1..]);
      ScanStep(env, cache, entries);
    }
  }

  /** With a sound cache and dictionary configurations, the cache only grows, by the
      instances made, each for a type that had none and no type twice. */
  lemma {:induction false} ScanCache(env: Env, cache: Cache, entries: seq<(string, Json)>)
    requires CacheSound(env, cache) && AllObjects(entries)
    ensures var s := ScanConditions(env, cache, entries);
      && Dict.Keys(s.cache) == Dict.Keys(cache) + s.made
      && (forall t | t in s.made :: !Dict.Has(cache, t))
      && (forall i, j | 0 <= i < j < |s.made| :: s.made[i] != s.made[j])
    decreases |entries|
  {
    if |entries| > 0 {
      AllObjectsTail(entries);
      ConditionVerdictMeaning(env, cache, entries[0].1);
      var (v, after, made) := ConditionVerdict(env, cache, entries[0].1);
      ScanCache(env, after, entries[1..]);
      ScanStep(env, cache, entries);
      var rest := ScanConditions(env, after, entries[1..]);
      var s := ScanConditions(env, cache, entries);
      assert Dict.Keys(s.cache) == Dict.Keys(cache) + s.made by {
        assert Dict.Keys(cache) + made + rest.made == Dict.Keys(cache) + (made + rest.made);
      }
      MadeFresh(cache, after, made, rest.made);
    }
  }

  /** Names made after a step are not in the cache after it, so neither in the cache
      before it nor among the names that step made. */
  lemma MadeFresh(cache: Cache, after: Cache, made: seq<string>, later: seq<string>)
    requires Dict.Keys(after) == Dict.Keys(cache) + made && |made| <= 1
    requires forall t | t in made :: !Dict.Has(cache, t)
    requires forall t | t in later :: !Dict.Has(after, t)
    requires forall i, j | 0 <= i < j < |later| :: later[i] != later[j]
    ensures forall t | t in made + later :: !Dict.Has(cache, t)
    ensures forall i, j | 0 <= i < j < |made + later| :: (made + later)[i] != (made + later)[j]
  {
    forall t | t in later ensures t !in made {
    }
    var all := made + later;
    forall i, j | 0 <= i < j < |all| ensures all[i] != all[j] {
      if i < |made| {
        assert i == 0 && all[i] in made;
        assert all[j] == later[j - |made|];
      } else {
        assert all[i] == later[i - |made|] && all[j] == later[j - |made|];
      }
    }
  }

  /** Both halves of the loop's meaning. */
  lemma ScanMeaning(env: Env, cache: Cache, entries: seq<(string, Json)>)
    requires CacheSound(env, cache) && AllObjects(entries)
    ensures var s := ScanConditions(env, cache, entries);
      && s.out.Return?
      && |s.out.value| == |entries|
      && (forall k | 0 <= k < |entries| ::
            s.out.value[k].0 == entries[k].0
            && (s.out.value[k].1, s.out.value[k].2) == Reference(env, entries[k].1))
      && CacheSound(env, s.cache)
      && Dict.Keys(s.cache) == Dict.Keys(cache) + s.made
      && (forall t | t in s.made :: !Dict.Has(cache, t))
      && (forall i, j | 0 <= i < j < |s.made| :: s.made[i] != s.made[j])
  {
    ScanRows(env, cache, entries);
    ScanSound(env, cache, entries);
    ScanCache(env, cache, entries);
  }

  /** The loop stops at the first configuration that is not a dictionary and raises
      the `AttributeError` of its `.get`. */
  lemma {:induction false} ScanRaisesOnNonObject(env: Env, cache: Cache, entries: seq<(string, Json)>, k: nat)
    requires k < |entries| && !entries[k].1.JObj?
    requires forall j | 0 <= j < k :: entries[j].1.JObj?
    ensures ScanConditions(env, cache, entries).out == Raise(NoAttribute(entries[k].1, "get"))
    decreases k
  {
    if k > 0 {
      var (v, after, made) := ConditionVerdict(env, cache, entries[0].1);
      assert entries[1..][k - 1] == entries[k];
      ScanRaisesOnNonObject(env, after, entries[1..], k - 1);
    }
  }

  /** Python's `all(met for ...)`. */
  function AllMet(rows: seq<Row>): bool
    decreases |rows|
  {
    |rows| == 0 || (rows[0].1 && AllMet(rows[1..]))
  }

  /** Python's `any(met for ...)`. */
  function AnyMet(rows: seq<Row>): bool
    decreases |rows|
  {
    |rows| > 0 && (rows[0].1 || AnyMet(rows[1..]))
  }

  /** The aggregate of the report under `mode`: "all" needs a nonempty report with
      every condition met, anything else needs one met condition. */
  function Satisfied(mode: Json, rows: seq<Row>): bool {
    if mode == JStr("all") then (if |rows| > 0 then AllMet(rows) else false) else AnyMet(rows)
  }

  lemma {:induction false} AllAnyMeaning(rows: seq<Row>)
    ensures AllMet(rows) <==> forall k | 0 <= k < |rows| :: rows[k].1
    ensures AnyMet(rows) <==> exists k | 0 <= k < |rows| :: rows[k].1
    decreases |rows|
  {
    if |rows| > 0 {
      AllAnyMeaning(rows[1..]);
      assert forall k | 1 <= k < |rows| :: rows[1..][k - 1] == rows[k];
      if AnyMet(rows[1..]) {
        var k :| 0 <= k < |rows[1..]| && rows[1..][k].1;
        assert rows[k + 1].1;
      }
    }
  }

  /** Under "all" the conditions are satisfied exactly when there is at least one and
      every one is met; under any other mode exactly when some one is met. With no
      conditions the answer is false either way. */
  lemma SatisfiedMeaning(mode: Json, rows: seq<Row>)
    ensures mode == JStr("all") ==>
      (Satisfied(mode, rows) <==> |rows| > 0 && forall k | 0 <= k < |rows| :: rows[k].1)
    ensures mode != JStr("all") ==>
      (Satisfied(mode, rows) <==> exists k | 0 <= k < |rows| :: rows[k].1)
    ensures |rows| == 0 ==> !Satisfied(mode, rows)
  {
    AllAnyMeaning(rows);
  }

  /** The outcome of `check_all_conditions`, with the cache afterwards and the type
      names whose instance was made. */
  datatype Checked = Checked(out: Outcome<(bool, seq<Row>)>, cache: Cache, made: seq<string>)

  /** `check_all_conditions` once the aggregation mode has been read (or reading it
      raised): the loop over `config.conditions`, then the aggregate. A conditions
      value that is not a dictionary makes `.items()` raise. */
  function CheckWithMode(env: Env, cache: Cache, mode: Outcome<Json>): Checked {
    var conditions := Config.Conditions(env.config);
    if !conditions.JObj? then Checked(Raise(NoAttribute(conditions, "items")), cache, [])
    else
      var s := ScanConditions(env, cache, conditions.fields);
      match s.out
      case Raise(e) => Checked(Raise(e), s.cache, s.made)
      case Return(rows) =>
        match mode
        case Raise(e) => Checked(Raise(e), s.cache, s.made)
        case Return(m) => Checked(Return((Satisfied(m, rows), rows)), s.cache, s.made)
  }

  const ModeMissing: Exception := OtherError("AttributeError", "'Config' object has no attribute 'condition_mode'")

  /** `check_all_conditions` as written: the mode is the attribute
      `config.condition_mode`, which `Config` does not define (`None` here), so the
      call raises once every condition has been checked. */
  function CheckAllConditionsAsWritten(env: Env, cache: Cache, modeAttribute: Option<Json>): Checked {
    CheckWithMode(env, cache, if modeAttribute.Some? then Return(modeAttribute.value) else Raise(ModeMissing))
  }

  /** The mode read from the configuration key `condition_mode`, "any" when absent. */
  function ConfiguredMode(config: Json): Json {
    Config.Get(config, "condition_mode", JStr("any"))
  }

  /** `check_all_conditions` with the mode read from the configuration. */
  function CheckAllConditions(env: Env, cache: Cache): Checked {
    CheckWithMode(env, cache, Return(ConfiguredMode(env.config)))
  }

  /** With the real `Config`, which has no `condition_mode` attribute, the call
      raises `AttributeError` whenever the conditions themselves are well formed;
      reading the mode from the configuration instead returns the report. */
  lemma ModeAttributeMissing(env: Env, cache: Cache)
    requires CacheSound(env, cache)
    requires Config.Conditions(env.config).JObj? && AllObjects(Config.Conditions(env.config).fields)
    ensures CheckAllConditionsAsWritten(env, cache, None).out == Raise(ModeMissing)
    ensures CheckAllConditions(env, cache).out.Return?
  {
    ScanMeaning(env, cache, Config.Conditions(env.config).fields);
  }

  /** With well-formed conditions, the report has one row per configured condition
      in declared order, each the verdict of a fresh instance of its type (a missing
      type meaning "checkbox", an unknown type or a `ValueError` reported as
      "Unknown type: t" and unmet, any other exception as "Error: ..." and unmet);
      the aggregate follows the configured mode; and no type's instance is made
      twice over the manager's life. */
  lemma CheckAllMeaning(env: Env, cache: Cache)
    requires CacheSound(env, cache)
    requires Config.Conditions(env.config).JObj? && AllObjects(Config.Conditions(env.config).fields)
    ensures var c := CheckAllConditions(env, cache);
      var entries := Config.Conditions(env.config).fields;
      && c.out.Return?
      && |c.out.value.1| == |entries|
      && (forall k | 0 <= k < |entries| ::
            c.out.value.1[k].0 == entries[k].0
            && (c.out.value.1[k].1, c.out.value.1[k].2) == Reference(env, entries[k].1))
      && (c.out.value.0 <==> Satisfied(ConfiguredMode(env.config), c.out.value.1))
      && CacheSound(env, c.cache)
      && Dict.Keys(c.cache) == Dict.Keys(cache) + c.made
      && (forall t | t in c.made :: !Dict.Has(cache, t))
      && (forall i, j | 0 <= i < j < |c.made| :: c.made[i] != c.made[j])
  {
    ScanMeaning(env, cache, Config.Conditions(env.config).fields);
  }

  /** A condition of an unregistered type is reported unmet as "Unknown type: t"; a
      configuration without a type is checked as a checkbox condition. */
  lemma ReferenceFailSafe(env: Env, cc: Json, t: string)
    requires cc.JObj?
    ensures FieldOr(cc, "type", JStr("checkbox")) == JStr(t) && !Registry.IsRegistered(env.reg, t) ==>
      Reference(env, cc) == (false, "Unknown type: " + t)
    ensures Field(cc, "type").None? ==>
      Reference(env, cc) == Judge(env, JStr("checkbox"), Registry.Create(env.reg, "checkbox", env.ctx, env.pluginMake), cc)
  {
  }

  // ---------------------------------------------------------------------------
  // _sync_remote

  /** The outcome of `_sync_remote`: its answer, the record after the blocked read it
      makes, and the list it sent. */
  datatype Synced = Synced(ok: bool, record: DailyState.DayRecord, sent: Option<seq<string>>)

  /** `_sync_remote`: nothing happens without an enabled remote-sync manager; otherwise
      the full site list is sent while blocked and the empty list while unlocked. */
  function SyncRemote(env: Env, record: DailyState.DayRecord, today: string, now: int): Synced {
    match env.remote
    case None => Synced(true, record, None)
    case Some(rs) =>
      if !Truthy(rs.enabled) then Synced(true, record, None)
      else
        var b := DailyState.IsBlocked(record, today, now);
        var list := if b.value then env.sites else [];
        Synced(RemoteSync.Sync(rs, list, env.scpRuns, env.sshRuns).success, b.record, Some(list))
  }

  /** Without an enabled remote nothing is sent and the answer is success; with one,
      the list sent is keyed only on the blocked state, and the answer is whether the
      copy and the install both succeeded. */
  lemma SyncRemoteMeaning(env: Env, record: DailyState.DayRecord, today: string, now: int)
    ensures var s := SyncRemote(env, record, today, now);
      env.remote.None? || !Truthy(env.remote.value.enabled) ==> s == Synced(true, record, None)
    ensures var s := SyncRemote(env, record, today, now);
      var b := DailyState.IsBlocked(record, today, now);
      env.remote.Some? && Truthy(env.remote.value.enabled) ==>
        && s.record == b.record
        && s.sent == Some(if b.value then env.sites else [])
        && (s.ok <==> Truthy(env.remote.value.host) && Truthy(env.remote.value.user)
                      && Retry.RunWithRetry(env.scpRuns, false).Succeeded?
                      && Retry.RunWithRetry(env.sshRuns, false).Succeeded?)
  {
    if env.remote.Some? && Truthy(env.remote.value.enabled) {
      var b := DailyState.IsBlocked(record, today, now);
      RemoteSync.SyncMeaning(env.remote.value, if b.value then env.sites else [], env.scpRuns, env.sshRuns);
    }
  }

  // ---------------------------------------------------------------------------
  // proof_of_work_unlock

  /** The report lines: a heading and one `[PASS]`/`[FAIL]` line per condition. */
  function StatusLines(rows: seq<Row>): (lines: seq<string>)
    ensures |lines| == |rows| + 1 && lines[0] == "Condition check results:"
    ensures forall k | 0 <= k < |rows| :: lines[k + 1] == RowLine(rows[k])
    decreases |rows|
  {
    if |rows| == 0 then ["Condition check results:"]
    else
      var rest := StatusLines(rows[..|rows| - 1]);
      rest + [RowLine(rows[|rows| - 1])]
  }

  function RowLine(row: Row): string {
    "  [" + (if row.1 then "PASS" else "FAIL") + "] " + row.0 + ": " + row.2
  }

  /** The unlock duration as "Hh Mm", or "Mm" below an hour. Python's `//` and `%`
      floor; with a positive divisor so do Dafny's. */
  function DurationText(d: int): string {
    var hours := d / 3600;
    var minutes := (d % 3600) / 60;
    if hours != 0 then IntToString(hours) + "h " + IntToString(minutes) + "m" else IntToString(minutes) + "m"
  }

  const NotMetLine: string := "\nNo conditions met. Sites remain blocked."

  /** The `TypeError` of arithmetic on a setting that is not a number. */
  const NotANumber: Exception := OtherError("TypeError", "unsupported operand type(s)")

  const MarkMissing: Exception := OtherError("AttributeError", "'State' object has no attribute 'mark_unlocked_via_conditions'")

  /** An integer unlock setting, with its default. A settings section that is not a
      dictionary (an empty `unlock:` reads as `None`) has no `.get`. A value that is
      not a number is reported as `NotANumber`, the error of the arithmetic the
      callers do with it. */
  function IntSetting(config: Json, key: string, default: int): Outcome<int> {
    var settings := Config.UnlockSettings(config);
    if !settings.JObj? then Raise(NoAttribute(settings, "get"))
    else
      match NoteParser.Numeric(FieldOr(settings, key, JInt(default)))
      case Some(n) => Return(n)
      case None => Raise(NotANumber)
  }

  /** A setting is read from a dictionary section only: any other section raises
      `AttributeError` at `.get`. In a dictionary a missing key gives the default, a
      number (or boolean) is read as it is, and anything else is not a number. */
  lemma IntSettingMeaning(config: Json, key: string, default: int)
    ensures var settings := Config.UnlockSettings(config);
      !settings.JObj? ==> IntSetting(config, key, default) == Raise(NoAttribute(settings, "get"))
    ensures var settings := Config.UnlockSettings(config);
      settings.JObj? && Field(settings, key).None? ==> IntSetting(config, key, default) == Return(default)
    ensures var settings := Config.UnlockSettings(config);
      settings.JObj? && Field(settings, key).Some? ==>
        IntSetting(config, key, default)
          == (match NoteParser.Numeric(Field(settings, key).value)
              case Some(n) => Return(n)
              case None => Raise(NotANumber))
    ensures Config.UnlockSettings(config) == EmptyObject ==> IntSetting(config, key, default) == Return(default)
  {
    var settings := Config.UnlockSettings(config);
    if settings == EmptyObject {
      assert Field(settings, key).None?;
    }
  }

  /** The `TypeError` of comparing the emergency count with a cap that is not a
      number. */
  function Unorderable(v: Json): Exception {
    OtherError("TypeError", "'<' not supported between instances of 'int' and '" + TypeName(v) + "'")
  }

  /** `proof_of_work_unlock` given how the mode is read and whether the call marking
      the record exists. */
  function ProofOfWork(env: Env, w: World, today: string, now: int, mode: Outcome<Json>, marks: bool)
    : Done<(bool, string)>
  {
    var b := DailyState.IsBlocked(w.record, today, now);
    if !b.value then
      var remaining := DailyState.FormatRemaining(DailyState.RemainingSeconds(b.record, now));
      Done(Return((true, "Already unlocked. " + remaining + " remaining.")), w.(record := b.record), None)
    else Decide(env, w.(record := b.record), today, now, CheckWithMode(env, w.cache, mode), marks)
  }

  /** The rest of `proof_of_work_unlock` while blocked, once the conditions have been
      checked with outcome `c`; `w` holds the record after the blocked read. */
  function Decide(env: Env, w: World, today: string, now: int, c: Checked, marks: bool): Done<(bool, string)> {
    var w1 := w.(cache := c.cache);
    match c.out
    case Raise(e) => Done(Raise(e), w1, None)
    case Return((satisfied, rows)) =>
      var lines := StatusLines(rows);
      if !satisfied then Done(Return((false, Join(lines + [NotMetLine], '\n'))), w1, None)
      else
        match IntSetting(env.config, "proof_of_work_duration", 7200)
        case Raise(e) => Done(Raise(e), w1, None)
        case Return(d) =>
          var unlocked := DailyState.SetUnlocked(w1.record, today, now, d);
          if !marks then Done(Raise(MarkMissing), w1.(record := unlocked), None)
          else
            var marked := unlocked.(viaConditions := Some(true));
            var hosts := Hosts.Apply(w1.hostsFile, Hosts.UnblockSites(w1.hostsFile));
            var s := SyncRemote(env, marked, today, now);
            Done(Return((true, Join(lines + ["\nUnlocked for " + DurationText(d) + "!"], '\n'))),
                 World(s.record, c.cache, hosts), s.sent)
  }

  /** `proof_of_work_unlock` as written: the mode is the missing `condition_mode`
      attribute (`modeAttribute`), and after the record is unlocked and saved the call
      `state.mark_unlocked_via_conditions()` raises, since `State` has no such method. */
  function ProofOfWorkUnlockAsWritten(env: Env, w: World, today: string, now: int, modeAttribute: Option<Json>)
    : Done<(bool, string)>
  {
    ProofOfWork(env, w, today, now, if modeAttribute.Some? then Return(modeAttribute.value) else Raise(ModeMissing), false)
  }

  /** `proof_of_work_unlock` with the mode read from the configuration and the record
      marked as unlocked through conditions. */
  function ProofOfWorkUnlock(env: Env, w: World, today: string, now: int): Done<(bool, string)> {
    ProofOfWork(env, w, today, now, Return(ConfiguredMode(env.config)), true)
  }

  /** Even with a mode attribute supplied, a successful proof of work ends in
      `AttributeError` with the record saved as unlocked but the hosts file untouched
      and nothing sent: the sites stay blocked locally while the record says open. */
  lemma ProofOfWorkUnlockAsWrittenRaises(env: Env, w: World, today: string, now: int, mode: Json)
    requires DailyState.IsBlocked(w.record, today, now).value
    requires CheckWithMode(env, w.cache, Return(mode)).out.Return?
    requires CheckWithMode(env, w.cache, Return(mode)).out.value.0
    requires IntSetting(env.config, "proof_of_work_duration", 7200).Return?
    ensures var r := ProofOfWorkUnlockAsWritten(env, w, today, now, Some(mode));
      var d := IntSetting(env.config, "proof_of_work_duration", 7200).value;
      && r.out == Raise(MarkMissing)
      && DailyState.UntilOf(r.world.record) == now + d && r.world.record.blocked == Some(false)
      && r.world.hostsFile == w.hostsFile
      && r.sent == None
  {
  }

  /** Already unlocked: success with the time left, no condition checked, the cache,
      the hosts file and the day's record as they were. */
  lemma ProofOfWorkWhenOpen(env: Env, w: World, today: string, now: int)
    requires !DailyState.IsBlocked(w.record, today, now).value
    ensures var r := ProofOfWorkUnlock(env, w, today, now);
      && r.out.Return? && r.out.value.0
      && StartsWith(r.out.value.1, "Already unlocked. ")
      && r.world == w.(record := DailyState.DayReset(w.record, today))
      && r.sent == None
  {
    var r := ProofOfWorkUnlock(env, w, today, now);
    assert r.out.value.1 == "Already unlocked. " + (DailyState.FormatRemaining(
      DailyState.RemainingSeconds(DailyState.IsBlocked(w.record, today, now).record, now)) + " remaining.");
  }

  /** While blocked: when the conditions are satisfied, the window becomes
      `[now, now + d)` for the configured duration (7200 s by default), the record is
      marked, the block section is removed from the hosts file and the result is
      true; when they are not, the result is false and the record (after the blocked
      read) and the hosts file are left alone. */
  lemma ProofOfWorkUnlockMeaning(env: Env, w: World, today: string, now: int)
    requires DailyState.IsBlocked(w.record, today, now).value
    requires CheckAllConditions(env, w.cache).out.Return?
    ensures var r := ProofOfWorkUnlock(env, w, today, now);
      var c := CheckAllConditions(env, w.cache);
      var b := DailyState.IsBlocked(w.record, today, now);
      && r.world.cache == c.cache
      && (!c.out.value.0 ==>
            r.out.Return? && !r.out.value.0
            && r.world == World(b.record, c.cache, w.hostsFile) && r.sent == None)
      && (c.out.value.0 && IntSetting(env.config, "proof_of_work_duration", 7200).Return? ==>
            var d := IntSetting(env.config, "proof_of_work_duration", 7200).value;
            && r.out.Return? && r.out.value.0
            && r.world.hostsFile == Hosts.Apply(w.hostsFile, Hosts.UnblockSites(w.hostsFile))
            && Hosts.GetBlockedSites(r.world.hostsFile) == []
            && r.world.record.viaConditions == Some(true)
            && r.world.record.emergencyCount == DailyState.DayReset(w.record, today).emergencyCount
            && (now < now + d ==>
                  DailyState.UntilOf(r.world.record) == now + d && r.world.record.blocked == Some(false)))
  {
    var c := CheckAllConditions(env, w.cache);
    var b := DailyState.IsBlocked(w.record, today, now);
    assert ProofOfWorkUnlock(env, w, today, now) == Decide(env, w.(record := b.record), today, now, c, true);
    DailyState.DayResetIdempotent(w.record, today);
    if !c.out.value.0 {
      DecideRefused(env, w.(record := b.record), today, now, c);
    } else if IntSetting(env.config, "proof_of_work_duration", 7200).Return? {
      DecideGranted(env, w.(record := b.record), today, now, c);
    }
  }

  /** Unmet conditions: false, with the cache after the checks and the record and the
      hosts file as they were. */
  lemma DecideRefused(env: Env, w: World, today: string, now: int, c: Checked)
    requires c.out.Return? && !c.out.value.0
    ensures var r := Decide(env, w, today, now, c, true);
      r.out.Return? && !r.out.value.0 && r.world == w.(cache := c.cache) && r.sent == None
  {
  }

  /** Met conditions and an integer duration: true, the window opened for the
      duration, the record marked, the block section removed. */
  lemma DecideGranted(env: Env, w: World, today: string, now: int, c: Checked)
    requires c.out.Return? && c.out.value.0
    requires IntSetting(env.config, "proof_of_work_duration", 7200).Return?
    ensures var r := Decide(env, w, today, now, c, true);
      var d := IntSetting(env.config, "proof_of_work_duration", 7200).value;
      && r.world.cache == c.cache
      && r.out.Return? && r.out.value.0
      && r.world.hostsFile == Hosts.Apply(w.hostsFile, Hosts.UnblockSites(w.hostsFile))
      && Hosts.GetBlockedSites(r.world.hostsFile) == []
      && r.world.record.viaConditions == Some(true)
      && r.world.record.emergencyCount == DailyState.DayReset(w.record, today).emergencyCount
      && (now < now + d ==>
            DailyState.UntilOf(r.world.record) == now + d && r.world.record.blocked == Some(false))
  {
    Hosts.UnblockClears(w.hostsFile);
    var d := IntSetting(env.config, "proof_of_work_duration", 7200).value;
    GrantedRecord(env, w.record, today, now, d);
  }

  /** The record a granted unlock leaves, after the remote sync has read it: marked,
      with the day's emergency count, and open for the duration when it is positive. */
  lemma GrantedRecord(env: Env, record: DailyState.DayRecord, today: string, now: int, d: int)
    ensures var r := SyncRemote(env, DailyState.SetUnlocked(record, today, now, d).(viaConditions := Some(true)), today, now).record;
      && r.viaConditions == Some(true)
      && r.emergencyCount == DailyState.DayReset(record, today).emergencyCount
      && (now < now + d ==> DailyState.UntilOf(r) == now + d && r.blocked == Some(false))
  {
    var marked := DailyState.SetUnlocked(record, today, now, d).(viaConditions := Some(true));
    SyncRemoteMeaning(env, marked, today, now);
  }

  /** When the duration is under an hour the report ends "Unlocked for Mm!". */
  lemma DurationTextShort(d: int)
    requires 0 <= d < 3600
    ensures DurationText(d) == IntToString(d / 60) + "m"
  {
  }

  // ---------------------------------------------------------------------------
  // emergency_unlock

  /** What the confirmation prompt got: a typed line, or an interrupt or end of input. */
  datatype Confirmation = Typed(line: string) | Interrupted

  const ConfirmationPhrase: string := "I CHOOSE DISTRACTION"

  /** `emergency_unlock(interactive)`. The four settings are read before anything
      else, so a section that is not a dictionary raises before the day reset; a cap
      that is not a number raises at its comparison with today's count. The
      countdown and shame prompt only print; the interactive path needs the
      confirmation phrase. */
  function EmergencyUnlock(env: Env, w: World, today: string, now: int, interactive: bool, answer: Confirmation)
    : Done<(bool, string)>
  {
    var settings := Config.UnlockSettings(env.config);
    if !settings.JObj? then Done(Raise(NoAttribute(settings, "get")), w, None)
    else
      var reset := w.(record := DailyState.DayReset(w.record, today));
      var cap := FieldOr(settings, "emergency_max_per_day", JInt(3));
      match NoteParser.Numeric(cap)
      case None => Done(Raise(Unorderable(cap)), reset, None)
      case Some(maxPerDay) =>
        if !DailyState.CanEmergency(w.record, today, maxPerDay).value then
          var m := IntToString(maxPerDay);
          Done(Return((false, "No emergency unlocks remaining today (used " + m + "/" + m + ").")), reset, None)
        else
          var initial := IntSetting(env.config, "emergency_initial_wait", 30);
          var multiplier := IntSetting(env.config, "emergency_wait_multiplier", 2);
          if initial.Raise? || multiplier.Raise? then Done(Raise(NotANumber), reset, None)
          else
            var wait := DailyState.NextEmergencyWait(w.record, today, initial.value, multiplier.value).value;
            if interactive && !Confirmed(answer) then Done(Return((false, CancelMessage(answer))), reset, None)
            else EmergencyGrant(env, reset, today, now, wait, maxPerDay)
  }

  /** Settings that are not a dictionary raise at the first `.get`, before the day
      reset, and change nothing; a cap that is not a number raises its comparison
      error after the day reset. */
  lemma EmergencySettingsRaise(env: Env, w: World, today: string, now: int, interactive: bool, answer: Confirmation)
    ensures var settings := Config.UnlockSettings(env.config);
      !settings.JObj? ==>
        EmergencyUnlock(env, w, today, now, interactive, answer) == Done(Raise(NoAttribute(settings, "get")), w, None)
    ensures var settings := Config.UnlockSettings(env.config);
      var cap := FieldOr(settings, "emergency_max_per_day", JInt(3));
      settings.JObj? && NoteParser.Numeric(cap).None? ==>
        EmergencyUnlock(env, w, today, now, interactive, answer)
          == Done(Raise(Unorderable(cap)), w.(record := DailyState.DayReset(w.record, today)), None)
  {
  }

  /** The confirmation prompt got the phrase. */
  predicate Confirmed(answer: Confirmation) {
    answer.Typed? && Strip(answer.line) == ConfirmationPhrase
  }

  /** Why an unconfirmed emergency unlock was cancelled. */
  function CancelMessage(answer: Confirmation): string {
    if answer.Interrupted? then "\nEmergency unlock cancelled."
    else "Incorrect confirmation. Emergency unlock cancelled."
  }

  /** The granting half of `emergency_unlock`, on the reset world: record the unlock
      with its wait, open the window for the emergency duration, unblock and sync. */
  function EmergencyGrant(env: Env, reset: World, today: string, now: int, wait: int, maxPerDay: int)
    : Done<(bool, string)>
  {
    var count := DailyState.CountOf(reset.record) + 1;
    var recorded := DailyState.RecordEmergency(reset.record, today, wait);
    match IntSetting(env.config, "emergency_duration", 300)
    case Raise(e) => Done(Raise(e), reset.(record := recorded), None)
    case Return(duration) =>
      var unlocked := DailyState.SetUnlocked(recorded, today, now, duration);
      var hosts := Hosts.Apply(reset.hostsFile, Hosts.UnblockSites(reset.hostsFile));
      var s := SyncRemote(env, unlocked, today, now);
      Done(Return((true, "Emergency unlock activated for " + IntToString(duration / 60) + " minutes. "
                         + IntToString(maxPerDay - count) + " emergency unlocks remaining today.")),
           World(s.record, reset.cache, hosts), s.sent)
  }

  /** At the daily cap the answer is false and nothing but the day reset happens. */
  lemma EmergencyAtCap(env: Env, w: World, today: string, now: int, interactive: bool, answer: Confirmation)
    requires IntSetting(env.config, "emergency_max_per_day", 3).Return?
    requires DailyState.CountOf(DailyState.DayReset(w.record, today)) >= IntSetting(env.config, "emergency_max_per_day", 3).value
    ensures var r := EmergencyUnlock(env, w, today, now, interactive, answer);
      && r.out.Return? && !r.out.value.0
      && r.world == w.(record := DailyState.DayReset(w.record, today))
      && r.sent == None
  {
  }

  /** An interrupted prompt or a wrong phrase cancels before anything is recorded. */
  lemma EmergencyCancelled(env: Env, w: World, today: string, now: int, answer: Confirmation)
    requires !Confirmed(answer)
    ensures var r := EmergencyUnlock(env, w, today, now, true, answer);
      r.out.Return? ==> !r.out.value.0 && r.world == w.(record := DailyState.DayReset(w.record, today)) && r.sent == None
  {
  }

  /** Below the cap, a non-interactive unlock (or one confirmed with the phrase)
      records one more emergency unlock with wait `initial * multiplier ^ count`,
      opens the window `[now, now + duration)` and removes the block section. */
  lemma EmergencyUnlockMeaning(env: Env, w: World, today: string, now: int, interactive: bool, answer: Confirmation)
    requires !interactive || Confirmed(answer)
    requires IntSetting(env.config, "emergency_max_per_day", 3).Return?
    requires IntSetting(env.config, "emergency_initial_wait", 30).Return?
    requires IntSetting(env.config, "emergency_wait_multiplier", 2).Return?
    requires IntSetting(env.config, "emergency_duration", 300).Return?
    requires DailyState.CountOf(DailyState.DayReset(w.record, today)) < IntSetting(env.config, "emergency_max_per_day", 3).value
    ensures var r := EmergencyUnlock(env, w, today, now, interactive, answer);
      var before := DailyState.DayReset(w.record, today);
      var initial := IntSetting(env.config, "emergency_initial_wait", 30).value;
      var multiplier := IntSetting(env.config, "emergency_wait_multiplier", 2).value;
      var duration := IntSetting(env.config, "emergency_duration", 300).value;
      && r.out.Return? && r.out.value.0
      && DailyState.CountOf(r.world.record) == DailyState.CountOf(before) + 1
      && r.world.record.lastEmergencyWait == Some(initial * DailyState.Pow(multiplier, DailyState.CountOf(before)))
      && (now < now + duration ==>
            DailyState.UntilOf(r.world.record) == now + duration && r.world.record.blocked == Some(false))
      && r.world.hostsFile == Hosts.Apply(w.hostsFile, Hosts.UnblockSites(w.hostsFile))
      && r.world.cache == w.cache
  {
    var reset := w.(record := DailyState.DayReset(w.record, today));
    var initial := IntSetting(env.config, "emergency_initial_wait", 30).value;
    var multiplier := IntSetting(env.config, "emergency_wait_multiplier", 2).value;
    var maxPerDay := IntSetting(env.config, "emergency_max_per_day", 3).value;
    var wait := DailyState.NextEmergencyWait(w.record, today, initial, multiplier).value;
    var settings := Config.UnlockSettings(env.config);
    assert settings.JObj? && NoteParser.Numeric(FieldOr(settings, "emergency_max_per_day", JInt(3))) == Some(maxPerDay);
    assert EmergencyUnlock(env, w, today, now, interactive, answer)
        == EmergencyGrant(env, reset, today, now, wait, maxPerDay);
    DailyState.DayResetIdempotent(w.record, today);
    EmergencyGrantMeaning(env, reset, today, now, wait, maxPerDay);
  }

  /** Granting records one more emergency unlock with the wait given, opens the
      window for the configured duration, removes the block section and leaves the
      cache alone. */
  lemma EmergencyGrantMeaning(env: Env, reset: World, today: string, now: int, wait: int, maxPerDay: int)
    requires IntSetting(env.config, "emergency_duration", 300).Return?
    ensures var r := EmergencyGrant(env, reset, today, now, wait, maxPerDay);
      var duration := IntSetting(env.config, "emergency_duration", 300).value;
      && r.out.Return? && r.out.value.0
      && DailyState.CountOf(r.world.record) == DailyState.CountOf(DailyState.DayReset(reset.record, today)) + 1
      && r.world.record.lastEmergencyWait == Some(wait)
      && (now < now + duration ==>
            DailyState.UntilOf(r.world.record) == now + duration && r.world.record.blocked == Some(false))
      && r.world.hostsFile == Hosts.Apply(reset.hostsFile, Hosts.UnblockSites(reset.hostsFile))
      && r.world.cache == reset.cache
  {
    var duration := IntSetting(env.config, "emergency_duration", 300).value;
    EmergencyRecord(env, reset.record, today, now, wait, duration);
  }

  /** The record an emergency grant leaves, after the remote sync has read it: one
      more emergency unlock with its wait, and open for the duration when it is
      positive. */
  lemma EmergencyRecord(env: Env, record: DailyState.DayRecord, today: string, now: int, wait: int, duration: int)
    ensures var r := SyncRemote(env, DailyState.SetUnlocked(DailyState.RecordEmergency(record, today, wait), today, now, duration), today, now).record;
      && DailyState.CountOf(r) == DailyState.CountOf(DailyState.DayReset(record, today)) + 1
      && r.lastEmergencyWait == Some(wait)
      && (now < now + duration ==> DailyState.UntilOf(r) == now + duration && r.blocked == Some(false))
  {
    var unlocked := DailyState.SetUnlocked(DailyState.RecordEmergency(record, today, wait), today, now, duration);
    SyncRemoteMeaning(env, unlocked, today, now);
  }

  // ---------------------------------------------------------------------------
  // force_block, sync_blocking_state, get_status

  /** `force_block`: close the window, write the block section, sync. */
  function ForceBlock(env: Env, w: World, today: string, now: int): Done<string> {
    var blocked := DailyState.ForceBlock(w.record, today);
    var hosts := Hosts.Apply(w.hostsFile, Hosts.BlockSites(w.hostsFile, env.sites));
    var s := SyncRemote(env, blocked, today, now);
    Done(Return("Sites are now blocked."), World(s.record, w.cache, hosts), s.sent)
  }

  /** After a force-block the record reads as blocked, the hosts file has the block
      section for the configured sites (up to surrounding whitespace), and an enabled
      remote receives the full list. */
  lemma ForceBlockMeaning(env: Env, w: World, today: string, now: int)
    ensures var r := ForceBlock(env, w, today, now);
      && DailyState.IsBlocked(r.world.record, today, now).value
      && DailyState.UntilOf(r.world.record) == 0
      && Strip(r.world.hostsFile) == Strip(Hosts.BlockedContent(w.hostsFile, env.sites))
      && (env.remote.Some? && Truthy(env.remote.value.enabled) ==> r.sent == Some(env.sites))
  {
    var blocked := DailyState.ForceBlock(w.record, today);
    SyncRemoteMeaning(env, blocked, today, now);
    DailyState.ForceBlockBlocks(w.record, today, now);
  }

  /** `sync_blocking_state`: bring the hosts file and the remote in line with the
      blocked state. */
  function SyncBlockingState(env: Env, w: World, today: string, now: int): Done<()> {
    var b := DailyState.IsBlocked(w.record, today, now);
    var hosts := Hosts.Apply(w.hostsFile, Hosts.SyncWithConfig(w.hostsFile, env.sites, b.value));
    var s := SyncRemote(env, b.record, today, now);
    Done(Return(()), World(s.record, w.cache, hosts), s.sent)
  }

  /** The hosts file is synced with exactly the blocked state, and an enabled remote
      gets the full list while blocked and the empty list while unlocked. */
  lemma SyncBlockingStateMeaning(env: Env, w: World, today: string, now: int)
    ensures var r := SyncBlockingState(env, w, today, now);
      var b := DailyState.IsBlocked(w.record, today, now);
      && r.world.hostsFile == Hosts.Apply(w.hostsFile, Hosts.SyncWithConfig(w.hostsFile, env.sites, b.value))
      && r.world.record == b.record
      && (env.remote.Some? && Truthy(env.remote.value.enabled) ==>
            r.sent == Some(if b.value then env.sites else []))
      && (env.remote.None? ==> r.sent == None)
  {
    var b := DailyState.IsBlocked(w.record, today, now);
    SyncRemoteMeaning(env, b.record, today, now);
    DailyState.IsBlockedStable(w.record, today, now);
  }

  /** `get_status`: the record's summary, the condition report, and the remaining
      emergency unlocks against the configured cap (which may go negative). */
  datatype ManagerStatus = ManagerStatus(state: DailyState.Status, conditions: seq<Row>, emergencyRemaining: int)

  function GetStatus(env: Env, w: World, today: string, localToday: string, now: int): Done<ManagerStatus> {
    var st := DailyState.GetStatus(w.record, today, localToday, now);
    var c := CheckAllConditions(env, w.cache);
    var w1 := w.(record := st.record, cache := c.cache);
    match c.out
    case Raise(e) => Done(Raise(e), w1, None)
    case Return((_, rows)) =>
      match IntSetting(env.config, "emergency_max_per_day", 3)
      case Raise(e) => Done(Raise(e), w1, None)
      case Return(m) => Done(Return(ManagerStatus(st.value, rows, m - st.value.emergencyCount)), w1, None)
  }

  /** The status adds the condition report and the emergency unlocks left under the
      configured cap; the count plus the remainder is the cap. */
  lemma GetStatusMeaning(env: Env, w: World, today: string, localToday: string, now: int)
    requires CheckAllConditions(env, w.cache).out.Return?
    requires IntSetting(env.config, "emergency_max_per_day", 3).Return?
    ensures var r := GetStatus(env, w, today, localToday, now);
      && r.out.Return?
      && r.out.value.state.date == localToday
      && r.out.value.conditions == CheckAllConditions(env, w.cache).out.value.1
      && r.out.value.state.emergencyCount + r.out.value.emergencyRemaining
         == IntSetting(env.config, "emergency_max_per_day", 3).value
      && r.out.value.state.blocked == DailyState.IsBlocked(w.record, today, now).value
      && r.world.hostsFile == w.hostsFile && r.sent == None
  {
  }
}

=== FILE: wordcount.dfy ===
/**
 * `WordCounter` (lib/wordcount.py): words in the files linked from a section of
 * the daily note, summed and compared with a minimum.
 */
module WordCount {
  import opened Wrappers
  import opened Text
  import opened JsonData
  import opened Outcomes
  import Headings
  import Markdown
  import NoteParser

  // ---------------------------------------------------------------------------
  // count_words

  /** The text `count_words` counts in: what follows the frontmatter when there is
      one, otherwise the whole text. */
  function Body(text: string): string {
    match Markdown.FrontmatterSplit(text)
    case Some((_, rest)) => rest
    case None => text
  }

  /** `count_words(text)`: the whitespace-separated words left once the
      frontmatter is dropped and each wiki-link is replaced by its alias. */
  function CountWords(text: string): nat {
    if text == "" then 0 else |Words(Markdown.Unlink(Body(text)))|
  }

  /** Frontmatter is not counted: after a `---` fence pair only the rest counts. */
  lemma FrontmatterNotCounted(y: string, b: string)
    requires Markdown.NoFence(y)
    ensures CountWords("---" + y + "---" + b) == |Words(Markdown.Unlink(b))|
  {
    Markdown.FrontmatterSplitMeaning("---" + y + "---" + b, y, b);
  }

  /** In a text written from plain runs and links, with no frontmatter, the words
      counted are those of the plain runs and the aliases: an unaliased link
      contributes nothing. */
  lemma LinksCountTheirAliases(parts: seq<Markdown.LinkText>, tail: string)
    requires forall k | 0 <= k < |parts| :: Markdown.WellFormed(parts[k])
    requires Markdown.Plain(tail)
    requires Markdown.FrontmatterSplit(Markdown.Render(parts, tail)).None?
    ensures CountWords(Markdown.Render(parts, tail)) == |Words(Markdown.Unlinked(parts, tail))|
  {
    Markdown.RenderRoundTrip(parts, tail);
    if Markdown.Render(parts, tail) == "" {
      assert Markdown.Unlink("") == "";
    }
  }

  /** Text with no `[` and no frontmatter counts its own words. Python agrees for
      text that also has none of `#`, `-`, `*`, `_`, `<`, `` ` `` and `!`, which the
      rewriting steps of `count_words` left out of this model would change. */
  lemma PlainTextCount(text: string)
    requires Markdown.Plain(text) && Markdown.FrontmatterSplit(text).None?
    ensures CountWords(text) == |Words(text)|
  {
    Markdown.SkipPlainUnlink(text, "");
    assert text + "" == text;
    assert Markdown.Unlink("") == "";
  }

  // ---------------------------------------------------------------------------
  // get_linked_files_wordcount

  /** One `(link, count)` entry for each link that resolves to a file: the file's
      word count, or 0 when it cannot be read. Links that do not resolve are left
      out. */
  function FileCounts(vault: NoteParser.Vault, links: seq<string>): seq<(string, nat)>
    decreases |links|
  {
    if |links| == 0 then []
    else
      var rest := FileCounts(vault, links[1..]);
      if links[0] in vault.linked then
        match vault.linked[links[0]]
        case Readable(c) => [(links[0], CountWords(c))] + rest
        case Unreadable => [(links[0], 0)] + rest
      else rest
  }

  function SumCounts(counts: seq<(string, nat)>): nat
    decreases |counts|
  {
    if |counts| == 0 then 0 else counts[0].1 + SumCounts(counts[1..])
  }

  /** The loop of `get_linked_files_wordcount`, with the running total and list. */
  function Tally(vault: NoteParser.Vault, links: seq<string>, total: nat, counts: seq<(string, nat)>)
    : (nat, seq<(string, nat)>)
    decreases |links|
  {
    if |links| == 0 then (total, counts)
    else if links[0] in vault.linked then
      match vault.linked[links[0]]
      case Readable(c) =>
        var n := CountWords(c);
        Tally(vault, links[1..], total + n, counts + [(links[0], n)])
      case Unreadable => Tally(vault, links[1..], total, counts + [(links[0], 0)])
    else Tally(vault, links[1..], total, counts)
  }

  lemma {:induction false} SumAppend(a: seq<(string, nat)>, b: seq<(string, nat)>)
    ensures SumCounts(a + b) == SumCounts(a) + SumCounts(b)
    decreases |a|
  {
    if |a| > 0 {
      assert (a + b)[1..] == a[1..] + b;
      SumAppend(a[1..], b);
    } else {
      assert a + b == b;
    }
  }

  /** The loop appends each resolved link's entry in order and keeps the total equal
      to the sum of the entries. */
  lemma {:induction false} TallyMeaning(vault: NoteParser.Vault, links: seq<string>, total: nat, counts: seq<(string, nat)>)
    requires total == SumCounts(counts)
    ensures Tally(vault, links, total, counts).1 == counts + FileCounts(vault, links)
    ensures Tally(vault, links, total, counts).0 == SumCounts(Tally(vault, links, total, counts).1)
    decreases |links|
  {
    if |links| == 0 {
      assert counts + [] == counts;
    } else if links[0] in vault.linked {
      var rest := FileCounts(vault, links[1..]);
      match vault.linked[links[0]] {
        case Readable(c) =>
          var e := (links[0], CountWords(c));
          SumAppend(counts, [e]);
          TallyMeaning(vault, links[1..], total + e.1, counts + [e]);
          assert counts + [e] + rest == counts + ([e] + rest);
        case Unreadable =>
          var e := (links[0], 0);
          SumAppend(counts, [e]);
          TallyMeaning(vault, links[1..], total, counts + [e]);
          assert counts + [e] + rest == counts + ([e] + rest);
      }
    } else {
      TallyMeaning(vault, links[1..], total, counts);
    }
  }

  /** Every entry names a link that resolves, and no entry counts a file that could
      not be read. */
  lemma {:induction false} FileCountsResolved(vault: NoteParser.Vault, links: seq<string>)
    ensures forall k | 0 <= k < |FileCounts(vault, links)| ::
      var (link, n) := FileCounts(vault, links)[k];
      link in links && link in vault.linked
      && (vault.linked[link].Unreadable? ==> n == 0)
      && (vault.linked[link].Readable? ==> n == CountWords(vault.linked[link].content))
    ensures (forall k | 0 <= k < |links| :: links[k] !in vault.linked) ==> FileCounts(vault, links) == []
    decreases |links|
  {
    if |links| > 0 {
      FileCountsResolved(vault, links[1..]);
      assert forall l | l in links[1..] :: l in links;
    }
  }

  /** `get_linked_files_wordcount(section, any_level)`: the total and the per-file
      counts; `(0, [])` when the note, the section or any link is missing. */
  function LinkedFilesWordcount(vault: NoteParser.Vault, section: string, anyLevel: bool)
    : (nat, seq<(string, nat)>)
  {
    match vault.note
    case None => (0, [])
    case Some(content) =>
      match Headings.SectionContent(content, section, anyLevel)
      case None => (0, [])
      case Some(sc) =>
        var links := Markdown.ExtractLinks(sc);
        if links == [] then (0, []) else Tally(vault, links, 0, [])
  }

  /** Nothing is counted without a note, a section or a link; otherwise the entries
      are the resolved links of the section in order and the total is their sum. */
  lemma LinkedFilesWordcountMeaning(vault: NoteParser.Vault, section: string, anyLevel: bool)
    ensures var (total, counts) := LinkedFilesWordcount(vault, section, anyLevel);
      && total == SumCounts(counts)
      && (vault.note.None? ==> counts == [])
      && (vault.note.Some? && Headings.SectionContent(vault.note.value, section, anyLevel).None? ==> counts == [])
      && (vault.note.Some? && Headings.SectionContent(vault.note.value, section, anyLevel).Some? ==>
            counts == FileCounts(vault, Markdown.ExtractLinks(Headings.SectionContent(vault.note.value, section, anyLevel).value)))
  {
    if vault.note.Some? {
      var sc := Headings.SectionContent(vault.note.value, section, anyLevel);
      if sc.Some? {
        var links := Markdown.ExtractLinks(sc.value);
        TallyMeaning(vault, links, 0, []);
        assert [] + FileCounts(vault, links) == FileCounts(vault, links);
      }
    }
  }

  // ---------------------------------------------------------------------------
  // check_wordcount_condition

  /** `name: count, name: count, ...`. */
  function FilesInfo(counts: seq<(string, nat)>): string
    decreases |counts|
  {
    if |counts| == 0 then ""
    else
      var entry := counts[0].0 + ": " + NatToString(counts[0].1);
      if |counts| == 1 then entry else entry + ", " + FilesInfo(counts[1..])
  }

  /** What `get_section_content` raises for a section that is not a string: the
      escape for any level, `.startswith` otherwise. */
  function SectionError(v: Json, anyLevel: bool): Exception {
    if anyLevel then NoteParser.EscapeError(v) else NoAttribute(v, "startswith")
  }

  /** `get_linked_files_wordcount(section, any_level)` for a section of any type:
      the note is read before the section is used, so without a note nothing
      raises. */
  function SectionWordcount(vault: NoteParser.Vault, section: Json, anyLevel: bool)
    : Outcome<(nat, seq<(string, nat)>)>
  {
    if vault.note.None? then Return((0, []))
    else if !section.JStr? then Raise(SectionError(section, anyLevel))
    else Return(LinkedFilesWordcount(vault, section.s, anyLevel))
  }

  /** `check_wordcount_condition(condition_config)`: met, description and total.
      With a note, a section that is not a string raises; so does a minimum that is
      not a number. */
  function CheckWordcountCondition(vault: NoteParser.Vault, config: Json): Outcome<(bool, string, nat)> {
    var section := FieldOr(config, "section", JStr("Writing"));
    var anyLevel := Truthy(FieldOr(config, "section_any_level", JBool(true)));
    var minimum := FieldOr(config, "minimum", JInt(500));
    WordcountAfter(section, minimum, SectionWordcount(vault, section, anyLevel))
  }

  /** The rest of `check_wordcount_condition` once the files are counted (or the
      counting raised `sw`'s exception): the total is compared with the minimum. */
  function WordcountAfter(section: Json, minimum: Json, sw: Outcome<(nat, seq<(string, nat)>)>)
    : Outcome<(bool, string, nat)>
  {
    if sw.Raise? then Raise(sw.error)
    else if NoteParser.Numeric(minimum).None? then
      Raise(OtherError("TypeError", "'>=' not supported between instances of 'int' and '" + TypeName(minimum) + "'"))
    else
      var (total, counts) := sw.value;
      Return((total >= NoteParser.Numeric(minimum).value, WordcountDescription(section, minimum, total, counts), total))
  }

  /** After counting, the check raises what counting raised. */
  lemma WordcountAfterRaise(section: Json, minimum: Json, sw: Outcome<(nat, seq<(string, nat)>)>)
    requires sw.Raise?
    ensures WordcountAfter(section, minimum, sw) == Raise(sw.error)
  {
  }

  /** After counting, the check answers only for a count and a numeric minimum. */
  lemma WordcountAfterAnswers(section: Json, minimum: Json, sw: Outcome<(nat, seq<(string, nat)>)>)
    ensures WordcountAfter(section, minimum, sw).Return? ==> sw.Return? && NoteParser.Numeric(minimum).Some?
  {
  }

  /** An answer after counting reports the counted total, is met exactly when the
      total reaches the minimum, and says no file was found exactly when none was
      counted. */
  lemma WordcountAfterMeaning(section: Json, minimum: Json, sw: Outcome<(nat, seq<(string, nat)>)>)
    requires sw.Return? && NoteParser.Numeric(minimum).Some?
    ensures var r := WordcountAfter(section, minimum, sw);
      && r.Return?
      && r.value.2 == sw.value.0
      && (r.value.0 <==> sw.value.0 >= NoteParser.Numeric(minimum).value)
      && (r.value.1 == NoLinkedFiles(section) <==> sw.value.1 == [])
  {
    WordcountDescriptionMeaning(section, minimum, sw.value.0, sw.value.1);
  }

  /** The word count description: that no file was found, or the total against the
      minimum with each file's count. */
  function WordcountDescription(section: Json, minimum: Json, total: nat, counts: seq<(string, nat)>): string {
    if counts == [] then NoLinkedFiles(section)
    else "Word count: " + NatToString(total) + "/" + Show(minimum) + " (" + FilesInfo(counts) + ")"
  }

  /** The description when no linked file is found under `section`. */
  function NoLinkedFiles(section: Json): string {
    "No linked files found under '" + Show(section) + "' section"
  }

  /** The description says no file was found exactly when none was counted. */
  lemma WordcountDescriptionMeaning(section: Json, minimum: Json, total: nat, counts: seq<(string, nat)>)
    ensures WordcountDescription(section, minimum, total, counts) == NoLinkedFiles(section) <==> counts == []
  {
    if counts != [] {
      assert WordcountDescription(section, minimum, total, counts)[0] == 'W';
      assert NoLinkedFiles(section)[0] == 'N';
    }
  }

  /** With a note, a section that is not a string raises: a `TypeError` from the
      escape for any level and an `AttributeError` otherwise. */
  lemma WordcountSectionRaises(vault: NoteParser.Vault, config: Json)
    requires vault.note.Some? && !FieldOr(config, "section", JStr("Writing")).JStr?
    ensures var r := CheckWordcountCondition(vault, config);
      var anyLevel := Truthy(FieldOr(config, "section_any_level", JBool(true)));
      r.Raise? && r.error.OtherError? && r.error.name == (if anyLevel then "TypeError" else "AttributeError")
  {
    var section := FieldOr(config, "section", JStr("Writing"));
    var anyLevel := Truthy(FieldOr(config, "section_any_level", JBool(true)));
    WordcountAfterRaise(section, FieldOr(config, "minimum", JInt(500)), SectionWordcount(vault, section, anyLevel));
  }

  /** Without a note nothing is counted, whatever the section, and the description
      says no linked file was found under it. */
  lemma WordcountNoNote(vault: NoteParser.Vault, config: Json)
    requires vault.note.None? && NoteParser.Numeric(FieldOr(config, "minimum", JInt(500))).Some?
    ensures var r := CheckWordcountCondition(vault, config);
      && r.Return? && r.value.2 == 0
      && r.value.1 == "No linked files found under '" + Show(FieldOr(config, "section", JStr("Writing"))) + "' section"
  {
    var section := FieldOr(config, "section", JStr("Writing"));
    var anyLevel := Truthy(FieldOr(config, "section_any_level", JBool(true)));
    WordcountAfterMeaning(section, FieldOr(config, "minimum", JInt(500)), SectionWordcount(vault, section, anyLevel));
  }

  /** An answer counts a string section (nothing without a note) against a numeric
      minimum, is met exactly when the total reaches the minimum, and says no files
      were found exactly when none were counted. */
  lemma WordcountMeaning(vault: NoteParser.Vault, config: Json)
    ensures var r := CheckWordcountCondition(vault, config);
      var section := FieldOr(config, "section", JStr("Writing"));
      var anyLevel := Truthy(FieldOr(config, "section_any_level", JBool(true)));
      var minimum := FieldOr(config, "minimum", JInt(500));
      r.Return? ==>
        && (section.JStr? || vault.note.None?) && NoteParser.Numeric(minimum).Some?
        && r.value.2 == (if section.JStr? then LinkedFilesWordcount(vault, section.s, anyLevel).0 else 0)
        && (r.value.0 <==> r.value.2 >= NoteParser.Numeric(minimum).value)
        && (r.value.1 == NoLinkedFiles(section)
            <==> !section.JStr? || LinkedFilesWordcount(vault, section.s, anyLevel).1 == [])
  {
    var section := FieldOr(config, "section", JStr("Writing"));
    var anyLevel := Truthy(FieldOr(config, "section_any_level", JBool(true)));
    var minimum := FieldOr(config, "minimum", JInt(500));
    var sw := SectionWordcount(vault, section, anyLevel);
    WordcountAfterAnswers(section, minimum, sw);
    if sw.Return? && NoteParser.Numeric(minimum).Some? {
      WordcountAfterMeaning(section, minimum, sw);
    }
  }

  /** With no configuration the condition counts the "Writing" section at any
      level and is met from 500 words on. */
  lemma WordcountDefault(vault: NoteParser.Vault)
    ensures var r := CheckWordcountCondition(vault, EmptyObject);
      r.Return? && (r.value.0 <==> LinkedFilesWordcount(vault, "Writing", true).0 >= 500)
  {
    var sw := SectionWordcount(vault, JStr("Writing"), true);
    assert CheckWordcountCondition(vault, EmptyObject) == WordcountAfter(JStr("Writing"), JInt(500), sw);
    WordcountAfterMeaning(JStr("Writing"), JInt(500), sw);
  }
}

=== FILE: wrappers.dfy ===
/** Failure-compatible option type shared by every module of the model. */
module Wrappers {

  /** `None` stands for Python's `None` / a missing value. */
  datatype Option<+T> = None | Some(value: T) {

    /** The wrapped value, or `default` when there is none. */
    function GetOr(default: T): T {
      match this
      case Some(v) => v
      case None => default
    }
  }
}
